=== FILE: README.md ===
# emo: a Dafny model of the emoji registry

`emo` is a LaTeX package for colour emoji. Its Python tooling reads
Unicode's `emoji-test.txt` listing (Unicode Technical Standard #51),
normalises emoji names, groups and subgroups, selects emoji, writes the
`emo.def` table of LaTeX definitions, names the Noto SVG and PDF files
of every emoji, and strips the page group object from the single-page
PDF that `rsvg-convert` produces (via `qpdf`'s JSON form).

This project models that core in Dafny and proves properties of it. The
repository has three generations of the same code, and all three are
modelled:

- `config/emo.py`, the current tool:
  - name normalisation (`to_name`, `to_group`, `to_subgroup`, selectors);
  - codepoint coercion and regional indicators;
  - the `Emoji` descriptor with all its derived file names and LaTeX forms;
  - the `RegistryParser` state machine;
  - `Registry` lookup and selection, and the ordering of
    `write_latex_table`;
  - `remove_page_group_object`.
- `scripts/emo.py`, the earlier script:
  - the weaker name normalisation;
  - `svg_file` with its remapping table;
  - the two-shape LaTeX entry;
  - `_parse_line`;
  - the `Registry` constructor;
  - `_remove_page_group_object`.
- `emo.py`, the first prototype (`Emoji.of`, `dashed`, `codepoints`, the
  file names, `to_latex_chars`, `to_latex_table_entry` and
  `remove_page_group_object`), and `degroup` from
  `scripts/fix-page-groups.py`.

Modules, in dependency order:

| module | file | models |
|---|---|---|
| `Wrappers` | wrappers.dfy | `Option` and `Result` |
| `Strings` | strings.dfy | ASCII lowering, `str.strip`, hex formatting and parsing, `split`/`join`, `str.replace` |
| `Dicts` | dicts.dfy | insertion-ordered Python dictionaries |
| `Names` | names.dfy | `to_name`, `to_group`, `to_subgroup`, selectors, the diversity pattern |
| `Codepoints` | codepoints.dfy | `to_codepoint(s)`, regional indicators |
| `Emojis` | emojis.dfy | `Status`, `Emoji` of `config/emo.py`, `LatexCommand` |
| `Declaration` | declaration.dfy | the emoji declaration regular expression, as a grammar with a renderer |
| `Lines` | lines.dfy | `readline`, `parse_line` |
| `Parser` | parser.dfy | `RegistryParser` |
| `Registry` | registry.dfy | `Registry`: lookup, selection, the table order |
| `ScriptsEmo` | scripts_emo.dfy | `scripts/emo.py` |
| `Prototype` | prototype_emo.dfy | `emo.py` |
| `PageGroups` | pagegroup.dfy | the four page group removers over qpdf JSON |

Python exceptions are modelled as `Err` values. Python's mutation of a
dictionary in place becomes a function that returns the new value. Each
Python `dict` keeps its insertion order through `Dicts.Dict`, a key
sequence plus a map, because the LaTeX table is written in that order.

## Model

| member | source | states |
|---|---|---|
| Names.RemoveChars | config/emo.py:206-291 | deleting the punctuation class keeps exactly the characters outside it and never lengthens the name |
| Names.RemoveCharsConcat | config/emo.py:291 | deleting distributes over concatenation, so the kept characters stay in their order |
| Names.CollapseSeparators | config/emo.py:207-292 | replacing separator runs by `-` leaves no space, no underscore and no two adjacent separators; it keeps the word characters in their order; it is empty iff the input is; it starts with a separator iff the input does |
| Names.CollapseWord | config/emo.py:292 | a separator-free word in front passes through unchanged |
| Names.CollapseRun | config/emo.py:292 | a whole run of separators in front becomes exactly one `-`; with Names.CollapseWord this fixes the result piece by piece |
| Names.CollapseChars | config/emo.py:292 | the only character the collapse adds is `-` |
| Names.CollapseHyphen | config/emo.py:292 | the collapsed name contains `-` iff the input contains any separator |
| Names.CollapseFixpoint | config/emo.py:292 | a name that is already collapsed is left unchanged |
| Names.CollapseIdempotent | config/emo.py:292 | collapsing twice is collapsing once |
| Names.ToNameShape | config/emo.py:288-301 | before the override table the name is lower case, free of the punctuation class, spaces and underscores, and has no `--`; the result is that name, or its override when it has one |
| Names.ToNameOfPlain | config/emo.py:288-301 | for a lower-case name without punctuation or separator runs, `to_name` hyphenates the separators, then replaces skin tones, then renames |
| Names.SkinToneOrder | config/emo.py:294-299 | the five replacements run in source order, so `medium-dark-skin-tone` becomes `darker`, and `medium-skin-tone` and `light-skin-tone` are not rewritten to `darkest`/`lighter` first |
| Names.ToNameNotIdempotent | config/emo.py:288-301 | `to_name` is not idempotent: `medium skin tone skin tone` gives `medium-skin-tone`, which gives `medium` |
| Names.ToName | config/emo.py:288-301 | `to_name`: lower-case, delete punctuation, collapse separators, replace the five skin tones in order, then apply the override table; Names.ToNameShape, Names.ToNameOfPlain and Names.SkinToneOrder state its properties |
| Names.RenamingExample | config/emo.py:210-258 | the override table applies after normalisation: `Rolling on the Floor Laughing` becomes `rofl` |
| Names.SubstituteAmpersandsRemovesAll | config/emo.py:333 | substituting `[ ]*&[ ]*` by `-and-` leaves no `&` |
| Names.SubstituteAmpersandsIdentity | config/emo.py:333 | a name without `&` is unchanged by the substitution |
| Names.SubstituteAmpersands | config/emo.py:333 | `AMPERSAND.sub('-and-', _)`: each `&` with the spaces around it becomes `-and-`; Names.SubstituteAmpersandsRemovesAll and Names.SubstituteAmpersandsIdentity state its properties |
| Names.ToGroup | config/emo.py:348-351 | `to_group`: lower-case, expand an abbreviation from `SHORT_GROUPS`, substitute ampersands; Names.ToGroupIdempotent and Names.ToGroupExamples state its properties |
| Names.ToSubgroup | config/emo.py:353-355 | `to_subgroup`: lower-case and substitute ampersands; Names.ToSubgroupIdempotent states its properties |
| Names.IsSubgroupSelector | config/emo.py:360-361 | a selector is a subgroup selector iff `::` occurs in it; by Strings.LacksContains that is exactly when Names.SplitSubgroupSelector gives more than one part |
| Names.ToGroupIdempotent | config/emo.py:348-351 | a normalised group is lower case, has no `&` and is no abbreviation; normalising it again changes nothing |
| Names.ToSubgroupIdempotent | config/emo.py:353-355 | a normalised subgroup is lower case and has no `&`; normalising it again changes nothing |
| Names.ToGroupExamples | config/emo.py:335-351 | the abbreviation `smileys` and the spelled-out `Smileys & Emotion` normalise to the same group |
| Names.SplitSubgroupSelector | config/emo.py:363-364 | the parts of the lower-cased selector, joined by `::`, give it back; there is at least one part; every part but the last, with the `:` after it, holds no `::`, and the last holds none, so each cut is at the leftmost `::` (for `a:::b` the parts are `a` and `:b`) |
| Strings.SplitLeftmost | config/emo.py:364 | `str.split` cuts at the leftmost occurrence each time: no piece but the last, followed by the separator without its last character, holds the separator, and the last piece holds none |
| Strings.LacksContains | config/emo.py:361 | the position-by-position absence test is exactly the negation of `in` on strings |
| Names.IsDiverseName | config/emo.py:277-286 | the scan returns true iff some hair, skin, gender token occurs in the name and is not next to a lower-case letter on either side |
| Names.DiverseWoman | config/emo.py:463-465 | `woman-gesturing-ok` is diverse |
| Names.DiverseDarker | config/emo.py:463-465 | `waving-hand-darker` is diverse |
| Names.NotDiverseMandarin | config/emo.py:277-286 | `mandarin` is not diverse, because `man` is followed by a letter |
| Codepoints.ToCodepoint | config/emo.py:307-312 | an integer passes through; a string loses one `0x` or `U+` prefix and succeeds iff `int(_, 16)` reads the rest, with that value, which may be negative; otherwise the error is the string itself |
| Codepoints.ParseInt16OfHex | config/emo.py:312 | a plain run of hexadecimal digits reads as its value, and the empty string fails |
| Codepoints.ParseInt16Accepts | config/emo.py:312 | `int(_, 16)` accepts surrounding whitespace, one sign, a `0x`/`0X` prefix with an optional `_`, and digits with single `_` between them, and reads the digits' value, negated after `-` |
| Codepoints.ParseInt16Shape | config/emo.py:312 | every string `int(_, 16)` accepts has the shape of Codepoints.ParseInt16Accepts, so the two describe exactly the accepted strings |
| Codepoints.ParseInt16NeedsDigit | config/emo.py:312 | a string without a hexadecimal digit is a `ValueError` |
| Codepoints.ToCodepointSpellings | config/emo.py:310-312 | a non-empty run of hex digits, bare or after `U+` or `0x`, parses to its value |
| Codepoints.ToCodepointForms | config/emo.py:310-312 | whitespace, a sign and `_` between digits are accepted bare and after `U+` or `0x`, with the same value: ` 1F600 ` and `1_F600` read as 0x1F600, `-1` as -1 |
| Codepoints.ToCodepointRejects | config/emo.py:310-312 | a string without any hex digit fails, with or without the `U+` prefix |
| Codepoints.ToCodepointOfHex4 | config/emo.py:307-312 | the `U+XXXX` and `xxxx` forms of a number parse back to it |
| Codepoints.ToCodepointList | config/emo.py:317 | the list converts iff every element does; the result is element-wise; a failure is the error of the first element that fails |
| Codepoints.FirstErrorShift | config/emo.py:317 | a first failure in the tail after a good head is the first failure of the whole list |
| Codepoints.ToCodepoints | config/emo.py:314-317 | a string gives the ordinal of each character; other values go element-wise through `to_codepoint`; the length is kept |
| Codepoints.Display | config/emo.py:417-419 | the display string has one character per codepoint, with that codepoint as its ordinal |
| Codepoints.DisplayRoundTrip | config/emo.py:314-316 | the codepoints of a display string are the codepoints it was made from, and the reverse |
| Codepoints.RegionalIndicatorToLetter | config/emo.py:319-327 | a regional indicator maps to the letter at the same offset from `A` |
| Codepoints.RegionalIndicatorLetters | config/emo.py:319-327 | letter and regional indicator convert into each other without loss |
| Emojis.ParseStatus | config/emo.py:370-374 | a status word is accepted only as the value it spells |
| Emojis.StatusRoundTrip | config/emo.py:429-430 | every status parses back from its value |
| Emojis.New | config/emo.py:417-419 | an emoji is built iff every codepoint is a Unicode scalar; the fields are those given; otherwise the error names a bad codepoint |
| Emojis.Of | config/emo.py:421-433 | an unknown status fails, then a version `float` rejects, then a malformed codepoint token; past those checks the emoji is built iff every codepoint is a Unicode scalar, and otherwise the error names a codepoint that is not; the codepoints are the converted value; the name goes through `to_name`; the status and version are the parsed arguments |
| Emojis.OfText | config/emo.py:421-433 | an emoji made from a string always exists and displays as that string |
| Emojis.LexLessStrictTotal | config/emo.py:408-412 | comparison on codepoints is irreflexive, transitive and total |
| Emojis.EmojiOrder | config/emo.py:408-412 | emoji are equal iff their codepoints are equal, whatever their names; order is strict and total on codepoints |
| Emojis.UnicodeRoundTrip | config/emo.py:467-469 | splitting the `U+XXXX` notation and converting each word gives back the codepoints |
| Emojis.Unicode | config/emo.py:467-469 | `unicode`: `U+` and at least four upper-case hex digits per codepoint, joined by spaces; Emojis.UnicodeRoundTrip states its property |
| Emojis.LatexCharsRoundTrip | config/emo.py:471-473 | the `\char"XXXX` notation parses back to the codepoints |
| Emojis.LatexCharsNoHash | config/emo.py:499-506 | the `\char` notation contains no `#`, so the `keycap-hash` entry does not trip TeX |
| Emojis.LatexChars | config/emo.py:471-473 | `latex_chars`: `\char"` and at least four upper-case hex digits per codepoint; Emojis.LatexCharsRoundTrip and Emojis.LatexCharsNoHash state its properties |
| Emojis.WithoutSelector | config/emo.py:483-484 | dropping U+FE0F keeps exactly the other codepoints, never lengthens, and changes nothing when there is none |
| Emojis.WithoutSelectorConcat | config/emo.py:483-484 | dropping distributes over concatenation, so the other codepoints stay in their order |
| Emojis.FlagLetters | config/emo.py:478-481 | a regional flag has two capital letters as its file stem |
| Emojis.FlagFileRoundTrip | config/emo.py:478-481 | the flag file name parses back to the two regional indicators |
| Emojis.SvgFileRoundTrip | config/emo.py:475-485 | the SVG file name parses back to the codepoints, without U+FE0F unless the emoji is a flag |
| Emojis.SvgFile | config/emo.py:475-485 | `svg_file`: a regional flag is its two letters; any other emoji is `emoji_u`, its lower-case hex codepoints without U+FE0F joined by `_`, and `.svg`; Emojis.FlagFileRoundTrip and Emojis.SvgFileRoundTrip state its properties |
| Emojis.SvgPath | config/emo.py:487-491 | the path ends in the SVG file; it lies under `third_party/` iff the emoji is a regional flag |
| Emojis.PdfFile | config/emo.py:493-495 | the PDF file is `emo-`, the name and `.pdf` |
| Emojis.CommandRoundTrip | config/emo.py:380-403 | a LaTeX command with brace-free arguments parses back to its name and arguments |
| Emojis.BeginGroup | config/emo.py:385-387 | the command is `\EmojiBeginGroup` with the group as its argument |
| Emojis.BeginSubgroup | config/emo.py:389-391 | the command is `\EmojiBeginSubgroup` with group and subgroup |
| Emojis.Define | config/emo.py:393-395 | the command is `\DefineEmoji` with name and codepoints |
| Emojis.EndSubgroup | config/emo.py:397-399 | the command is `\EmojiEndSubgroup` with group and subgroup |
| Emojis.EndGroup | config/emo.py:401-403 | the command is `\EmojiEndGroup` with the group |
| Emojis.LatexTableEntryRoundTrip | config/emo.py:497-507 | the entry defines the emoji's name; the body is the `\char` notation, without `#`, for `keycap-hash`, and the emoji itself otherwise; both give back the codepoints |
| Emojis.LatexTableEntry | config/emo.py:497-507 | `latex_table_entry`: `\DefineEmoji` of the name with the `\char` notation for `keycap-hash` and the emoji itself otherwise; Emojis.LatexTableEntryRoundTrip states its properties |
| Declaration.MatchSound | config/emo.py:552-564 | a line the declaration pattern accepts is well formed and is exactly the rendering of the fields it matched |
| Declaration.MatchComplete | config/emo.py:552-564 | every well-formed declaration is accepted by the pattern and gives back its fields |
| Declaration.Match | config/emo.py:552-564 | the declaration pattern: codepoints, `;`, status, `#`, the emoji, `E` and version, and the name; Declaration.MatchSound and Declaration.MatchComplete state that it accepts exactly the well-formed declarations |
| Lines.ReadLines | config/emo.py:650-654 | each line read is non-empty and ends at its first newline; every line but the last ends with a newline |
| Lines.ReadLinesConcat | config/emo.py:650-654 | the lines read put back together are the file |
| Lines.Chop | config/emo.py:656 | `line[:-1]` drops one character, or none from an empty line |
| Lines.Recognize | config/emo.py:566-578 | after stripping, a line is blank iff it is empty or a comment that is not a header; it is a group or subgroup header iff it starts with that prefix, and the header gives the normalised name; it is a declaration iff it is not a comment and the pattern matches, and then the declaration renders as the stripped line; it matches nothing iff it is not a comment and the pattern fails |
| Lines.ParseLine | config/emo.py:566-584 | blank lines, and only they, give nothing; unmatched lines, and only they, give the `neither empty, comment, or emoji` error; a header, and only a header, gives a group or subgroup item with the normalised name; declarations give their emoji or its error |
| Lines.DeclaredItem | config/emo.py:579-584 | a declaration gives the emoji built from its name, split codepoints, status and version, or that emoji's error |
| Lines.RecognizeDeclaration | config/emo.py:576-584 | every well-formed declaration line is recognised as that declaration |
| Lines.RecognizeGroup | config/emo.py:569-570 | a `# group: ` line gives the normalised group |
| Lines.RecognizeSubgroup | config/emo.py:571-572 | a `# subgroup: ` line gives the normalised subgroup |
| Lines.ParseDeclarationLine | config/emo.py:576-584 | parsing a well-formed declaration line gives the emoji of that declaration |
| Parser.Start | config/emo.py:536-545 | the parser starts with empty tables and no group or subgroup |
| Parser.StoreLookup | config/emo.py:602 | storing a subgroup changes that subgroup and no other |
| Parser.Flush | config/emo.py:598-604 | leaving the subgroup keeps the group and both tables and clears the subgroup; with no subgroup nothing changes |
| Parser.ViewLookup | config/emo.py:598-604 | the view after leaving holds the pending subgroup's emoji and every other subgroup unchanged |
| Parser.EnterGroup | config/emo.py:586-589 | entering a group makes it current and keeps the tables |
| Parser.EnterGroupFrame | config/emo.py:589 | `setdefault` on the group table changes no subgroup's contents and no count |
| Parser.EnterSubgroup | config/emo.py:591-596 | entering a subgroup fails iff there is no group; otherwise it resumes the subgroup's earlier emoji |
| Parser.Record | config/emo.py:638-645 | recording an emoji adds it to the codepoint table and keeps the cursor |
| Parser.AddEmoji | config/emo.py:606-645 | an emoji is accepted iff there is a subgroup, its codepoints are new, a registered emoji's name is new, and it is a component iff the group is `component`; the errors come in source order; an accepted emoji enters the codepoint table, and a registered one also enters the name table and the subgroup |
| Parser.Step | config/emo.py:656-669 | each line keeps the parser's cursor well formed |
| Parser.Snoc | config/emo.py:664-669 | the current group and subgroup after a line follow from the line and the state before it |
| Parser.StartInv | config/emo.py:536-545 | the parser invariant holds at the start |
| Parser.StepGroupInv | config/emo.py:664-667 | a group header keeps the invariant |
| Parser.SubgroupView | config/emo.py:591-596 | entering a subgroup changes no stored contents and no count |
| Parser.StepSubgroupInv | config/emo.py:664-669 | a subgroup header keeps the invariant |
| Parser.EmojiLookup | config/emo.py:642-645 | a registered emoji is appended to the current subgroup and to no other |
| Parser.EmojiTotal | config/emo.py:642-645 | a registered emoji adds one to the number of grouped emoji |
| Parser.EmojiCollect | config/emo.py:642-645 | after a registered emoji each subgroup still holds the declarations listed under it, in order |
| Parser.CodepointsOkAdd | config/emo.py:638-643 | every codepoint entry still maps to an emoji with those codepoints, and registered ones to their name entry |
| Parser.SubgroupOkAppend | config/emo.py:626-645 | an appended emoji keeps every subgroup's emoji named in the name table and components exactly in `component` |
| Parser.GroupsOkAppend | config/emo.py:642-645 | appending to one subgroup keeps every subgroup well formed |
| Parser.EmojiGroupsOk | config/emo.py:642-645 | adding a registered emoji keeps all groups well formed |
| Parser.RegisteredViewOk | config/emo.py:642-645 | a registered emoji keeps the grouped view, its count and its contents |
| Parser.UnregisteredViewOk | config/emo.py:638-645 | an emoji that is neither component nor fully qualified changes no group |
| Parser.EmojiTablesOk | config/emo.py:638-645 | adding an emoji keeps the name and codepoint tables consistent |
| Parser.StepEmojiInv | config/emo.py:660-662 | an accepted emoji keeps the invariant |
| Parser.StepInv | config/emo.py:656-669 | every accepted line keeps the invariant |
| Parser.ScanLast | config/emo.py:651-669 | a successful run over the lines is a successful run over all but the last, then one step |
| Parser.ScanInv | config/emo.py:650-671 | after a successful loop every line parsed, and each subgroup holds exactly the registered emoji declared under it, in order |
| Parser.ScanFailed | config/emo.py:647-671 | once a line fails, later lines do not change the error |
| Parser.ScanStops | config/emo.py:647-671 | the error of the loop is the error of the first failing prefix |
| Parser.Scan | config/emo.py:647-671 | the loop of `run`: each parsed line is applied in order until the first failure; a successful loop leaves a well-formed cursor; Parser.ScanInv, Parser.ScanFailed and Parser.ScanStops state what it computes |
| Parser.Repoint | config/emo.py:673-682 | the patch fails iff some unregistered emoji has no registered namesake, and names the first; on success every entry points at its registered emoji and the keys are kept |
| Parser.RepointPoints | config/emo.py:673-684 | after the patch every codepoint entry points at an emoji in the name table |
| Parser.RunSound | config/emo.py:647-684 | a successful run gives subgroups holding the registered declarations in order, a name table with one entry per grouped emoji, and a codepoint table pointing into the name table |
| Parser.RunParsed | config/emo.py:647-684 | `run` on parsed lines: the loop, the last subgroup stored, and the codepoint table patched; Parser.RunSound states its properties |
| Parser.Run | config/emo.py:647-684 | `run` on a file's text: read line by line, drop each line's last character, parse, and run; Registry.RunSound states its properties |
| Registry.RunSound | config/emo.py:702-705 | a registry built from a file satisfies all the table invariants |
| Registry.Lookup | config/emo.py:711-715 | a name is looked up lower-cased in the name table, a codepoint sequence in the codepoint table |
| Registry.LookupIgnoresCase | config/emo.py:713-714 | looking up a name and its lower-case form give the same answer |
| Registry.LookupAgrees | config/emo.py:711-715 | in a parsed registry, every codepoint entry is registered and, for a lower-case name, looking up its name gives the same emoji |
| Registry.IsSubgroup | config/emo.py:721-723 | a missing group is a `KeyError`; otherwise the answer is whether the subgroup exists |
| Registry.SubgroupFromSelector | config/emo.py:737-747 | a selector without two parts fails; a result is the contents of an existing subgroup |
| Registry.SubgroupsEmojiIn | config/emo.py:770-772 | an emoji is in the concatenated subgroups iff some listed subgroup holds it |
| Registry.GroupEmojiIn | config/emo.py:788-789 | an emoji is in a group iff some subgroup of it holds it |
| Registry.GroupsEmojiIn | config/emo.py:770-772 | an emoji is in the concatenated groups iff some listed group and subgroup hold it |
| Registry.AllEmojiIn | config/emo.py:769-773 | `ALL` holds exactly the emoji of every subgroup |
| Registry.AllEmojiCount | config/emo.py:769-773 | `ALL` has as many emoji as the subgroups together |
| Registry.NonDiverse | config/emo.py:756-759 | filtering keeps exactly the emoji that are not diverse |
| Registry.NonDiverseConcat | config/emo.py:756-759 | filtering distributes over concatenation, so the order is kept |
| Registry.NonDiversePeople | config/emo.py:749-761 | a missing `people-and-body` group is a `KeyError`; otherwise the result is that group's emoji without the diverse ones |
| Registry.SelectOk | config/emo.py:763-800 | a selection succeeds iff every selector does |
| Registry.SelectIn | config/emo.py:763-800 | an emoji is selected iff one of the selectors selects it |
| Registry.SelectErr | config/emo.py:763-800 | a failed selection reports the error of the first failing selector |
| Registry.SelectAll | config/emo.py:768-773 | `ALL` selects every grouped emoji, as many as there are names, each the registered emoji of its name |
| Registry.SelectNonDiverse | config/emo.py:775-778 | `NONDIVERSE` selects the people-and-body emoji that are not diverse, or fails on a missing group |
| Registry.SelectSubgroup | config/emo.py:780-783 | a `group::subgroup` selector fails without two parts and otherwise selects that subgroup iff it exists |
| Registry.SelectGroup | config/emo.py:785-790 | a group name selects every emoji of the group |
| Registry.SelectName | config/emo.py:792-798 | any other selector selects the emoji of that name, or fails with `names neither emoji nor group` |
| Registry.SelectOne | config/emo.py:766-798 | one selector: `ALL`, `NONDIVERSE`, a subgroup selector, a group, or an emoji name, tried in that order; Registry.SelectAll, Registry.SelectNonDiverse, Registry.SelectSubgroup, Registry.SelectGroup and Registry.SelectName state each case |
| Registry.Select | config/emo.py:763-800 | the selections of all selectors concatenated in order, failing at the first failing selector; no selector selects nothing; Registry.SelectOk, Registry.SelectIn and Registry.SelectErr state its properties |
| Registry.CodepointSelection | config/emo.py:833 | the codepoint selection holds exactly the codepoints of the selected emoji |
| Registry.IsSubgroupIncluded | config/emo.py:802-812 | the loop answers true iff some emoji of the subgroup is selected |
| Registry.SubgroupInclusions | config/emo.py:814-824 | the inclusion map has one flag per subgroup, telling whether any of its emoji is selected |
| Registry.KeepIn | config/emo.py:869-873 | an emoji is written iff it is in the group table and selected |
| Registry.KeepEmpty | config/emo.py:849-851 | nothing is written for a subgroup iff none of its emoji is selected |
| Registry.KeepConcat | config/emo.py:858-875 | writing subgroup by subgroup writes the concatenation in order |
| Registry.LatexTable | config/emo.py:826-898 | the returned emoji are exactly those written in the sections |
| Registry.SubsectionsKeep | config/emo.py:858-878 | the subsections written for a group hold its selected emoji in order, and none is empty |
| Registry.SubsectionsNone | config/emo.py:849-851 | a group writes no subsection iff no subgroup is included |
| Registry.GroupDropped | config/emo.py:849-851 | a group with no included subgroup contributes nothing |
| Registry.GroupKept | config/emo.py:849-858 | a group with an included subgroup writes at least one subsection |
| Registry.SectionsKeep | config/emo.py:848-881 | the sections hold the selected emoji in group, subgroup and declaration order |
| Registry.SectionsFilled | config/emo.py:848-881 | no written group or subgroup is empty |
| Registry.LatexTableOrder | config/emo.py:826-898 | the returned list is the selected emoji in the registry's display order, each emoji is there iff its codepoints are selected, and no written group or subgroup is empty |
| ScriptsEmo.NormalizeName | scripts/emo.py:22-23 | the name has no punctuation from the script's smaller class, no spaces, underscores or separator runs, no character the input lacks except `-`, and the input's word characters without that punctuation, in order |
| ScriptsEmo.NormalizeNameWord | scripts/emo.py:69 | a word without separators or punctuation in front passes through unchanged |
| ScriptsEmo.NormalizeNamePunctuation | scripts/emo.py:69 | a punctuation character anywhere is deleted before the separators are collapsed |
| ScriptsEmo.NormalizeNameRun | scripts/emo.py:69 | a whole run of separators in front becomes exactly one `-`; with the two lemmas above this fixes the result piece by piece |
| ScriptsEmo.NormalizeNameIdempotent | scripts/emo.py:69 | normalising twice is normalising once |
| ScriptsEmo.NormalizeNameKeepsCase | scripts/emo.py:69 | unlike `to_name` the script does not lower-case or rename: a normalised name is kept as it is |
| ScriptsEmo.NormalizeNameNoUpper | scripts/emo.py:69 | a lower-case name stays lower case |
| ScriptsEmo.New | scripts/emo.py:62-75 | the name is normalised, there is no status or version, and the codepoints are the converted value; conversion errors come first, then a bad codepoint |
| ScriptsEmo.NewFromText | scripts/emo.py:70-72 | an emoji from a string always exists and displays as that string |
| ScriptsEmo.SameIgnoresName | scripts/emo.py:91-102 | equality and order look only at codepoints, so two names for one value are equal |
| ScriptsEmo.UnicodeRoundTrip | scripts/emo.py:120-123 | the `U+XXXX` notation gives back the codepoints |
| ScriptsEmo.Remap | scripts/emo.py:50-52 | only the rainbow flag is remapped |
| ScriptsEmo.SvgFileRoundTrip | scripts/emo.py:130-141 | the SVG file name parses back to the codepoints, remapped for the rainbow flag |
| ScriptsEmo.SvgFileKeepsSelector | scripts/emo.py:139-140 | unlike the current tool the script keeps U+FE0F in the file name, so the two disagree for such emoji |
| ScriptsEmo.SvgFile | scripts/emo.py:131-141 | `svg_file`: a regional flag is its two letters; any other emoji is `emoji_u`, its lower-case hex codepoints after the rainbow-flag remapping joined by `_`, and `.svg`; ScriptsEmo.SvgFileRoundTrip states its property |
| ScriptsEmo.LatexTableEntryRoundTrip | scripts/emo.py:150-157 | a hyphenated name gets the `\csname` shape and any other the `\def` shape; both give back the name and the emoji |
| ScriptsEmo.LatexTableEntry | scripts/emo.py:151-157 | `latex_table_entry`: the `\csname` shape for a hyphenated name and the `\def` shape otherwise, with the emoji as body; ScriptsEmo.LatexTableEntryRoundTrip states its property |
| ScriptsEmo.Declare | scripts/emo.py:213-216 | a declaration that is not fully qualified gives nothing; otherwise the emoji has the lower-cased, normalised name and the declared codepoints |
| ScriptsEmo.ParseLineFails | scripts/emo.py:204-216 | a line fails with the no-match error exactly when the line grammar shared with config/emo.py rejects it; any other failure comes from a declaration's emoji |
| ScriptsEmo.ParseLineCases | scripts/emo.py:204-216 | headers keep their raw name; blank lines and comments give nothing; declarations go through the status filter |
| ScriptsEmo.ParseDeclarationLine | scripts/emo.py:213-216 | a well-formed declaration line gives the emoji of that declaration |
| ScriptsEmo.ParseLine | scripts/emo.py:204-216 | `_parse_line`: headers by prefix with the raw name, then the shared line grammar, with declarations through the status filter; ScriptsEmo.ParseLineFails, ScriptsEmo.ParseLineCases and ScriptsEmo.ParseDeclarationLine state its properties |
| ScriptsEmo.Start | scripts/emo.py:220-225 | the constructor starts with empty tables and no group or subgroup |
| ScriptsEmo.Flush | scripts/emo.py:235-236 | storing the pending subgroup keeps the group and the name table |
| ScriptsEmo.Step | scripts/emo.py:233-266 | a subgroup fails iff there is no group; an emoji fails iff there is no subgroup or its name is taken; an accepted emoji enters the name table and the subgroup; no other line changes the name table |
| ScriptsEmo.StoreTotal | scripts/emo.py:236 | storing a subgroup replaces its count by the new one |
| ScriptsEmo.SetDefaultTotal | scripts/emo.py:237 | `setdefault` on the group table changes no count |
| ScriptsEmo.StepTotal | scripts/emo.py:228-266 | every line keeps the difference between grouped emoji, counting the pending subgroup, and named emoji |
| ScriptsEmo.ScanLast | scripts/emo.py:228-266 | a successful loop is a successful loop over all but the last line, then one step |
| ScriptsEmo.ScanTotal | scripts/emo.py:228-266 | after the loop, grouped emoji counting the pending subgroup are as many as named emoji |
| ScriptsEmo.ScanAppend | scripts/emo.py:228-266 | the loop over one more line is one more step |
| ScriptsEmo.Scan | scripts/emo.py:228-266 | the constructor's loop, stopping at the first failure; a successful loop leaves a well-formed cursor; ScriptsEmo.ScanTotal and ScriptsEmo.ScanAppend state its properties |
| ScriptsEmo.Build | scripts/emo.py:219-266 | the constructor: the loop, then the name and group tables as they stand, without storing the last subgroup; ScriptsEmo.BuildLosesLastSubgroup states the consequence |
| ScriptsEmo.BuildLosesLastSubgroup | scripts/emo.py:218-266 | as written, an emoji in the last subgroup is named but stored in no subgroup |
| ScriptsEmo.BuildFlushed | scripts/emo.py:218-266 | with the last subgroup stored, the group table stays well formed |
| ScriptsEmo.BuildFlushedTotal | scripts/emo.py:218-266 | with the last subgroup stored, every named emoji is in exactly one subgroup count |
| Prototype.Of | emo.py:17-24 | the value is kept; the key has no space, underscore or separator run, keeps the input's word characters and case in order, adds no character but `-`, and is dashed iff the input had a separator |
| Prototype.OfPieces | emo.py:17-24 | a separator-free word in front passes through, and a whole run of separators in front becomes exactly one `-`, so each run becomes one `-` |
| Prototype.Dashed | emo.py:26-28 | `dashed`: the key contains `-`; Prototype.Of states when that holds |
| Prototype.OfIdempotent | emo.py:16-23 | normalising a key twice is normalising it once; a normalised key is kept |
| Prototype.CodepointsOf | emo.py:30-32 | the codepoints are the ordinals of the value, and display as it |
| Prototype.CodepointsOfDisplay | emo.py:30-32 | the codepoints of the display of a sequence are that sequence |
| Prototype.CodepointsDetermineValue | emo.py:30-32 | two emoji have the same codepoints iff they have the same value |
| Prototype.Filename | emo.py:34-36 | the file name is the key, a dot and the extension |
| Prototype.FilenameInjective | emo.py:34-36 | equal file names with one extension mean equal keys |
| Prototype.Json | emo.py:38-41 | the JSON file is the key with `.json` |
| Prototype.Pdf | emo.py:43-46 | the PDF file is the key with `.pdf` |
| Prototype.JsonPdfDistinct | emo.py:34-46 | a JSON file is never a PDF file, and each determines the key |
| Prototype.Svg | emo.py:48-52 | the file name starts with `emoji_u` and ends with `.svg` |
| Prototype.SvgCons | emo.py:48-52 | the file name of a value is `emoji_u`, the first character's spelling in at least four lower-case hex digits, and the rest of the file name of the remaining characters; an empty value gives `emoji_u.svg`; so the middle is every codepoint's spelling in order with nothing between them |
| Prototype.SvgOfPair | emo.py:48-52 | for two codepoints the hex forms are written next to each other without a separator |
| Prototype.SvgAmbiguous | emo.py:48-52 | two emoji with different codepoints get the same SVG file name |
| Prototype.SvgSeparated | emo.py:48-52 | the corrected name is `emoji_u` and `.svg` around the codepoints |
| Prototype.SvgSeparatedRoundTrip | emo.py:48-52 | with `_` between the codepoints the file name parses back to them |
| Prototype.SvgSeparatedInjective | emo.py:48-52 | with `_` between the codepoints different emoji values get different file names |
| Prototype.ToLatexChars | emo.py:124-125 | the `\char` notation parses back to the codepoints and has no `#` |
| Prototype.ToLatexTableEntryRoundTrip | emo.py:127-132 | a dashed key gets the `\csname` shape and any other the `\def` shape; both give back the key and the `\char` notation |
| Prototype.ToLatexTableEntry | emo.py:127-132 | `to_latex_table_entry`: the `\csname` shape for a dashed key and the `\def` shape otherwise, with the `\char` notation as body; Prototype.ToLatexTableEntryRoundTrip states its property |
| PageGroups.Objects | config/emo.py:971 | the object table is `document['qpdf'][1]`, present iff the document has that shape |
| PageGroups.WithObjects | config/emo.py:1000-1001 | replacing the object table changes no other top-level field |
| PageGroups.Resolve | config/emo.py:973-977 | `trailer` resolves as itself and any other reference as `obj:` and the reference, found iff the table is a dictionary holding that key; a missing key is a `KeyError` of the reference, and `in` on a value that is no container a `TypeError` |
| PageGroups.PyIn | config/emo.py:975 | Python's `in`: a key of a dictionary, an element of a list, a substring of a string, and a `TypeError` for anything else |
| PageGroups.Len | scripts/fix-page-groups.py:36 | Python's `len`: entries, elements or characters, and a `TypeError` for anything else |
| PageGroups.Position | scripts/fix-page-groups.py:40 | an index is valid iff it lies in `-n..n-1`, and a negative one counts from the end |
| PageGroups.GetItem | scripts/fix-page-groups.py:40 | Python's `[]`: a dictionary entry or `KeyError`; a list element or one-character string at an integer index, negative from the end, or `IndexError`; a string key on a list or string is a `TypeError` |
| PageGroups.Field | emo.py:92-93 | a field of an object is present iff the object is a dictionary holding it |
| PageGroups.ResolveValue | config/emo.py:979-988 | a resolved value is the `value` entry of the referenced object, found in a dictionary table, and has the asked `/Type` |
| PageGroups.ResolveValueOfNonTable | config/emo.py:973-977 | a table that is a list or string raises `TypeError` where `in` succeeds and `KeyError` where it fails; any other table raises `TypeError` |
| PageGroups.ResolveValueNotAnObject | config/emo.py:980-982 | an object that lacks `value` is a `ValueError`; a list or string object holding `value` is a `TypeError` at the lookup; a scalar object is a `TypeError` |
| PageGroups.ResolveValueOfNonDictionary | emo.py:85 | asking the `/Type` of a referenced value that is not a dictionary is a `TypeError`, as indexing it raises |
| PageGroups.Ungrouped | config/emo.py:1000 | deleting `/Group` changes only the page's value, and only that entry |
| PageGroups.Degroup | scripts/fix-page-groups.py:9-45 | when the page has no group the document is unchanged |
| PageGroups.DegroupWitness | scripts/fix-page-groups.py:33-40 | a successful removal walked a trailer, catalog, page tree and single page chain through objects of the right types |
| PageGroups.DegroupChain | emo.py:71-102 | along a trailer, catalog, pages and single page chain, the result says whether the page had a group and returns the document with that group deleted |
| PageGroups.DegroupOk | scripts/fix-page-groups.py:33-40 | the removal succeeds iff the object table exists and the trailer reaches a single page through objects of the right types |
| PageGroups.UngroupedKeepsChain | scripts/fix-page-groups.py:44 | deleting the group keeps the chain and leaves the page without a group |
| PageGroups.DegroupIdempotent | scripts/fix-page-groups.py:9-45 | a second removal finds nothing and changes nothing |
| PageGroups.DegroupKids | scripts/fix-page-groups.py:35-40 | for `/Kids` that are not a container the removal is a `TypeError`; with more than one entry it is a `ValueError` with the count; an empty list or string is an `IndexError`; a dictionary with at most one entry is a `KeyError` of `0` |
| PageGroups.MissingTypeIsKeyError | scripts/emo.py:318-327 | an object without `/Type` gives `KeyError('/Type')`, because the error message indexes it even where the test uses `.get` |
| PageGroups.ResolveValueErrors | scripts/emo.py:312-316 | a reference that names no key of a dictionary table, missing or a list or dictionary, is a `KeyError` of the reference (an object without `value` is PageGroups.ResolveValueNotAnObject) |
| PageGroups.RemovePageGroupObject | config/emo.py:968-1001 | the result is `None` iff the page had no group, the changed document otherwise, and the error of the removal on failure |
| PageGroups.RemovePageGroupObjectTwice | scripts/emo.py:307-340 | applied to its own changed document the removal returns `None` |

## Left out

- Lines.ReadLines: universal newlines are not modelled. The file is read
  in text mode, where `\r` and `\r\n` also end a line and arrive as
  `\n`; the model's text is the file after that translation, and splits
  at `\n` only.
- File and process I/O: `remove_page_group`, `_remove_page_group`,
  `_fix_pdf`, `generate_pdf`, `rewrite`, `main`, `from_file`'s `open`,
  `dump` and the file writing of `write_latex_table`. The model keeps the
  pure part of each. `write_latex_table` is modelled as the sections and
  emoji it writes, not as text.
- `write_latex_table`'s `\ProvidesFile` header with today's date and its
  fixed `extra` block are not modelled: they depend on the clock and on no
  input.
- The trivial accessors `is_group`, `group_names`, `subgroup_names`,
  `subgroup`, `emoji_names` and the script's `groups`, `subgroups`,
  `subgroup`, `emoji` are dictionary reads; they appear inside the
  operations that use them.
- The script's `Registry.select` is not modelled: it adds tuples of emoji
  to a set of emoji, so it is not a usable selection.
- The prototype's module-level demonstration at `emo.py:135-141` prints
  and calls `to_registry_entry`, which does not exist.
- Python's `str.lower` is modelled on ASCII letters only. Codepoints that
  are not Unicode scalar values (surrogates) are rejected when an emoji is
  built, where Python's `chr` accepts them.
- The version is kept as its digit string. `float(version)` is modelled
  by `IsDecimal`, which agrees with `float()` on every string the
  declaration pattern's `[0-9.]+` admits: it accepts `15.0` and `1.`, and
  rejects `1.2.3` and `.`.
- Emojis.Of: on a direct call, `float()` also accepts versions outside
  that pattern, such as `1e5`, `+1`, ` 1`, `1_0` and `inf`; the model
  reports them as a malformed version.
- JSON numbers are integers and object key order is not modelled. A
  number, boolean or `null` reference is spelled as `str` spells it
  (`obj:5`, `obj:True`, `obj:None`). A list or dictionary reference is
  treated as unresolvable, because its `repr` spelling is not modelled: it
  is a `KeyError` against a dictionary, list or string table and a
  `TypeError` against any other.
- PageGroups.ResolveValue: when a type is asked and the referenced value
  is not a dictionary, config/emo.py and scripts/emo.py call `.get` on it
  and raise `AttributeError`, while emo.py and `degroup` index it and
  raise `TypeError`; the model reports `TypeError` for all four
  (PageGroups.ResolveValueOfNonDictionary).
- Exception messages are not modelled, only each exception's class and
  the values its message reports. In particular `degroup` raises
  `KeyError('<ref> cannot be resolved')` where the other three raise
  `KeyError(ref)`, and words its wrong-type `ValueError` differently; the
  model gives all four the form of the other three.
- Codepoints.ParseInt16: `int(_, 16)` also accepts non-ASCII Unicode
  decimal digits (such as Arabic-Indic ones); the model accepts the ASCII
  hexadecimal digits only.
- Names.ToNameShape: states the shape of the name before the override
  table, and not that every override value has that shape, because
  proving it for the whole table costs too much.
- `to_name` is not idempotent (Names.ToNameNotIdempotent), and the model
  says so rather than assuming it. A page tree with no kids fails with an
  `IndexError` at `pages[0]`, not with a page-count error
  (PageGroups.DegroupKids).
- The LaTeX round trips (Emojis.LatexTableEntryRoundTrip,
  ScriptsEmo.LatexTableEntryRoundTrip, Prototype.ToLatexTableEntryRoundTrip)
  require names without the delimiters the entry itself uses (`}`, or `\`
  and `{`). The source writes such names unescaped, and then the entry
  cannot be read back.

## Findings

| source | as written | input that shows it | evidently intended | confidence | as-written member | corrected member |
|---|---|---|---|---|---|---|
| scripts/emo.py:228-266 | the constructor stores the pending subgroup only when a later header arrives, and never after the loop | `# group: g`, `# subgroup: s`, then one fully-qualified emoji `e`, all names lower case: `e` is named, but subgroup `s` of `g` is empty | store the last subgroup after the loop, as `config/emo.py:671` does | not executed | ScriptsEmo.BuildLosesLastSubgroup | ScriptsEmo.BuildFlushedTotal |
| emo.py:48-52 | `svg` joins the hex codepoints with no separator | U+12345 U+6789 and U+1234 U+56789 both give `emoji_u123456789.svg` | join with `_`, as `config/emo.py:484` and `scripts/emo.py:140` do | not executed | Prototype.SvgAmbiguous | Prototype.SvgSeparatedRoundTrip |

=== FILE: codepoints.dfy ===
/** Emoji codepoints (config/emo.py): reading a codepoint from an integer or
    a hexadecimal token, reading a whole sequence from a string or a list of
    tokens, and the regional-indicator symbols that spell national flags. */
module Codepoints {
  import opened Wrappers
  import opened Strings

  /** The values `chr()` turns into a character.  Dafny characters are
      Unicode scalar values, so the surrogates U+D800..U+DFFF, which Python's
      `chr` also accepts, are left out. */
  predicate IsScalar(n: int) {
    0 <= n < 0xD800 || 0xE000 <= n < 0x11_0000
  }

  type Scalar = n: int | IsScalar(n)

  /** One element of the codepoint list handed to `Emoji.of`: an integer or
      a string. */
  datatype Token = IntToken(n: int) | StrToken(s: string)

  /** The `value` argument of `Emoji.of`: the emoji itself as a string, or
      the list of its codepoints. */
  datatype Value = Text(s: string) | Tokens(ts: seq<Token>) {
    function Length(): nat {
      match this
      case Text(s) => |s|
      case Tokens(ts) => |ts|
    }
  }

  /** Hexadecimal digits grouped as Python's `int` allows: a digit, then
      either nothing or an optional underscore and more grouped digits. */
  predicate GroupedHex(d: string)
    decreases |d|
  {
    && d != [] && IsHexDigit(d[0])
    && (|d| == 1 || if d[1] == '_' then GroupedHex(d[2..]) else GroupedHex(d[1..]))
  }

  /** Grouped digits are digits and underscores, and end in a digit. */
  lemma {:induction false} GroupedHexChars(d: string)
    requires GroupedHex(d)
    ensures forall i :: 0 <= i < |d| ==> IsHexDigit(d[i]) || d[i] == '_'
    ensures IsHexDigit(d[|d| - 1])
    decreases |d|
  {
    if |d| > 1 {
      if d[1] == '_' {
        GroupedHexChars(d[2..]);
        assert forall i :: 2 <= i < |d| ==> d[i] == d[2..][i - 2];
      } else {
        GroupedHexChars(d[1..]);
        assert forall i :: 1 <= i < |d| ==> d[i] == d[1..][i - 1];
      }
    }
  }

  /** Plain digits are grouped. */
  lemma {:induction false} AllHexGrouped(d: string)
    requires d != [] && AllHex(d)
    ensures GroupedHex(d)
    decreases |d|
  {
    if |d| > 1 {
      assert IsHexDigit(d[1]);
      assert AllHex(d[1..]) by {
        assert forall i :: 0 <= i < |d| - 1 ==> d[1..][i] == d[i + 1];
      }
      AllHexGrouped(d[1..]);
    }
  }

  /** The digits of `d` with the underscores left out. */
  function Ungroup(d: string): (r: string)
    ensures (forall i :: 0 <= i < |d| ==> IsHexDigit(d[i]) || d[i] == '_') ==> AllHex(r)
    ensures AllHex(d) ==> r == d
  {
    if d == [] then []
    else if d[0] == '_' then Ungroup(d[1..])
    else
      assert d == [d[0]] + d[1..];
      [d[0]] + Ungroup(d[1..])
  }

  /** The value of grouped digits. */
  function GroupedValue(d: string): nat
    requires GroupedHex(d)
  {
    GroupedHexChars(d);
    HexValue(Ungroup(d))
  }

  /** The value of `d` when it is grouped digits. */
  function Digits(d: string): (r: Option<nat>)
    ensures r.Some? <==> GroupedHex(d)
  {
    if GroupedHex(d) then Some(GroupedValue(d)) else None
  }

  /** `int(u, base=16)` after the sign: one optional `0x` or `0X`, which
      one underscore may follow, then grouped digits. */
  function Magnitude(u: string): Option<nat> {
    if |u| >= 2 && u[0] == '0' && (u[1] == 'x' || u[1] == 'X') then
      if |u| > 2 && u[2] == '_' then Digits(u[3..]) else Digits(u[2..])
    else Digits(u)
  }

  /** `n`, negated when `negative`. */
  function Signed(negative: bool, n: nat): int {
    if negative then -(n as int) else n
  }

  /** `int(t, base=16)` on a string that neither starts nor ends with
      whitespace: one optional sign, then the magnitude. */
  function ParseStripped(t: string): Option<int> {
    var negative := t != [] && t[0] == '-';
    var u := if t != [] && (t[0] == '+' || t[0] == '-') then t[1..] else t;
    match Magnitude(u)
    case Some(n) => Some(Signed(negative, n))
    case None => None
  }

  /** Python's `int(s, base=16)` on ASCII digits: surrounding whitespace is
      ignored, one sign may lead, the digits may follow one `0x` or `0X`
      (and then one underscore), and single underscores may separate
      digits.  Anything else is a `ValueError` (`None`). */
  function ParseInt16(s: string): Option<int> {
    ParseStripped(Strip(s))
  }

  /** The signs `int` accepts: none, `+` or `-`. */
  predicate IsSign(sign: string) {
    sign == "" || sign == "+" || sign == "-"
  }

  /** The base prefixes `int(_, 16)` accepts: none, or `0x` or `0X` with
      or without one underscore after it. */
  predicate IsBasePrefix(prefix: string) {
    prefix == "" || prefix == "0x" || prefix == "0X" || prefix == "0x_" || prefix == "0X_"
  }

  /** Plain hexadecimal digits read as their value, and no digits at all
      are an error. */
  lemma ParseInt16OfHex(s: string)
    requires AllHex(s)
    ensures ParseInt16(s) == ParseHex(s)
  {
    if s != [] {
      AllHexGrouped(s);
      ParseStrippedAccepts("", "", s);
      assert "" + "" + s == s;
      StripUnchanged(s);
      assert GroupedValue(s) == HexValue(s);
    }
  }

  /** A base prefix in front of grouped digits leaves their value. */
  lemma MagnitudeOf(prefix: string, d: string)
    requires IsBasePrefix(prefix) && GroupedHex(d)
    ensures Magnitude(prefix + d) == Some(GroupedValue(d))
  {
    if prefix == "" {
      assert prefix + d == d;
      MagnitudeOfDigits(d);
    } else {
      MagnitudeOfPrefixed(prefix, d);
    }
  }

  /** Grouped digits without a prefix: the second character is a digit or
      an underscore, never the `x` of a prefix. */
  lemma MagnitudeOfDigits(d: string)
    requires GroupedHex(d)
    ensures Magnitude(d) == Some(GroupedValue(d))
  {
    if |d| >= 2 {
      GroupedHexChars(d);
      assert d[1] != 'x' && d[1] != 'X';
    }
  }

  /** Grouped digits after `0x` or `0X`, with or without an underscore. */
  lemma MagnitudeOfPrefixed(prefix: string, d: string)
    requires IsBasePrefix(prefix) && prefix != "" && GroupedHex(d)
    ensures Magnitude(prefix + d) == Some(GroupedValue(d))
  {
    var u := prefix + d;
    assert u[0] == '0' && u[1] == prefix[1];
    if |prefix| == 2 {
      assert u[2] == d[0] && u[2..] == d;
    } else {
      assert u[2] == '_' && u[3..] == d;
    }
  }

  /** A sign in front of a magnitude that does not start with one. */
  lemma ParseStrippedOf(sign: string, u: string, n: nat)
    requires IsSign(sign)
    requires u != [] && u[0] != '+' && u[0] != '-' && Magnitude(u) == Some(n)
    ensures ParseStripped(sign + u) == Some(Signed(sign == "-", n))
  {
    var t := sign + u;
    if sign != "" {
      assert t[0] == sign[0] && t[1..] == u;
    } else {
      assert t == u;
    }
  }

  /** The part of an accepted spelling between the whitespace: a sign, a
      base prefix and grouped digits. */
  lemma ParseStrippedAccepts(sign: string, prefix: string, d: string)
    requires IsSign(sign) && IsBasePrefix(prefix) && GroupedHex(d)
    ensures var core := sign + prefix + d;
      && !IsSpace(core[0]) && !IsSpace(core[|core| - 1])
      && ParseStripped(core) == Some(Signed(sign == "-", GroupedValue(d)))
  {
    var u := prefix + d;
    Assoc(sign, prefix, d);
    assert u[0] == if prefix != "" then '0' else d[0];
    MagnitudeOf(prefix, d);
    ParseStrippedOf(sign, u, GroupedValue(d));
    ConcatAffixes(prefix, d, "");
    CoreEnds(sign, u, d);
  }

  /** The accepted core of a spelling starts with a sign or a digit and
      ends with a digit, neither of them whitespace. */
  lemma CoreEnds(sign: string, u: string, d: string)
    requires IsSign(sign) && GroupedHex(d) && EndsWith(u, d)
    requires u[0] == '0' || u[0] == d[0]
    ensures var core := sign + u; !IsSpace(core[0]) && !IsSpace(core[|core| - 1])
  {
    var core := sign + u;
    GroupedHexChars(d);
    assert core[|core| - 1] == u[|u| - 1] == d[|d| - 1];
    NotSpace(d[|d| - 1]);
    assert core[0] == if sign != "" then sign[0] else u[0];
    NotSpace(core[0]);
  }

  /** Every spelling `int(_, 16)` accepts: whitespace, a sign, a base
      prefix, then grouped digits and whitespace.  The value is the digits'
      value, negated after a `-`. */
  lemma ParseInt16Accepts(lead: string, sign: string, prefix: string, d: string, trail: string)
    requires forall k :: 0 <= k < |lead| ==> IsSpace(lead[k])
    requires forall k :: 0 <= k < |trail| ==> IsSpace(trail[k])
    requires IsSign(sign) && IsBasePrefix(prefix) && GroupedHex(d)
    ensures ParseInt16(lead + sign + prefix + d + trail) == Some(Signed(sign == "-", GroupedValue(d)))
  {
    var core := sign + prefix + d;
    ParseStrippedAccepts(sign, prefix, d);
    Regroup(lead, sign, prefix, d, trail);
    StripPadded(lead, core, trail);
  }

  /** Everything `int(_, 16)` accepts is one of the spellings of
      `ParseInt16Accepts`: the accepted strings are exactly those. */
  lemma ParseInt16Shape(s: string) returns (lead: string, sign: string, prefix: string, d: string, trail: string)
    requires ParseInt16(s).Some?
    ensures s == lead + sign + prefix + d + trail
    ensures forall k :: 0 <= k < |lead| ==> IsSpace(lead[k])
    ensures forall k :: 0 <= k < |trail| ==> IsSpace(trail[k])
    ensures IsSign(sign) && IsBasePrefix(prefix) && GroupedHex(d)
  {
    var t := Strip(s);
    lead, trail := StripShape(s);
    sign, prefix, d := StrippedShape(t);
    Regroup(lead, sign, prefix, d, trail);
  }

  /** `ParseInt16Shape` on the stripped string. */
  lemma StrippedShape(t: string) returns (sign: string, prefix: string, d: string)
    requires ParseStripped(t).Some?
    ensures t == sign + prefix + d
    ensures IsSign(sign) && IsBasePrefix(prefix) && GroupedHex(d)
  {
    var u;
    sign, u := SignShape(t);
    prefix, d := MagnitudeShape(u);
    Assoc(sign, prefix, d);
  }

  /** Everything `ParseStripped` accepts is a sign and a magnitude. */
  lemma SignShape(t: string) returns (sign: string, u: string)
    requires ParseStripped(t).Some?
    ensures t == sign + u
    ensures IsSign(sign) && Magnitude(u).Some?
  {
    if t != [] && (t[0] == '+' || t[0] == '-') {
      sign, u := [t[0]], t[1..];
    } else {
      sign, u := "", t;
    }
  }

  /** Everything `Magnitude` accepts is a base prefix and grouped digits. */
  lemma MagnitudeShape(u: string) returns (prefix: string, d: string)
    requires Magnitude(u).Some?
    ensures u == prefix + d
    ensures IsBasePrefix(prefix) && GroupedHex(d)
  {
    if |u| >= 2 && u[0] == '0' && (u[1] == 'x' || u[1] == 'X') {
      var n := if |u| > 2 && u[2] == '_' then 3 else 2;
      prefix, d := u[..n], u[n..];
      assert u == prefix + d;
    } else {
      prefix, d := "", u;
      assert u == prefix + d;
    }
  }

  /** Whatever `int(_, 16)` accepts holds a hexadecimal digit. */
  lemma ParseInt16HasDigit(s: string)
    ensures ParseInt16(s).Some? ==> exists k :: 0 <= k < |s| && IsHexDigit(s[k])
  {
    if ParseInt16(s).Some? {
      var lead, sign, prefix, d, trail := ParseInt16Shape(s);
      var k := |lead| + |sign| + |prefix|;
      assert s[k] == d[0];
    }
  }

  /** Without a single hexadecimal digit `int(_, 16)` fails. */
  lemma ParseInt16NeedsDigit(s: string)
    requires forall i :: 0 <= i < |s| ==> !IsHexDigit(s[i])
    ensures ParseInt16(s).None?
  {
    ParseInt16HasDigit(s);
  }

  /** Drops one `0x` or `U+` prefix, as `to_codepoint` does before parsing. */
  function StripCodepointPrefix(s: string): (r: string)
    ensures r == s || (|s| >= 2 && r == s[2..])
  {
    if |s| >= 2 && ((s[0] == '0' && s[1] == 'x') || (s[0] == 'U' && s[1] == '+')) then s[2..] else s
  }

  /** `to_codepoint`: an integer is taken as it is; a string loses one `0x`
      or `U+` prefix and is read by `int(_, 16)`, whose `ValueError` is the
      error.  Neither checks that the result is a codepoint: `-1` reads as
      -1. */
  function ToCodepoint(t: Token): (r: Result<int, string>)
    ensures t.IntToken? ==> r == Ok(t.n)
    ensures t.StrToken? ==> (r.Ok? <==> ParseInt16(StripCodepointPrefix(t.s)).Some?)
    ensures t.StrToken? && r.Ok? ==> r.value == ParseInt16(StripCodepointPrefix(t.s)).value
    ensures t.StrToken? && r.Err? ==> r.error == t.s
  {
    match t
    case IntToken(n) => Ok(n)
    case StrToken(s) =>
      match ParseInt16(StripCodepointPrefix(s))
      case Some(n) => Ok(n)
      case None => Err(s)
  }

  /** `ToCodepoint` on a string whose prefix-stripped form `int` reads. */
  lemma ToCodepointOk(s: string, v: int)
    requires ParseInt16(StripCodepointPrefix(s)) == Some(v)
    ensures ToCodepoint(StrToken(s)) == Ok(v)
  {
  }

  /** `ToCodepoint` on a string whose prefix-stripped form `int` rejects. */
  lemma ToCodepointErr(s: string)
    requires ParseInt16(StripCodepointPrefix(s)).None?
    ensures ToCodepoint(StrToken(s)) == Err(s)
  {
  }

  /** A `U+` or `0x` prefix in front of `s` is what `StripCodepointPrefix`
      removes. */
  lemma StripCodepointPrefixOf(s: string)
    ensures StripCodepointPrefix("U+" + s) == s
    ensures StripCodepointPrefix("0x" + s) == s
  {
    assert ("U+" + s)[2..] == s;
    assert ("0x" + s)[2..] == s;
  }

  /** A run of hexadecimal digits reads the same with a `U+` prefix, with a
      `0x` prefix and bare. */
  lemma ToCodepointSpellings(h: string)
    requires h != [] && AllHex(h)
    ensures ToCodepoint(StrToken(h)) == Ok(HexValue(h))
    ensures ToCodepoint(StrToken("U+" + h)) == Ok(HexValue(h))
    ensures ToCodepoint(StrToken("0x" + h)) == Ok(HexValue(h))
  {
    StripCodepointPrefixOf(h);
    assert StripCodepointPrefix(h) == h by {
      assert IsHexDigit(h[0]);
      if |h| >= 2 { assert IsHexDigit(h[1]); }
    }
    ParseInt16OfHex(h);
    ToCodepointOk(h, HexValue(h));
    ToCodepointOk("U+" + h, HexValue(h));
    ToCodepointOk("0x" + h, HexValue(h));
  }

  /** The spellings `int(_, 16)` adds to plain digits — surrounding
      whitespace, a sign and single underscores between digits — read the
      same bare and after a `U+` or `0x` prefix: ` 1F600 ` and `1_F600`
      read as 0x1F600, and `-1` as -1. */
  lemma ToCodepointForms(lead: string, sign: string, d: string, trail: string)
    requires forall k :: 0 <= k < |lead| ==> IsSpace(lead[k])
    requires forall k :: 0 <= k < |trail| ==> IsSpace(trail[k])
    requires IsSign(sign) && GroupedHex(d)
    ensures var v := Signed(sign == "-", GroupedValue(d));
      var s := lead + sign + d + trail;
      && ToCodepoint(StrToken(s)) == Ok(v)
      && ToCodepoint(StrToken("U+" + s)) == Ok(v)
      && ToCodepoint(StrToken("0x" + s)) == Ok(v)
  {
    var v := Signed(sign == "-", GroupedValue(d));
    var s := lead + sign + d + trail;
    ParseInt16Accepts(lead, sign, "", d, trail);
    assert lead + sign + "" == lead + sign;
    StripCodepointPrefixOf(s);
    NoCodepointPrefix(lead, sign, d, trail);
    ToCodepointOk(s, v);
    ToCodepointOk("U+" + s, v);
    ToCodepointOk("0x" + s, v);
  }

  /** Whitespace, a sign or a digit in front leaves no prefix for
      `StripCodepointPrefix` to remove. */
  lemma NoCodepointPrefix(lead: string, sign: string, d: string, trail: string)
    requires forall k :: 0 <= k < |lead| ==> IsSpace(lead[k])
    requires forall k :: 0 <= k < |trail| ==> IsSpace(trail[k])
    requires IsSign(sign) && GroupedHex(d)
    ensures StripCodepointPrefix(lead + sign + d + trail) == lead + sign + d + trail
  {
    var s := lead + sign + d + trail;
    if lead != [] {
      assert s[0] == lead[0];
    } else if sign != "" {
      assert s[0] == sign[0];
    } else {
      assert s == d + trail;
      GroupedHexChars(d);
      if |d| >= 2 {
        assert s[1] == d[1];
      } else if |s| >= 2 {
        assert s[1] == trail[0];
      }
    }
  }

  /** A string without a single hexadecimal digit is not a codepoint, with
      or without a `U+` prefix. */
  lemma ToCodepointRejects(s: string)
    requires forall i :: 0 <= i < |s| ==> !IsHexDigit(s[i])
    ensures ToCodepoint(StrToken(s)) == Err(s)
    ensures ToCodepoint(StrToken("U+" + s)) == Err("U+" + s)
  {
    StripCodepointPrefixOf(s);
    var t := StripCodepointPrefix(s);
    assert forall i :: 0 <= i < |t| ==> !IsHexDigit(t[i]) by {
      if t != s {
        assert forall i :: 0 <= i < |t| ==> t[i] == s[i + 2];
      }
    }
    ParseInt16NeedsDigit(t);
    ParseInt16NeedsDigit(s);
    ToCodepointErr(s);
    ToCodepointErr("U+" + s);
  }

  /** The `U+XXXX` spelling that `Emoji.unicode` writes reads back as the
      same codepoint. */
  lemma ToCodepointOfHex4(n: nat)
    ensures ToCodepoint(StrToken("U+" + Hex4(n, true))) == Ok(n)
    ensures ToCodepoint(StrToken(Hex4(n, false))) == Ok(n)
  {
    var u := Hex4(n, true);
    var l := Hex4(n, false);
    ToCodepointSpellings(u);
    ToCodepointSpellings(l);
  }

  /** `to_codepoint` applied to each token, failing at the first token that
      is not a codepoint. */
  function ToCodepointList(ts: seq<Token>): (r: Result<seq<int>, string>)
    ensures r.Ok? <==> forall i :: 0 <= i < |ts| ==> ToCodepoint(ts[i]).Ok?
    ensures r.Ok? ==> (|r.value| == |ts|
      && forall i :: 0 <= i < |ts| ==> r.value[i] == ToCodepoint(ts[i]).value)
    ensures r.Err? ==> exists i :: FirstError(ts, i, r.error)
  {
    if ts == [] then Ok([])
    else
      match ToCodepoint(ts[0])
      case Err(e) =>
        assert FirstError(ts, 0, e);
        Err(e)
      case Ok(n) =>
        match ToCodepointList(ts[1..])
        case Err(e) =>
          FirstErrorShift(ts, e);
          Err(e)
        case Ok(ns) =>
          assert forall i :: 1 <= i < |ts| ==> ts[i] == ts[1..][i - 1];
          Ok([n] + ns)
  }

  /** Token `i` is the first that is not a codepoint, and its error is
      `e`. */
  predicate FirstError(ts: seq<Token>, i: int, e: string) {
    && 0 <= i < |ts| && ToCodepoint(ts[i]) == Err(e)
    && forall j :: 0 <= j < i ==> ToCodepoint(ts[j]).Ok?
  }

  /** A first error after a good first token is a first error of the whole
      list, one place later. */
  lemma FirstErrorShift(ts: seq<Token>, e: string)
    requires ts != [] && ToCodepoint(ts[0]).Ok?
    requires exists i :: FirstError(ts[1..], i, e)
    ensures exists i :: FirstError(ts, i, e)
  {
    var i :| FirstError(ts[1..], i, e);
    assert ts[i + 1] == ts[1..][i];
    forall j | 0 <= j < i + 1
      ensures ToCodepoint(ts[j]).Ok?
    {
      if j > 0 {
        assert ts[j] == ts[1..][j - 1];
      }
    }
    assert FirstError(ts, i + 1, e);
  }

  /** `to_codepoints`: the ordinals of a string's characters, or the
      codepoints of a token list.  Either way the result has one codepoint
      per character or token. */
  function ToCodepoints(v: Value): (r: Result<seq<int>, string>)
    ensures r.Ok? ==> |r.value| == v.Length()
    ensures v.Text? ==> r.Ok? && forall i :: 0 <= i < |v.s| ==> r.value[i] == v.s[i] as int
    ensures v.Tokens? ==> r == ToCodepointList(v.ts)
  {
    match v
    case Text(s) => Ok(seq(|s|, i requires 0 <= i < |s| => s[i] as int))
    case Tokens(ts) => ToCodepointList(ts)
  }

  /** The string whose characters have the given codepoints
      (`''.join(map(chr, codepoints))`). */
  function Display(cps: seq<Scalar>): (s: string)
    ensures |s| == |cps| && forall i :: 0 <= i < |cps| ==> s[i] as int == cps[i]
  {
    seq(|cps|, i requires 0 <= i < |cps| => cps[i] as char)
  }

  /** `Display` and `to_codepoints` of a string are inverse: reading the
      displayed string gives back the codepoints, and displaying the
      ordinals of a string gives back the string. */
  lemma DisplayRoundTrip(cps: seq<Scalar>, s: string)
    ensures ToCodepoints(Text(Display(cps))) == Ok(cps)
    ensures var ords := ToCodepoints(Text(s)).value;
      (forall i :: 0 <= i < |ords| ==> IsScalar(ords[i]))
      && Display(ords) == s
  {
    assert ToCodepoints(Text(Display(cps))).value == cps;
  }

  // ---------------------------------------------------------------------------
  // Regional indicators

  const REGIONAL_INDICATOR_A: int := 0x1F1E6
  const REGIONAL_INDICATOR_Z: int := 0x1F1FF

  predicate IsRegionalIndicator(cp: int) {
    REGIONAL_INDICATOR_A <= cp <= REGIONAL_INDICATOR_Z
  }

  /** `regional_indicator_to_letter`: `chr(cp - REGIONAL_INDICATOR_A +
      ord('A'))`, an error when that is no character. */
  function RegionalIndicatorToLetter(cp: int): (r: Result<char, int>)
    ensures IsRegionalIndicator(cp) ==> r.Ok? && 'A' <= r.value <= 'Z'
    ensures r.Ok? ==> r.value as int - 'A' as int == cp - REGIONAL_INDICATOR_A
  {
    var n := cp - REGIONAL_INDICATOR_A + 'A' as int;
    if IsScalar(n) then Ok(n as char) else Err(n)
  }

  /** The regional indicator that spells an ASCII capital letter. */
  function LetterToRegionalIndicator(c: char): (cp: int)
    requires 'A' <= c <= 'Z'
    ensures IsRegionalIndicator(cp)
  {
    c as int - 'A' as int + REGIONAL_INDICATOR_A
  }

  /** The 26 regional indicators and the 26 capital letters correspond one
      to one. */
  lemma RegionalIndicatorLetters(cp: int, c: char)
    ensures IsRegionalIndicator(cp) ==>
      LetterToRegionalIndicator(RegionalIndicatorToLetter(cp).value) == cp
    ensures 'A' <= c <= 'Z' ==>
      RegionalIndicatorToLetter(LetterToRegionalIndicator(c)) == Ok(c)
  {
  }
}

=== FILE: declaration.dfy ===
/** The grammar of an emoji declaration line in `emoji-test.txt`, the
    regular expression `EMOJI_DECLARATION` of config/emo.py (and
    `_EMOJI_TEST_LINE` of scripts/emo.py):

      CODEPOINTS SPACES "; " STATUS SPACES "# " DISPLAY " E" VERSION " " NAME

    written out as a matcher.  The matcher and the renderer `Render` are
    inverse: every line the matcher accepts is the rendering of the parts
    it returns, and every well-formed declaration renders to a line the
    matcher takes apart into exactly that declaration. */
module Declaration {
  import opened Wrappers
  import opened Strings

  // ---------------------------------------------------------------------------
  // The fields

  /** `[0-9A-F]`: the regular expression admits upper-case digits only. */
  predicate IsUpperHex(c: char) {
    ('0' <= c <= '9') || ('A' <= c <= 'F')
  }

  /** `[0-9A-F][0-9A-F ]+[0-9A-F]`: at least three characters, digits and
      spaces, beginning and ending with a digit. */
  predicate IsCodepointsField(s: string) {
    |s| >= 3 && IsUpperHex(s[0]) && IsUpperHex(s[|s| - 1])
    && forall i :: 0 <= i < |s| ==> IsUpperHex(s[i]) || s[i] == ' '
  }

  /** `component|fully-qualified|minimally-qualified|unqualified`. */
  predicate IsStatusWord(s: string) {
    s == "component" || s == "fully-qualified" || s == "minimally-qualified" || s == "unqualified"
  }

  predicate IsNotSpace(c: char) {
    c != ' '
  }

  predicate IsSpaceChar(c: char) {
    c == ' '
  }

  predicate IsVersionChar(c: char) {
    ('0' <= c <= '9') || c == '.'
  }

  predicate IsNotNewline(c: char) {
    c != '\n'
  }

  /** Every character satisfies `p`. */
  predicate All(s: string, p: char -> bool) {
    forall i :: 0 <= i < |s| ==> p(s[i])
  }

  /** A declaration line taken apart: the five captured groups and the
      widths of the two runs of blanks the expression skips. */
  datatype Declaration = Declaration(
    codepoints: string,
    gap1: nat,
    status: string,
    gap2: nat,
    display: string,
    version: string,
    name: string)

  predicate WellFormed(d: Declaration) {
    && IsCodepointsField(d.codepoints)
    && d.gap1 >= 1
    && IsStatusWord(d.status)
    && d.gap2 >= 1
    && d.display != [] && All(d.display, IsNotSpace)
    && d.version != [] && All(d.version, IsVersionChar)
    && d.name != [] && All(d.name, IsNotNewline)
  }

  function Spaces(n: nat): (s: string)
    ensures |s| == n && All(s, IsSpaceChar)
  {
    seq(n, _ => ' ')
  }

  /** The line a declaration is written as. */
  function Render(d: Declaration): string {
    d.codepoints + (Spaces(d.gap1) + ("; " + (d.status + RenderTail(d.gap2, d.display, d.version, d.name))))
  }

  /** The part of the line after the status word. */
  function RenderTail(gap2: nat, display: string, version: string, name: string): string {
    Spaces(gap2) + ("# " + RenderFields(display, version, name))
  }

  /** The part of the line after `# `. */
  function RenderFields(display: string, version: string, name: string): string {
    display + (" E" + (version + (" " + name)))
  }

  // ---------------------------------------------------------------------------
  // Scanning

  /** The position of the first `c`, or the length when there is none. */
  function IndexOf(s: string, c: char): (i: nat)
    ensures i <= |s| && (i < |s| ==> s[i] == c)
    ensures forall j :: 0 <= j < i ==> s[j] != c
  {
    if s == [] || s[0] == c then 0 else 1 + IndexOf(s[1..], c)
  }

  /** The longest prefix whose characters satisfy `p`. */
  function TakeWhile(s: string, p: char -> bool): (w: string)
    ensures |w| <= |s| && w == s[..|w|] && All(w, p)
    ensures |w| < |s| ==> !p(s[|w|])
  {
    if s == [] || !p(s[0]) then [] else [s[0]] + TakeWhile(s[1..], p)
  }

  /** The number of blanks at the end. */
  function TrailingSpaces(s: string): (n: nat)
    ensures n <= |s| && All(s[|s| - n..], IsSpaceChar)
    ensures n < |s| ==> s[|s| - n - 1] != ' '
  {
    if s == [] || s[|s| - 1] != ' ' then 0
    else
      var n := TrailingSpaces(s[..|s| - 1]);
      assert s[|s| - (n + 1)..] == s[..|s| - 1][|s| - 1 - n..] + [' '];
      n + 1
  }

  /** The status word a string starts with; the four words start with four
      different letters. */
  function MatchStatus(s: string): (r: Option<string>)
    ensures r.Some? ==> IsStatusWord(r.value) && StartsWith(s, r.value)
  {
    if StartsWith(s, "component") then Some("component")
    else if StartsWith(s, "fully-qualified") then Some("fully-qualified")
    else if StartsWith(s, "minimally-qualified") then Some("minimally-qualified")
    else if StartsWith(s, "unqualified") then Some("unqualified")
    else None
  }

  /** The display, version and name after `# `: a run without blanks, ` E`,
      a run of digits and dots, a blank, and the rest of the line. */
  function MatchFields(r5: string): Option<(string, string, string)> {
    var display := TakeWhile(r5, IsNotSpace);
    var r6 := r5[|display|..];
    if display == [] || !StartsWith(r6, " E") then None
    else
      var r7 := r6[2..];
      var version := TakeWhile(r7, IsVersionChar);
      var r8 := r7[|version|..];
      if version == [] || !StartsWith(r8, " ") then None
      else
        var name := r8[1..];
        if name == [] || !All(name, IsNotNewline) then None
        else Some((display, version, name))
  }

  /** The part after the status word: blanks, `# ` and the fields. */
  function MatchTail(r3: string): Option<(nat, string, string, string)> {
    var gap2 := |TakeWhile(r3, IsSpaceChar)|;
    var r4 := r3[gap2..];
    if gap2 == 0 || !StartsWith(r4, "# ") then None
    else
      match MatchFields(r4[2..])
      case None => None
      case Some((display, version, name)) => Some((gap2, display, version, name))
  }

  /** The part before the first `;`: the codepoints and the blanks after
      them; and the part after `; `. */
  function MatchHead(line: string): Option<(string, nat, string)> {
    var i := IndexOf(line, ';');
    if i == |line| then None else SplitHead(line[..i], line[i + 1..])
  }

  /** The codepoints and blanks before the `;`, and what follows `; `. */
  function SplitHead(head: string, r1: string): Option<(string, nat, string)> {
    var gap1 := TrailingSpaces(head);
    var codepoints := head[..|head| - gap1];
    if gap1 == 0 || !IsCodepointsField(codepoints) || !StartsWith(r1, " ") then None
    else Some((codepoints, gap1, r1[1..]))
  }

  /** `EMOJI_DECLARATION.match(line)`: the parts of the line, or `None` when
      it is not a declaration. */
  function Match(line: string): Option<Declaration> {
    match MatchHead(line)
    case None => None
    case Some((codepoints, gap1, r2)) =>
      match MatchStatus(r2)
      case None => None
      case Some(status) =>
        match MatchTail(r2[|status|..])
        case None => None
        case Some((gap2, display, version, name)) =>
          Some(Declaration(codepoints, gap1, status, gap2, display, version, name))
  }

  // ---------------------------------------------------------------------------
  // Soundness: what the matcher accepts is a rendered declaration

  /** A string that starts with `p` is `p` followed by the rest. */
  lemma Peel(s: string, p: string)
    requires StartsWith(s, p)
    ensures s == p + s[|p|..]
  {
  }

  lemma FieldsSound(r5: string)
    requires MatchFields(r5).Some?
    ensures var (display, version, name) := MatchFields(r5).value;
      && display != [] && All(display, IsNotSpace)
      && version != [] && All(version, IsVersionChar)
      && name != [] && All(name, IsNotNewline)
      && r5 == RenderFields(display, version, name)
  {
    var (display, version, name) := MatchFields(r5).value;
    var r6 := r5[|display|..];
    var r7 := r6[2..];
    var r8 := r7[|version|..];
    Peel(r8, " ");
    Peel(r7, version);
    Peel(r6, " E");
    Peel(r5, display);
  }

  lemma TailSound(r3: string)
    requires MatchTail(r3).Some?
    ensures var (gap2, display, version, name) := MatchTail(r3).value;
      && gap2 >= 1
      && display != [] && All(display, IsNotSpace)
      && version != [] && All(version, IsVersionChar)
      && name != [] && All(name, IsNotNewline)
      && r3 == RenderTail(gap2, display, version, name)
  {
    var blanks := TakeWhile(r3, IsSpaceChar);
    var r4 := r3[|blanks|..];
    var (display, version, name) := MatchFields(r4[2..]).value;
    assert MatchTail(r3).value == (|blanks|, display, version, name);
    FieldsSound(r4[2..]);
    Peel(r4, "# ");
    assert blanks == Spaces(|blanks|);
    Peel(r3, blanks);
    assert r3 == Spaces(|blanks|) + ("# " + RenderFields(display, version, name));
  }

  lemma SplitHeadSound(head: string, r1: string)
    requires SplitHead(head, r1).Some?
    ensures var (codepoints, gap1, r2) := SplitHead(head, r1).value;
      IsCodepointsField(codepoints) && gap1 >= 1
      && head == codepoints + Spaces(gap1) && r1 == " " + r2
  {
    var (codepoints, gap1, r2) := SplitHead(head, r1).value;
    Peel(r1, " ");
    assert head[|head| - gap1..] == Spaces(gap1);
  }

  lemma HeadSound(line: string)
    requires MatchHead(line).Some?
    ensures var (codepoints, gap1, r2) := MatchHead(line).value;
      IsCodepointsField(codepoints) && gap1 >= 1
      && line == codepoints + (Spaces(gap1) + ("; " + r2))
  {
    var i := IndexOf(line, ';');
    var head := line[..i];
    var r1 := line[i + 1..];
    assert line == head + ([';'] + r1);
    SplitHeadSound(head, r1);
    var (codepoints, gap1, r2) := SplitHead(head, r1).value;
    Reassociate(codepoints, Spaces(gap1), r2);
  }

  /** The head, the semicolon and the rest, regrouped as `Render` groups them. */
  lemma Reassociate(codepoints: string, blanks: string, r2: string)
    ensures (codepoints + blanks) + ([';'] + (" " + r2)) == codepoints + (blanks + ("; " + r2))
  {
    assert [';'] + (" " + r2) == "; " + r2;
  }

  /** A line the matcher accepts is well formed and is the rendering of the
      parts the matcher returns. */
  lemma MatchSound(line: string)
    requires Match(line).Some?
    ensures WellFormed(Match(line).value)
    ensures Render(Match(line).value) == line
  {
    var d := Match(line).value;
    var (_, _, r2) := MatchHead(line).value;
    HeadSound(line);
    TailSound(r2[|d.status|..]);
    Peel(r2, d.status);
  }

  // ---------------------------------------------------------------------------
  // Completeness: a rendered declaration is matched into its parts

  lemma {:induction false} IndexOfPrefix(s: string, t: string, c: char)
    requires forall j :: 0 <= j < |s| ==> s[j] != c
    ensures IndexOf(s + [c] + t, c) == |s|
    decreases |s|
  {
    if s != [] {
      assert (s + [c] + t)[1..] == s[1..] + [c] + t;
      IndexOfPrefix(s[1..], t, c);
    }
  }

  lemma {:induction false} TakeWhileOf(w: string, s: string, p: char -> bool)
    requires All(w, p) && StartsWith(s, w)
    requires |w| < |s| ==> !p(s[|w|])
    ensures TakeWhile(s, p) == w
    decreases |w|
  {
    if w != [] {
      assert p(s[0]);
      assert StartsWith(s[1..], w[1..]);
      TakeWhileOf(w[1..], s[1..], p);
      assert w == [w[0]] + w[1..];
    }
  }

  lemma {:induction false} TrailingSpacesOf(cps: string, n: nat)
    requires cps != [] && cps[|cps| - 1] != ' '
    ensures TrailingSpaces(cps + Spaces(n)) == n
    decreases n
  {
    var s := cps + Spaces(n);
    if n > 0 {
      assert s[..|s| - 1] == cps + Spaces(n - 1);
      TrailingSpacesOf(cps, n - 1);
    } else {
      assert s == cps;
    }
  }

  /** The status word of a rendered declaration is recognised. */
  lemma MatchStatusOf(status: string, rest: string)
    requires IsStatusWord(status)
    ensures MatchStatus(status + rest) == Some(status)
  {
    var s := status + rest;
    assert s[..|status|] == status;
    assert s[0] == status[0];
  }

  lemma FieldsComplete(display: string, version: string, name: string)
    requires display != [] && All(display, IsNotSpace)
    requires version != [] && All(version, IsVersionChar)
    requires name != [] && All(name, IsNotNewline)
    ensures MatchFields(RenderFields(display, version, name)) == Some((display, version, name))
  {
    var r8 := " " + name;
    var r7 := version + r8;
    var r6 := " E" + r7;
    var r5 := display + r6;
    TakeWhileOf(display, r5, IsNotSpace);
    assert r5[|display|..] == r6;
    assert r6[2..] == r7;
    TakeWhileOf(version, r7, IsVersionChar);
    assert r7[|version|..] == r8;
  }

  lemma TailComplete(gap2: nat, display: string, version: string, name: string)
    requires gap2 >= 1
    requires display != [] && All(display, IsNotSpace)
    requires version != [] && All(version, IsVersionChar)
    requires name != [] && All(name, IsNotNewline)
    ensures MatchTail(RenderTail(gap2, display, version, name)) == Some((gap2, display, version, name))
  {
    var r5 := RenderFields(display, version, name);
    var r4 := "# " + r5;
    var r3 := Spaces(gap2) + r4;
    TakeWhileOf(Spaces(gap2), r3, IsSpaceChar);
    assert r3[gap2..] == r4;
    assert r4[2..] == r5;
    FieldsComplete(display, version, name);
  }

  lemma SplitHeadComplete(codepoints: string, gap1: nat, r2: string)
    requires IsCodepointsField(codepoints) && gap1 >= 1
    ensures SplitHead(codepoints + Spaces(gap1), " " + r2) == Some((codepoints, gap1, r2))
  {
    var head := codepoints + Spaces(gap1);
    TrailingSpacesOf(codepoints, gap1);
    assert head[..|head| - gap1] == codepoints;
    assert (" " + r2)[1..] == r2;
  }

  lemma HeadComplete(codepoints: string, gap1: nat, r2: string)
    requires IsCodepointsField(codepoints) && gap1 >= 1
    ensures MatchHead(codepoints + (Spaces(gap1) + ("; " + r2))) == Some((codepoints, gap1, r2))
  {
    var line := codepoints + (Spaces(gap1) + ("; " + r2));
    var head := codepoints + Spaces(gap1);
    var r1 := " " + r2;
    assert line == head + [';'] + r1;
    forall j | 0 <= j < |head| ensures head[j] != ';' {
      if j < |codepoints| { assert IsUpperHex(head[j]) || head[j] == ' '; }
    }
    IndexOfPrefix(head, r1, ';');
    assert line[..|head|] == head;
    assert line[|head| + 1..] == r1;
    SplitHeadComplete(codepoints, gap1, r2);
  }

  /** A well-formed declaration, rendered and matched, gives back the
      declaration. */
  lemma MatchComplete(d: Declaration)
    requires WellFormed(d)
    ensures Match(Render(d)) == Some(d)
  {
    var tail := RenderTail(d.gap2, d.display, d.version, d.name);
    var r2 := d.status + tail;
    HeadComplete(d.codepoints, d.gap1, r2);
    MatchStatusOf(d.status, tail);
    assert r2[|d.status|..] == tail;
    TailComplete(d.gap2, d.display, d.version, d.name);
  }
}

=== FILE: dicts.dfy ===
/** Python dictionaries with their insertion order: the registry's tables
    are iterated in the order their keys were first stored, so a plain
    `map` does not suffice.  A key stored again keeps its place. */
module Dicts {

  /** The keys in insertion order and the mapping itself. */
  datatype Dict<K, V> = Dict(keys: seq<K>, m: map<K, V>)

  /** No key is listed twice. */
  predicate Distinct<K(==)>(keys: seq<K>) {
    keys == [] || (keys[|keys| - 1] !in keys[..|keys| - 1] && Distinct(keys[..|keys| - 1]))
  }

  /** The listed keys as a set. */
  function Listed<K>(keys: seq<K>): (ks: set<K>)
    ensures forall i :: 0 <= i < |keys| ==> keys[i] in ks
  {
    if keys == [] then {} else Listed(keys[..|keys| - 1]) + {keys[|keys| - 1]}
  }

  /** `Listed` holds exactly the listed keys. */
  lemma {:induction false} ListedIn<K>(keys: seq<K>, k: K)
    ensures k in Listed(keys) <==> k in keys
  {
    if keys != [] {
      var init := keys[..|keys| - 1];
      ListedIn(init, k);
      assert keys == init + [keys[|keys| - 1]];
    }
  }

  /** No key is listed twice, and the listed keys are exactly the mapped
      ones. */
  predicate Valid<K, V>(d: Dict<K, V>) {
    Distinct(d.keys) && Listed(d.keys) == d.m.Keys
  }

  /** `{}`. */
  function Empty<K, V>(): (d: Dict<K, V>)
    ensures Valid(d) && d.m == map[]
  {
    Dict([], map[])
  }

  /** `d[k] = v`: a new key goes last, a key already present keeps its
      place, and only the value at `k` changes. */
  function Put<K, V>(d: Dict<K, V>, k: K, v: V): (r: Dict<K, V>)
    requires Valid(d)
    ensures Valid(r) && r.m == d.m[k := v]
    ensures k in d.m ==> r.keys == d.keys
    ensures k !in d.m ==> r.keys == d.keys + [k]
  {
    if k in d.m then Dict(d.keys, d.m[k := v])
    else
      assert (d.keys + [k])[..|d.keys|] == d.keys;
      Dict(d.keys + [k], d.m[k := v])
  }

  /** `d.setdefault(k, v)`: stores `v` only when `k` is missing. */
  function SetDefault<K, V>(d: Dict<K, V>, k: K, v: V): (r: Dict<K, V>)
    requires Valid(d)
    ensures Valid(r) && k in r.m
    ensures k in d.m ==> r == d
    ensures k !in d.m ==> r == Put(d, k, v)
  {
    if k in d.m then d else Put(d, k, v)
  }

  /** The values in key order (`d.values()`). */
  function Values<K, V>(d: Dict<K, V>): (vs: seq<V>)
    requires Valid(d)
    ensures |vs| == |d.keys| && forall i :: 0 <= i < |d.keys| ==> vs[i] == d.m[d.keys[i]]
  {
    seq(|d.keys|, i requires 0 <= i < |d.keys| && Listed(d.keys) == d.m.Keys => d.m[d.keys[i]])
  }

  // ---------------------------------------------------------------------------
  // Sizes summed over the keys

  /** The sum of `size` over the values of the listed keys. */
  function Sum<K, V>(keys: seq<K>, m: map<K, V>, size: V -> nat): nat
    requires Listed(keys) <= m.Keys
  {
    if keys == [] then 0
    else Sum(keys[..|keys| - 1], m, size) + size(m[keys[|keys| - 1]])
  }

  /** Changing the value of a key that is not listed leaves the sum alone. */
  lemma {:induction false} SumFrame<K, V>(keys: seq<K>, m: map<K, V>, k: K, v: V, size: V -> nat)
    requires Listed(keys) <= m.Keys && k !in keys
    ensures Sum(keys, m[k := v], size) == Sum(keys, m, size)
  {
    if keys != [] {
      SumFrame(keys[..|keys| - 1], m, k, v, size);
    }
  }

  /** Changing the value of a key listed once changes the sum by the
      difference of the two sizes. */
  lemma {:induction false} SumUpdate<K, V>(keys: seq<K>, m: map<K, V>, k: K, v: V, size: V -> nat)
    requires Listed(keys) <= m.Keys && Distinct(keys) && k in Listed(keys)
    ensures Sum(keys, m[k := v], size) == Sum(keys, m, size) - size(m[k]) + size(v)
  {
    var init := keys[..|keys| - 1];
    var last := keys[|keys| - 1];
    if last == k {
      SumFrame(init, m, k, v, size);
    } else {
      SumUpdate(init, m, k, v, size);
    }
  }

  /** The sum of `size` over a dictionary's values. */
  function Size<K, V>(d: Dict<K, V>, size: V -> nat): nat
    requires Valid(d)
  {
    Sum(d.keys, d.m, size)
  }

  /** `d[k] = v` changes the sum by the size of `v` less the size of the
      value it replaces, if any. */
  lemma SizePut<K, V>(d: Dict<K, V>, k: K, v: V, size: V -> nat)
    requires Valid(d)
    ensures Size(Put(d, k, v), size)
      == Size(d, size) - (if k in d.m then size(d.m[k]) else 0) + size(v)
  {
    if k in d.m {
      SumUpdate(d.keys, d.m, k, v, size);
    } else {
      var r := Put(d, k, v);
      assert r.keys[..|r.keys| - 1] == d.keys;
      SumFrame(d.keys, d.m, k, v, size);
    }
  }
}

=== FILE: emojis.dfy ===
/** The emoji descriptor of config/emo.py: an immutable record of name,
    codepoints, status and version whose identity is its codepoints, and the
    strings derived from it for file names, listings and the LaTeX table. */
module Emojis {
  import opened Wrappers
  import opened Strings
  import opened Codepoints
  import Names

  // ---------------------------------------------------------------------------
  // Status

  /** The qualification status of an `emoji-test.txt` entry. */
  datatype Status = Component | FullyQualified | MinimallyQualified | Unqualified

  /** The enumeration value, as written in `emoji-test.txt`. */
  function StatusValue(st: Status): string {
    match st
    case Component => "component"
    case FullyQualified => "fully-qualified"
    case MinimallyQualified => "minimally-qualified"
    case Unqualified => "unqualified"
  }

  /** `Status(s)`: the member with value `s`; any other string is an error
      (`ValueError`, here `None`). */
  function ParseStatus(s: string): (r: Option<Status>)
    ensures r.Some? ==> StatusValue(r.value) == s
  {
    if s == "component" then Some(Component)
    else if s == "fully-qualified" then Some(FullyQualified)
    else if s == "minimally-qualified" then Some(MinimallyQualified)
    else if s == "unqualified" then Some(Unqualified)
    else None
  }

  /** Every status is recognised by its own value. */
  lemma StatusRoundTrip(st: Status)
    ensures ParseStatus(StatusValue(st)) == Some(st)
  {
  }

  // ---------------------------------------------------------------------------
  // The descriptor

  /** An emoji.  The version is kept as the text it was given in. */
  datatype Emoji = Emoji(
    name: string,
    codepoints: seq<Scalar>,
    status: Option<Status>,
    version: Option<string>)

  datatype EmojiError =
    | UnknownStatus(status: string)
    | MalformedVersion(version: string)
    | MalformedCodepoint(token: string)
    | NotACharacter(cp: int)

  /** The version strings `float()` accepts among strings of digits and
      dots: at least one digit and at most one dot. */
  predicate IsDecimal(s: string) {
    (forall i :: 0 <= i < |s| ==> '0' <= s[i] <= '9' || s[i] == '.')
    && (exists i :: 0 <= i < |s| && '0' <= s[i] <= '9')
    && (forall i, j :: 0 <= i < j < |s| && s[i] == '.' ==> s[j] != '.')
  }

  /** The first codepoint `chr()` rejects. */
  function FirstNonScalar(cps: seq<int>): (k: nat)
    requires exists i :: 0 <= i < |cps| && !IsScalar(cps[i])
    ensures k < |cps| && !IsScalar(cps[k])
    ensures forall i :: 0 <= i < k ==> IsScalar(cps[i])
  {
    if !IsScalar(cps[0]) then 0
    else
      assert exists i :: 1 <= i < |cps| && !IsScalar(cps[i]);
      assert exists i :: 0 <= i < |cps[1..]| && !IsScalar(cps[1..][i]) by {
        var i :| 1 <= i < |cps| && !IsScalar(cps[i]);
        assert cps[1..][i - 1] == cps[i];
      }
      1 + FirstNonScalar(cps[1..])
  }

  /** The dataclass constructor: `__post_init__` computes the display string
      with `chr`, which fails on the first codepoint that is no character. */
  function New(name: string, cps: seq<int>, status: Option<Status>, version: Option<string>)
    : (r: Result<Emoji, EmojiError>)
    ensures r.Ok? <==> forall i :: 0 <= i < |cps| ==> IsScalar(cps[i])
    ensures r.Ok? ==> (r.value.codepoints == cps && r.value.name == name
      && r.value.status == status && r.value.version == version)
    ensures r.Err? ==> exists i :: 0 <= i < |cps| && !IsScalar(cps[i]) && r.error == NotACharacter(cps[i])
  {
    if forall i :: 0 <= i < |cps| ==> IsScalar(cps[i]) then
      var scalars: seq<Scalar> := cps;
      Ok(Emoji(name, scalars, status, version))
    else
      Err(NotACharacter(cps[FirstNonScalar(cps)]))
  }

  /** `Emoji.of`: reads the status (an unknown one is an error), checks
      that the version is a number (`float(version)`), normalises the name
      with `to_name`, reads the codepoints with `to_codepoints` (a malformed
      token is an error) and builds the emoji. */
  function Of(name: string, value: Value, status: Option<string>, version: Option<string>)
    : (r: Result<Emoji, EmojiError>)
    ensures status.Some? && ParseStatus(status.value).None? ==> r == Err(UnknownStatus(status.value))
    ensures r.Ok? ==> ToCodepoints(value) == Ok(r.value.codepoints)
    ensures r.Ok? ==> r.value.name == Names.ToName(name) && r.value.version == version
    ensures r.Ok? ==> ((r.value.status.Some? <==> status.Some?)
      && (status.Some? ==> StatusValue(r.value.status.value) == status.value))
    ensures (status.None? || ParseStatus(status.value).Some?)
      && version.Some? && !IsDecimal(version.value)
      ==> r == Err(MalformedVersion(version.value))
    ensures (status.None? || ParseStatus(status.value).Some?)
      && (version.None? || IsDecimal(version.value)) && ToCodepoints(value).Err?
      ==> r == Err(MalformedCodepoint(ToCodepoints(value).error))
    ensures (status.None? || ParseStatus(status.value).Some?)
      && (version.None? || IsDecimal(version.value)) && ToCodepoints(value).Ok?
      ==> (r.Ok? <==> forall i :: 0 <= i < |ToCodepoints(value).value| ==> IsScalar(ToCodepoints(value).value[i]))
    ensures r.Err? && ToCodepoints(value).Ok? && r.error.NotACharacter? ==>
      exists i :: 0 <= i < |ToCodepoints(value).value| && !IsScalar(ToCodepoints(value).value[i])
        && r.error == NotACharacter(ToCodepoints(value).value[i])
    ensures r.Ok? ==> version.None? || IsDecimal(version.value)
  {
    if status.Some? && ParseStatus(status.value).None? then Err(UnknownStatus(status.value))
    else if version.Some? && !IsDecimal(version.value) then Err(MalformedVersion(version.value))
    else
      match ToCodepoints(value)
      case Err(token) => Err(MalformedCodepoint(token))
      case Ok(cps) =>
        var st := if status.None? then None else ParseStatus(status.value);
        New(Names.ToName(name), cps, st, version)
  }

  /** The emoji as a string: its codepoints as characters. */
  function DisplayOf(e: Emoji): string {
    Display(e.codepoints)
  }

  /** Built from a string, an emoji displays as that string again and has
      one codepoint per character. */
  lemma OfText(name: string, s: string, status: Option<string>, version: Option<string>)
    requires status.None? || ParseStatus(status.value).Some?
    requires version.None? || IsDecimal(version.value)
    ensures Of(name, Text(s), status, version).Ok?
    ensures var e := Of(name, Text(s), status, version).value;
      DisplayOf(e) == s && |e.codepoints| == |s|
  {
    DisplayRoundTrip([], s);
  }

  predicate HasCompoundName(e: Emoji) {
    '-' in e.name
  }

  predicate IsRegionalFlag(e: Emoji) {
    |e.codepoints| == 2 && forall i :: 0 <= i < 2 ==> IsRegionalIndicator(e.codepoints[i])
  }

  predicate IsComponent(e: Emoji) {
    e.status == Some(Component)
  }

  predicate IsFullyQualified(e: Emoji) {
    e.status == Some(FullyQualified)
  }

  predicate IsDiverse(e: Emoji) {
    Names.IsDiverseName(e.name)
  }

  // ---------------------------------------------------------------------------
  // Identity and order

  /** Python's tuple comparison on codepoint sequences: the first position
      where they differ decides, and a proper prefix comes first. */
  predicate LexLess(a: seq<int>, b: seq<int>) {
    if a == [] then b != []
    else if b == [] then false
    else if a[0] != b[0] then a[0] < b[0]
    else LexLess(a[1..], b[1..])
  }

  /** The same order defined by the position where the sequences part. */
  predicate LexLessAt(a: seq<int>, b: seq<int>, k: nat) {
    k <= |a| && k <= |b| && a[..k] == b[..k]
    && ((k == |a| && k < |b|) || (k < |a| && k < |b| && a[k] < b[k]))
  }

  lemma {:induction false} LexLessWitness(a: seq<int>, b: seq<int>)
    ensures LexLess(a, b) <==> exists k: nat :: LexLessAt(a, b, k)
    decreases |a|
  {
    if a == [] || b == [] {
      if LexLess(a, b) { assert LexLessAt(a, b, 0); }
    } else if a[0] != b[0] {
      if LexLess(a, b) { assert LexLessAt(a, b, 0); }
    } else {
      LexLessWitness(a[1..], b[1..]);
      if LexLess(a, b) {
        var k: nat :| LexLessAt(a[1..], b[1..], k);
        assert a[..k + 1] == [a[0]] + a[1..][..k];
        assert b[..k + 1] == [b[0]] + b[1..][..k];
        assert LexLessAt(a, b, k + 1);
      }
      if k: nat :| LexLessAt(a, b, k) {
        assert k > 0;
        assert a[1..][..k - 1] == a[..k][1..];
        assert b[1..][..k - 1] == b[..k][1..];
        assert LexLessAt(a[1..], b[1..], k - 1);
      }
    }
  }

  /** Tuple order is a strict total order: irreflexive, transitive, and of
      two different sequences exactly one comes first. */
  lemma {:induction false} LexLessStrictTotal(a: seq<int>, b: seq<int>, c: seq<int>)
    ensures !LexLess(a, a)
    ensures LexLess(a, b) && LexLess(b, c) ==> LexLess(a, c)
    ensures a != b ==> (LexLess(a, b) <==> !LexLess(b, a))
    ensures a == b ==> !LexLess(b, a)
    decreases |a|
  {
    if a != [] && b != [] && c != [] {
      LexLessStrictTotal(a[1..], b[1..], c[1..]);
      if a[0] == b[0] && a != b {
        assert a == [a[0]] + a[1..] && b == [b[0]] + b[1..];
      }
    } else if a != [] && b != [] {
      LexLessStrictTotal(a[1..], b[1..], []);
      if a[0] == b[0] && a != b {
        assert a == [a[0]] + a[1..] && b == [b[0]] + b[1..];
      }
    } else if a != [] {
      LexLessStrictTotal(a[1..], [], []);
    }
  }

  /** Emoji equality (and hash): the dataclass compares codepoints only. */
  predicate Same(e1: Emoji, e2: Emoji) {
    e1.codepoints == e2.codepoints
  }

  /** Emoji order: the dataclass orders by codepoints only. */
  predicate Less(e1: Emoji, e2: Emoji) {
    LexLess(e1.codepoints, e2.codepoints)
  }

  /** Name, status and version take no part in comparisons: emoji with the
      same codepoints are equal and neither precedes the other, and any two
      emoji are equal or ordered one way. */
  lemma EmojiOrder(e1: Emoji, e2: Emoji, e3: Emoji)
    ensures Same(e1, e2) <==> e1.codepoints == e2.codepoints
    ensures Same(e1, e2) ==> !Less(e1, e2) && !Less(e2, e1)
    ensures !Same(e1, e2) ==> (Less(e1, e2) <==> !Less(e2, e1))
    ensures Less(e1, e2) && Less(e2, e3) ==> Less(e1, e3)
  {
    LexLessStrictTotal(e1.codepoints, e2.codepoints, e3.codepoints);
    LexLessStrictTotal(e2.codepoints, e1.codepoints, e3.codepoints);
  }

  // ---------------------------------------------------------------------------
  // `unicode`

  /** The `U+XXXX` spelling of each codepoint, at least four upper-case
      digits. */
  function UnicodeWords(cps: seq<Scalar>): seq<string> {
    seq(|cps|, i requires 0 <= i < |cps| => "U+" + Hex4(cps[i], true))
  }

  /** `unicode`: the `U+XXXX` spellings separated by single spaces. */
  function Unicode(e: Emoji): string {
    Join(UnicodeWords(e.codepoints), " ")
  }

  function StrTokens(words: seq<string>): (ts: seq<Token>)
    ensures |ts| == |words| && forall i :: 0 <= i < |words| ==> ts[i] == StrToken(words[i])
  {
    seq(|words|, i requires 0 <= i < |words| => StrToken(words[i]))
  }

  /** Each `U+XXXX` spelling is a non-empty run without whitespace. */
  lemma UnicodeWordsAreWords(cps: seq<Scalar>)
    ensures var words := UnicodeWords(cps);
      forall k :: 0 <= k < |words| ==> words[k] != [] && NoSpace(words[k])
  {
    var words := UnicodeWords(cps);
    forall k | 0 <= k < |words| ensures words[k] != [] && NoSpace(words[k]) {
      var h := Hex4(cps[k], true);
      assert words[k] == "U+" + h;
      forall i | 0 <= i < |words[k]| ensures !IsSpace(words[k][i]) {
        if i >= 2 { assert words[k][i] == h[i - 2]; assert IsHexDigit(h[i - 2]); }
      }
    }
  }

  /** The `unicode` listing reads back, split at whitespace and fed to
      `to_codepoints`, as the emoji's codepoints. */
  lemma UnicodeRoundTrip(e: Emoji)
    ensures ToCodepoints(Tokens(StrTokens(SplitWhitespace(Unicode(e))))) == Ok(e.codepoints)
  {
    var cps := e.codepoints;
    var words := UnicodeWords(cps);
    UnicodeWordsAreWords(cps);
    SplitWhitespaceJoin(words);
    forall i | 0 <= i < |cps| ensures ToCodepoint(StrToken(words[i])) == Ok(cps[i]) {
      ToCodepointOfHex4(cps[i]);
    }
    assert ToCodepoints(Tokens(StrTokens(words))).value == cps;
  }

  // ---------------------------------------------------------------------------
  // `latex_chars`

  /** The TeX primitive that typesets a character by its code. */
  const CHAR_PREFIX: string := "\\char\""

  /** `latex_chars`: `\char"XXXX` for each codepoint, upper-case hex. */
  function CharCommands(cps: seq<Scalar>): string {
    if cps == [] then []
    else CHAR_PREFIX + Hex4(cps[0], true) + CharCommands(cps[1..])
  }

  function LatexChars(e: Emoji): string {
    CharCommands(e.codepoints)
  }

  /** Reads a string of `\char"XXXX` commands back into codepoints. */
  function ParseCharCommands(s: string): (r: Option<seq<nat>>)
    decreases |s|
  {
    if s == [] then Some([])
    else if !StartsWith(s, CHAR_PREFIX) then None
    else
      var rest := s[|CHAR_PREFIX|..];
      var h := HexRun(rest);
      if h == [] then None
      else
        match ParseCharCommands(rest[|h|..])
        case None => None
        case Some(tail) => Some([HexValue(h)] + tail)
  }

  /** One `\char"` command and its digits, in front of a string that is
      empty or starts with another command, are read off as one codepoint. */
  lemma ParseCharCommandsCons(h: string, tail: string)
    requires h != [] && AllHex(h)
    requires tail == [] || tail[0] == '\\'
    ensures ParseCharCommands(CHAR_PREFIX + h + tail) ==
      match ParseCharCommands(tail)
      case None => None
      case Some(ns) => Some([HexValue(h)] + ns)
  {
    var s := CHAR_PREFIX + h + tail;
    assert s[..|CHAR_PREFIX|] == CHAR_PREFIX;
    var rest := s[|CHAR_PREFIX|..];
    assert rest == h + tail;
    HexRunOf(h, rest);
    assert rest[|h|..] == tail;
  }

  /** When the commands after the first read back as the codepoints after
      the first, all of them read back. */
  lemma LatexCharsStep(cps: seq<Scalar>)
    requires cps != [] && ParseCharCommands(CharCommands(cps[1..])) == Some(cps[1..])
    ensures ParseCharCommands(CharCommands(cps)) == Some(cps)
  {
    var tail := CharCommands(cps[1..]);
    assert tail == [] || tail[0] == '\\';
    ParseCharCommandsCons(Hex4(cps[0], true), tail);
    assert [cps[0]] + cps[1..] == cps;
  }

  /** `latex_chars` reads back as the codepoints. */
  lemma {:induction false} LatexCharsRoundTrip(cps: seq<Scalar>)
    ensures ParseCharCommands(CharCommands(cps)) == Some(cps)
    decreases |cps|
  {
    if cps != [] {
      LatexCharsRoundTrip(cps[1..]);
      LatexCharsStep(cps);
    }
  }

  /** The characters `latex_chars` can contain: its command and hexadecimal
      digits, so never a `#`, which TeX would read as a parameter. */
  lemma {:induction false} LatexCharsNoHash(cps: seq<Scalar>)
    ensures forall c :: c in CharCommands(cps) ==> c in CHAR_PREFIX || IsHexDigit(c)
    ensures '#' !in CharCommands(cps)
    decreases |cps|
  {
    if cps != [] {
      LatexCharsNoHash(cps[1..]);
      var h := Hex4(cps[0], true);
      forall c | c in h ensures IsHexDigit(c) {
        var i :| 0 <= i < |h| && h[i] == c;
      }
    }
  }

  // ---------------------------------------------------------------------------
  // File names

  const EMOJI_PRESENTATION_SELECTOR: int := 0xFE0F

  /** The codepoints with every U+FE0F left out, in order. */
  function WithoutSelector(cps: seq<Scalar>): (r: seq<Scalar>)
    ensures |r| <= |cps|
    ensures forall x :: x in r <==> x in cps && x != EMOJI_PRESENTATION_SELECTOR
    ensures EMOJI_PRESENTATION_SELECTOR !in cps ==> r == cps
  {
    if cps == [] then []
    else if cps[0] == EMOJI_PRESENTATION_SELECTOR then WithoutSelector(cps[1..])
    else
      assert cps == [cps[0]] + cps[1..];
      [cps[0]] + WithoutSelector(cps[1..])
  }

  /** Leaving out the selector works codepoint by codepoint: the result
      for a concatenation is the results for its parts, concatenated. */
  lemma {:induction false} WithoutSelectorConcat(a: seq<Scalar>, b: seq<Scalar>)
    ensures WithoutSelector(a + b) == WithoutSelector(a) + WithoutSelector(b)
    decreases |a|
  {
    if a == [] {
      assert a + b == b;
    } else {
      ConsAppend(a, b);
      WithoutSelectorCons(a[0], a[1..] + b);
      WithoutSelectorConcat(a[1..], b);
      WithoutSelectorCons(a[0], a[1..]);
      assert [a[0]] + a[1..] == a;
    }
  }

  /** One unfolding of `WithoutSelector`. */
  lemma WithoutSelectorCons(x: Scalar, t: seq<Scalar>)
    ensures WithoutSelector([x] + t) == WithoutSelector([x]) + WithoutSelector(t)
  {
    assert ([x] + t)[1..] == t;
    assert [x][1..] == [];
  }

  /** One codepoint is left out when it is the selector and kept
      otherwise. */
  lemma WithoutSelectorOne(x: Scalar)
    ensures WithoutSelector([x]) == if x == EMOJI_PRESENTATION_SELECTOR then [] else [x]
  {
    assert [x][1..] == [];
  }

  /** The lower-case four-digit spelling of each codepoint. */
  function LowerHexWords(cps: seq<Scalar>): seq<string> {
    seq(|cps|, i requires 0 <= i < |cps| => Hex4(cps[i], false))
  }

  /** The flag letters spelled by two regional indicators. */
  function FlagLetters(e: Emoji): (r: string)
    requires IsRegionalFlag(e)
    ensures |r| == 2 && forall i :: 0 <= i < 2 ==> 'A' <= r[i] <= 'Z'
  {
    [RegionalIndicatorToLetter(e.codepoints[0]).value,
     RegionalIndicatorToLetter(e.codepoints[1]).value]
  }

  /** `svg_file`: a national flag is named by its two letters; any other
      emoji is `emoji_u` and its codepoints without U+FE0F, lower-case and
      joined by underscores. */
  function SvgFile(e: Emoji): string {
    if IsRegionalFlag(e) then FlagLetters(e) + ".svg"
    else "emoji_u" + Join(LowerHexWords(WithoutSelector(e.codepoints)), "_") + ".svg"
  }

  function ParseHexWords(words: seq<string>): (r: Option<seq<nat>>)
    ensures r.Some? ==> |r.value| == |words|
  {
    if words == [] then Some([])
    else
      match (ParseHex(words[0]), ParseHexWords(words[1..]))
      case (Some(n), Some(ns)) => Some([n] + ns)
      case _ => None
  }

  /** Reads an SVG file name back into the codepoints it was made from. */
  function ParseSvgFile(f: string): Option<seq<int>> {
    if |f| == 6 && EndsWith(f, ".svg") && 'A' <= f[0] <= 'Z' && 'A' <= f[1] <= 'Z' then
      Some([LetterToRegionalIndicator(f[0]), LetterToRegionalIndicator(f[1])])
    else if |f| >= 11 && StartsWith(f, "emoji_u") && EndsWith(f, ".svg") then
      var middle := f[7..|f| - 4];
      if middle == [] then Some([])
      else
        match ParseHexWords(Split(middle, "_"))
        case Some(ns) => Some(ns)
        case None => None
    else None
  }

  lemma {:induction false} ParseLowerHexWords(cps: seq<Scalar>)
    ensures ParseHexWords(LowerHexWords(cps)) == Some(cps)
    decreases |cps|
  {
    if cps != [] {
      assert LowerHexWords(cps)[1..] == LowerHexWords(cps[1..]);
      ParseLowerHexWords(cps[1..]);
      assert [cps[0]] + cps[1..] == cps;
    }
  }

  /** A flag's file name gives back its two regional indicators. */
  lemma FlagFileRoundTrip(e: Emoji)
    requires IsRegionalFlag(e)
    ensures ParseSvgFile(SvgFile(e)) == Some(e.codepoints)
  {
    var f := SvgFile(e);
    RegionalIndicatorLetters(e.codepoints[0], 'A');
    RegionalIndicatorLetters(e.codepoints[1], 'A');
    assert f[0] == FlagLetters(e)[0] && f[1] == FlagLetters(e)[1];
    assert [e.codepoints[0], e.codepoints[1]] == e.codepoints;
  }

  /** An `emoji_u` file name is read by splitting what lies between the
      prefix and the extension at underscores. */
  lemma ParseEmojiFile(middle: string)
    ensures ParseSvgFile("emoji_u" + middle + ".svg") ==
      if middle == [] then Some([])
      else match ParseHexWords(Split(middle, "_"))
        case Some(ns) => Some(ns)
        case None => None
  {
    var f := "emoji_u" + middle + ".svg";
    assert f[7..|f| - 4] == middle;
    assert f[0] == 'e';
    assert f[..7] == "emoji_u";
    assert f[|f| - 4..] == ".svg";
  }

  /** The underscore-joined lower-case spellings split and read back as the
      codepoints. */
  lemma ParseJoinedHex(cps: seq<Scalar>)
    requires cps != []
    ensures var middle := Join(LowerHexWords(cps), "_");
      middle != [] && ParseHexWords(Split(middle, "_")) == Some(cps)
  {
    var words := LowerHexWords(cps);
    forall k | 0 <= k < |words| ensures "_"[0] !in words[k] {
      assert AllHex(Hex4(cps[k], false));
    }
    SplitJoin(words, "_");
    ParseLowerHexWords(cps);
    assert |words[0]| >= 4;
    JoinNonEmpty(words, "_");
  }

  /** The SVG file name determines the codepoints: a flag's two letters give
      back its regional indicators, and any other name gives back the
      codepoints except U+FE0F. */
  lemma SvgFileRoundTrip(e: Emoji)
    ensures ParseSvgFile(SvgFile(e)) ==
      Some(if IsRegionalFlag(e) then e.codepoints else WithoutSelector(e.codepoints))
  {
    if IsRegionalFlag(e) {
      FlagFileRoundTrip(e);
    } else {
      var cps := WithoutSelector(e.codepoints);
      ParseEmojiFile(Join(LowerHexWords(cps), "_"));
      if cps == [] {
        assert Join(LowerHexWords(cps), "_") == [];
      } else {
        ParseJoinedHex(cps);
      }
    }
  }

  /** Joining a non-empty first piece gives a non-empty string. */
  lemma JoinNonEmpty(parts: seq<string>, sep: string)
    requires |parts| >= 1 && parts[0] != []
    ensures Join(parts, sep) != []
  {
  }

  /** `svg_path`: flags live among the regional-flag sources, everything else
      in `svg/`. */
  function SvgPath(e: Emoji): (r: string)
    ensures EndsWith(r, SvgFile(e))
    ensures IsRegionalFlag(e) <==> StartsWith(r, "third_party/")
  {
    SvgDirectoryShape(IsRegionalFlag(e), SvgFile(e));
    SvgDirectory(IsRegionalFlag(e)) + SvgFile(e)
  }

  function SvgDirectory(flag: bool): string {
    if flag then "third_party/regional-flags/svg/" else "svg/"
  }

  lemma SvgDirectoryShape(flag: bool, f: string)
    ensures EndsWith(SvgDirectory(flag) + f, f)
    ensures flag <==> StartsWith(SvgDirectory(flag) + f, "third_party/")
  {
    var p := SvgDirectory(flag);
    ConcatAffixes(p, f, if flag then "third_party/" else "s");
    if !flag {
      assert (p + f)[0] == 's';
    }
  }

  /** `pdf_file`: `emo-NAME.pdf`, from which the name can be read back. */
  function PdfFile(e: Emoji): (r: string)
    ensures |r| == |e.name| + 8 && StartsWith(r, "emo-") && EndsWith(r, ".pdf")
    ensures r[4..|r| - 4] == e.name
  {
    var r := "emo-" + e.name + ".pdf";
    assert r[|r| - 4..] == ".pdf";
    r
  }

  // ---------------------------------------------------------------------------
  // LaTeX commands

  /** No curly brace: the argument can be read back out of `{...}`. */
  predicate BraceFree(s: string) {
    forall i :: 0 <= i < |s| ==> s[i] != '{' && s[i] != '}'
  }

  predicate IsCommandName(s: string) {
    s != [] && forall i :: 0 <= i < |s| ==> 'A' <= s[i] <= 'Z' || 'a' <= s[i] <= 'z'
  }

  /** A control sequence followed by braced arguments. */
  function Command(name: string, args: seq<string>): string {
    "\\" + name + Arguments(args)
  }

  function Arguments(args: seq<string>): string {
    if args == [] then [] else "{" + args[0] + "}" + Arguments(args[1..])
  }

  /** The longest prefix of letters (a TeX control word). */
  function LetterRun(s: string): (w: string)
    ensures |w| <= |s| && w == s[..|w|]
    ensures forall i :: 0 <= i < |w| ==> 'A' <= w[i] <= 'Z' || 'a' <= w[i] <= 'z'
    ensures |w| < |s| ==> !('A' <= s[|w|] <= 'Z' || 'a' <= s[|w|] <= 'z')
  {
    if s == [] || !('A' <= s[0] <= 'Z' || 'a' <= s[0] <= 'z') then []
    else [s[0]] + LetterRun(s[1..])
  }

  /** The text up to the first closing brace. */
  function UntilClose(s: string): (w: string)
    ensures |w| <= |s| && w == s[..|w|]
    ensures forall i :: 0 <= i < |w| ==> s[i] != '}'
  {
    if s == [] || s[0] == '}' then [] else [s[0]] + UntilClose(s[1..])
  }

  /** Reads `{a}{b}...` back into its arguments. */
  function ParseArguments(s: string): Option<seq<string>>
    decreases |s|
  {
    if s == [] then Some([])
    else if s[0] != '{' then None
    else
      var a := UntilClose(s[1..]);
      if 1 + |a| >= |s| then None
      else
        match ParseArguments(s[2 + |a|..])
        case None => None
        case Some(rest) => Some([a] + rest)
  }

  /** Reads a control sequence with braced arguments back into its parts. */
  function ParseCommand(s: string): Option<(string, seq<string>)> {
    if s == [] || s[0] != '\\' then None
    else
      var name := LetterRun(s[1..]);
      if name == [] then None
      else
        match ParseArguments(s[1 + |name|..])
        case None => None
        case Some(args) => Some((name, args))
  }

  lemma {:induction false} UntilCloseOf(a: string, t: string)
    requires '}' !in a
    ensures UntilClose(a + "}" + t) == a
    decreases |a|
  {
    if a != [] {
      assert (a + "}" + t)[1..] == a[1..] + "}" + t;
      UntilCloseOf(a[1..], t);
      assert [a[0]] + a[1..] == a;
    }
  }

  lemma {:induction false} LetterRunOf(w: string, t: string)
    requires forall i :: 0 <= i < |w| ==> 'A' <= w[i] <= 'Z' || 'a' <= w[i] <= 'z'
    requires t == [] || t[0] == '{'
    ensures LetterRun(w + t) == w
    decreases |w|
  {
    if w == [] {
      assert w + t == t;
    } else {
      assert (w + t)[1..] == w[1..] + t;
      LetterRunOf(w[1..], t);
      assert [w[0]] + w[1..] == w;
    }
  }

  lemma {:induction false} ParseArgumentsOf(args: seq<string>)
    requires forall k :: 0 <= k < |args| ==> '}' !in args[k]
    ensures ParseArguments(Arguments(args)) == Some(args)
    decreases |args|
  {
    if args != [] {
      var s := Arguments(args);
      var tail := Arguments(args[1..]);
      assert s == "{" + (args[0] + "}" + tail);
      assert s[1..] == args[0] + "}" + tail;
      UntilCloseOf(args[0], tail);
      assert s[2 + |args[0]|..] == tail;
      ParseArgumentsOf(args[1..]);
      assert [args[0]] + args[1..] == args;
    }
  }

  /** A command whose arguments hold no closing brace reads back as its name
      and arguments. */
  lemma CommandRoundTrip(name: string, args: seq<string>)
    requires IsCommandName(name)
    ensures (forall k :: 0 <= k < |args| ==> '}' !in args[k]) ==>
      ParseCommand(Command(name, args)) == Some((name, args))
  {
    if exists k :: 0 <= k < |args| && '}' in args[k] { return; }
    var s := Command(name, args);
    assert s[1..] == name + Arguments(args);
    assert Arguments(args) == [] || Arguments(args)[0] == '{';
    LetterRunOf(name, Arguments(args));
    assert s[1 + |name|..] == Arguments(args);
    ParseArgumentsOf(args);
  }

  /** `LatexCommand.ifextra()`. */
  const IF_EXTRA: string := "\\ifEmojiExtra"

  /** `LatexCommand.begin_group(group)`: `\EmojiBeginGroup{group}`. */
  function BeginGroup(group: string): (r: string)
    ensures '}' !in group ==> ParseCommand(r) == Some(("EmojiBeginGroup", [group]))
  {
    var r := Command("EmojiBeginGroup", [group]);
    CommandRoundTrip("EmojiBeginGroup", [group]);
    r
  }

  /** `LatexCommand.begin_subgroup(group, subgroup)`:
      `\EmojiBeginSubgroup{group}{subgroup}`. */
  function BeginSubgroup(group: string, subgroup: string): (r: string)
    ensures '}' !in group && '}' !in subgroup ==>
      ParseCommand(r) == Some(("EmojiBeginSubgroup", [group, subgroup]))
  {
    var r := Command("EmojiBeginSubgroup", [group, subgroup]);
    CommandRoundTrip("EmojiBeginSubgroup", [group, subgroup]);
    r
  }

  /** `LatexCommand.define(name, codepoints)`: `\DefineEmoji{name}{codepoints}`. */
  function Define(name: string, codepoints: string): (r: string)
    ensures '}' !in name && '}' !in codepoints ==>
      ParseCommand(r) == Some(("DefineEmoji", [name, codepoints]))
  {
    var r := Command("DefineEmoji", [name, codepoints]);
    CommandRoundTrip("DefineEmoji", [name, codepoints]);
    r
  }

  /** `LatexCommand.end_subgroup(group, subgroup)`:
      `\EmojiEndSubgroup{group}{subgroup}`. */
  function EndSubgroup(group: string, subgroup: string): (r: string)
    ensures '}' !in group && '}' !in subgroup ==>
      ParseCommand(r) == Some(("EmojiEndSubgroup", [group, subgroup]))
  {
    var r := Command("EmojiEndSubgroup", [group, subgroup]);
    CommandRoundTrip("EmojiEndSubgroup", [group, subgroup]);
    r
  }

  /** `LatexCommand.end_group(group)`: `\EmojiEndGroup{group}`. */
  function EndGroup(group: string): (r: string)
    ensures '}' !in group ==> ParseCommand(r) == Some(("EmojiEndGroup", [group]))
  {
    var r := Command("EmojiEndGroup", [group]);
    CommandRoundTrip("EmojiEndGroup", [group]);
    r
  }

  /** The keycap whose first character, `#`, TeX would misread. */
  const KEYCAP_HASH: string := "keycap-hash"

  /** `latex_table_entry`: defines the emoji under its name, spelled as
      `\char` commands for the keycap hash and as the emoji itself
      otherwise. */
  function LatexTableEntry(e: Emoji): string {
    Define(e.name, if e.name == KEYCAP_HASH then LatexChars(e) else DisplayOf(e))
  }

  /** The table entry carries the emoji's name and its codepoints: reading
      the entry back gives the name, and its second argument decodes to the
      codepoints, through `\char` commands without a `#` for the keycap hash
      and character by character otherwise. */
  lemma LatexTableEntryRoundTrip(e: Emoji)
    requires '}' !in e.name && '}' !in DisplayOf(e)
    ensures ParseCommand(LatexTableEntry(e)).Some?
    ensures var (cmd, args) := ParseCommand(LatexTableEntry(e)).value;
      cmd == "DefineEmoji" && |args| == 2 && args[0] == e.name
      && (e.name == KEYCAP_HASH ==>
            ParseCharCommands(args[1]) == Some(e.codepoints) && '#' !in args[1])
      && (e.name != KEYCAP_HASH ==> ToCodepoints(Text(args[1])) == Ok(e.codepoints))
  {
    LatexCharsNoHash(e.codepoints);
    LatexCharsRoundTrip(e.codepoints);
    DisplayRoundTrip(e.codepoints, []);
    assert '}' !in CHAR_PREFIX;
  }
}

=== FILE: lines.dfy ===
/** The lines of `emoji-test.txt` as config/emo.py reads them: `readline`
    with the last character cut off, and `RegistryParser.parse_line`, which
    tells headers, comments and emoji declarations apart and builds the
    declared emoji with `Emoji.of`. */
module Lines {
  import opened Wrappers
  import opened Strings
  import opened Codepoints
  import opened Emojis
  import Names
  import Declaration

  // ---------------------------------------------------------------------------
  // Lines

  /** The length of the first line of a non-empty text, its newline
      included. */
  function LineEnd(text: string): (k: nat)
    requires text != []
    ensures 0 < k <= |text|
    ensures forall j :: 0 <= j < k - 1 ==> text[j] != '\n'
    ensures k < |text| ==> text[k - 1] == '\n'
  {
    var n := Declaration.IndexOf(text, '\n');
    if n < |text| then n + 1 else n
  }

  /** The strings `file.readline()` returns until it returns `''`: each
      line keeps its `\n`, except a last line the file does not end. */
  function ReadLines(text: string): (lines: seq<string>)
    ensures forall i :: 0 <= i < |lines| ==> lines[i] != []
    ensures forall i :: 0 <= i < |lines| - 1 ==> lines[i][|lines[i]| - 1] == '\n'
    ensures forall i, j :: 0 <= i < |lines| && 0 <= j < |lines[i]| - 1 ==> lines[i][j] != '\n'
    decreases |text|
  {
    if text == [] then []
    else
      var k := LineEnd(text);
      var rest := ReadLines(text[k..]);
      assert forall i :: 1 <= i < |[text[..k]] + rest| ==> ([text[..k]] + rest)[i] == rest[i - 1];
      [text[..k]] + rest
  }

  /** The lines put together. */
  function Concat(lines: seq<string>): string {
    if lines == [] then [] else lines[0] + Concat(lines[1..])
  }

  /** Reading lines loses nothing: the lines put together are the text. */
  lemma {:induction false} ReadLinesConcat(text: string)
    ensures Concat(ReadLines(text)) == text
    decreases |text|
  {
    if text != [] {
      ReadLinesConcat(text[LineEnd(text)..]);
      ReadLinesConcatStep(text);
    }
  }

  /** Step of `ReadLinesConcat`: the first line put before the others. */
  lemma ReadLinesConcatStep(text: string)
    requires text != [] && Concat(ReadLines(text[LineEnd(text)..])) == text[LineEnd(text)..]
    ensures Concat(ReadLines(text)) == text
  {
    var k := LineEnd(text);
    var rest := ReadLines(text[k..]);
    ReadLinesCons(text);
    ConcatCons(text[..k], rest);
    assert text == text[..k] + text[k..];
  }

  /** One unfolding of `ReadLines`. */
  lemma ReadLinesCons(text: string)
    requires text != []
    ensures ReadLines(text) == [text[..LineEnd(text)]] + ReadLines(text[LineEnd(text)..])
  {
  }

  lemma ConcatCons(line: string, rest: seq<string>)
    ensures Concat([line] + rest) == line + Concat(rest)
  {
    assert ([line] + rest)[1..] == rest;
  }

  /** `line[:-1]`: the line without its last character, which is the
      newline on every line but possibly the last. */
  function Chop(line: string): (r: string)
    ensures |r| == if line == [] then 0 else |line| - 1
    ensures r == line[..|r|]
  {
    if line == [] then [] else line[..|line| - 1]
  }

  // ---------------------------------------------------------------------------
  // One line

  const GROUP_PREFIX: string := "# group: "
  const SUBGROUP_PREFIX: string := "# subgroup: "

  /** What a line declares: nothing, a group, a subgroup or an emoji. */
  datatype Item = Blank | GroupItem(name: string) | SubgroupItem(name: string) | EmojiItem(emoji: Emoji)

  /** A line before its declaration is turned into an emoji. */
  datatype Line = BlankLine | GroupLine(group: string) | SubgroupLine(subgroup: string)
    | DeclarationLine(decl: Declaration.Declaration)

  /** Why a line is rejected. */
  datatype LineError = NotADeclaration | MalformedEmoji(error: EmojiError)

  /** The syntax of `parse_line`: the stripped line is a group or a
      subgroup header, a blank line or comment, or else it must match
      `EMOJI_DECLARATION`. */
  function Recognize(line: string): (r: Option<Line>)
    ensures var s := Strip(line);
      r == Some(BlankLine) <==> (s == [] || (s[0] == '#'
        && !StartsWith(s, GROUP_PREFIX) && !StartsWith(s, SUBGROUP_PREFIX)))
    ensures var s := Strip(line);
      r.None? <==> (s != [] && s[0] != '#' && Declaration.Match(s).None?)
    ensures var s := Strip(line);
      (r.Some? && r.value.GroupLine? <==> StartsWith(s, GROUP_PREFIX))
      && (StartsWith(s, GROUP_PREFIX) ==> r.value.group == Names.ToGroup(s[|GROUP_PREFIX|..]))
    ensures var s := Strip(line);
      (r.Some? && r.value.SubgroupLine? <==> StartsWith(s, SUBGROUP_PREFIX))
      && (StartsWith(s, SUBGROUP_PREFIX) ==> r.value.subgroup == Names.ToSubgroup(s[|SUBGROUP_PREFIX|..]))
    ensures var s := Strip(line);
      r.Some? && r.value.DeclarationLine? <==> (s != [] && s[0] != '#' && Declaration.Match(s).Some?)
    ensures r.Some? && r.value.DeclarationLine? ==>
      && Declaration.Match(Strip(line)) == Some(r.value.decl)
      && Declaration.WellFormed(r.value.decl) && Declaration.Render(r.value.decl) == Strip(line)
  {
    var s := Strip(line);
    HeaderPrefixes(s);
    if StartsWith(s, GROUP_PREFIX) then Some(GroupLine(Names.ToGroup(s[|GROUP_PREFIX|..])))
    else if StartsWith(s, SUBGROUP_PREFIX) then Some(SubgroupLine(Names.ToSubgroup(s[|SUBGROUP_PREFIX|..])))
    else if s == [] || s[0] == '#' then Some(BlankLine)
    else
      match Declaration.Match(s)
      case None => None
      case Some(d) =>
        Declaration.MatchSound(s);
        Some(DeclarationLine(d))
  }

  /** Both headers start with `#`, and they differ in their third
      character, so no line starts with both. */
  lemma HeaderPrefixes(s: string)
    ensures StartsWith(s, GROUP_PREFIX) ==> s[0] == '#' && s[2] == 'g'
    ensures StartsWith(s, SUBGROUP_PREFIX) ==> s[0] == '#' && s[2] == 's'
  {
    if StartsWith(s, GROUP_PREFIX) {
      assert s[0] == s[..|GROUP_PREFIX|][0] && s[2] == s[..|GROUP_PREFIX|][2];
    }
    if StartsWith(s, SUBGROUP_PREFIX) {
      assert s[0] == s[..|SUBGROUP_PREFIX|][0] && s[2] == s[..|SUBGROUP_PREFIX|][2];
    }
  }

  /** The emoji a declaration line declares: `Emoji.of` of its name, its
      whitespace-separated codepoints, its status and its version. */
  function DeclaredEmoji(d: Declaration.Declaration): Result<Emoji, EmojiError> {
    Of(d.name, Tokens(StrTokens(SplitWhitespace(d.codepoints))), Some(d.status), Some(d.version))
  }

  /** `parse_line`: what the line declares, the emoji built by
      `Emoji.of`; a line that is no declaration and an emoji `Emoji.of`
      rejects are errors. */
  function ParseLine(line: string): (r: Result<Item, LineError>)
    ensures r == Ok(Blank) <==> Recognize(line) == Some(BlankLine)
    ensures r == Err(NotADeclaration) <==> Recognize(line).None?
    ensures r.Ok? && r.value.GroupItem? <==> Recognize(line).Some? && Recognize(line).value.GroupLine?
    ensures r.Ok? && r.value.GroupItem? ==> r.value.name == Recognize(line).value.group
    ensures r.Ok? && r.value.SubgroupItem? <==> Recognize(line).Some? && Recognize(line).value.SubgroupLine?
    ensures r.Ok? && r.value.SubgroupItem? ==> r.value.name == Recognize(line).value.subgroup
    ensures Recognize(line).Some? && Recognize(line).value.DeclarationLine? ==>
      r == DeclaredItem(Recognize(line).value.decl)
  {
    match Recognize(line)
    case None => Err(NotADeclaration)
    case Some(BlankLine) => Ok(Blank)
    case Some(GroupLine(g)) => Ok(GroupItem(g))
    case Some(SubgroupLine(s)) => Ok(SubgroupItem(s))
    case Some(DeclarationLine(d)) => DeclaredItem(d)
  }

  /** The emoji a declaration declares, or the reason `Emoji.of` rejects
      it. */
  function DeclaredItem(d: Declaration.Declaration): (r: Result<Item, LineError>)
    ensures r.Ok? ==> r.value.EmojiItem? && DeclaredEmoji(d) == Ok(r.value.emoji)
    ensures r.Err? ==> r.error.MalformedEmoji? && DeclaredEmoji(d) == Err(r.error.error)
  {
    match DeclaredEmoji(d)
    case Ok(e) => Ok(EmojiItem(e))
    case Err(x) => Err(MalformedEmoji(x))
  }

  /** A line that neither starts nor ends with whitespace is its own
      stripped form. */
  lemma StripLine(line: string, first: char, last: char)
    requires line != [] && line[0] == first && line[|line| - 1] == last
    requires !IsSpace(first) && !IsSpace(last)
    ensures Strip(line) == line
  {
    StripUnchanged(line);
  }

  /** A well-formed declaration line whose name does not end in whitespace
      is recognised as exactly that declaration. */
  lemma RecognizeDeclaration(d: Declaration.Declaration)
    requires Declaration.WellFormed(d) && !IsSpace(d.name[|d.name| - 1])
    ensures Recognize(Declaration.Render(d)) == Some(DeclarationLine(d))
  {
    var line := Declaration.Render(d);
    RenderEnds(d);
    StripLine(line, d.codepoints[0], d.name[|d.name| - 1]);
    NotHeader(line);
    Declaration.MatchComplete(d);
    RecognizeData(line, d);
  }

  /** A stripped line that is no header and no comment is recognised by
      the declaration grammar alone. */
  lemma RecognizeData(line: string, d: Declaration.Declaration)
    requires Strip(line) == line && line != [] && line[0] != '#'
    requires !StartsWith(line, GROUP_PREFIX) && !StartsWith(line, SUBGROUP_PREFIX)
    requires Declaration.Match(line) == Some(d)
    ensures Recognize(line) == Some(DeclarationLine(d))
  {
  }

  lemma NotHeader(line: string)
    requires line != [] && line[0] != '#'
    ensures !StartsWith(line, GROUP_PREFIX) && !StartsWith(line, SUBGROUP_PREFIX)
  {
    assert GROUP_PREFIX[0] == '#' && SUBGROUP_PREFIX[0] == '#';
  }

  lemma RenderEnds(d: Declaration.Declaration)
    requires Declaration.WellFormed(d)
    ensures var line := Declaration.Render(d);
      line != [] && line[0] == d.codepoints[0] && line[|line| - 1] == d.name[|d.name| - 1]
      && Declaration.IsUpperHex(line[0])
  {
  }

  /** A group header declares the group under its normalised name. */
  lemma RecognizeGroup(name: string)
    requires name != [] && !IsSpace(name[|name| - 1])
    ensures Recognize(GROUP_PREFIX + name) == Some(GroupLine(Names.ToGroup(name)))
  {
    var line := GROUP_PREFIX + name;
    HeaderParts(GROUP_PREFIX, name);
    StripLine(line, '#', name[|name| - 1]);
  }

  lemma HeaderParts(prefix: string, name: string)
    requires prefix != [] && name != []
    ensures var line := prefix + name;
      line[0] == prefix[0] && line[|line| - 1] == name[|name| - 1]
      && StartsWith(line, prefix) && line[|prefix|..] == name
  {
    var line := prefix + name;
    assert line[..|prefix|] == prefix;
  }

  /** A subgroup header declares the subgroup under its normalised name. */
  lemma RecognizeSubgroup(name: string)
    requires name != [] && !IsSpace(name[|name| - 1])
    ensures Recognize(SUBGROUP_PREFIX + name) == Some(SubgroupLine(Names.ToSubgroup(name)))
  {
    var line := SUBGROUP_PREFIX + name;
    HeaderParts(SUBGROUP_PREFIX, name);
    StripLine(line, '#', name[|name| - 1]);
    NotGroupHeader(line);
  }

  lemma NotGroupHeader(line: string)
    requires StartsWith(line, SUBGROUP_PREFIX)
    ensures !StartsWith(line, GROUP_PREFIX)
  {
    assert line[2] == 's';
  }

  /** The emoji of a declaration line. */
  lemma ParseDeclarationLine(d: Declaration.Declaration)
    requires Declaration.WellFormed(d) && !IsSpace(d.name[|d.name| - 1])
    ensures ParseLine(Declaration.Render(d)) == DeclaredItem(d)
  {
    RecognizeDeclaration(d);
  }
}

=== FILE: names.dfy ===
/** Normalisation of emoji names and of group and subgroup names
    (config/emo.py, "Normalize emoji names" and "Normalize emoji group and
    subgroup names"), plus the separator collapsing that the two earlier
    variants (scripts/emo.py and emo.py) share with it. */
module Names {
  import opened Wrappers
  import opened Strings

  // ---------------------------------------------------------------------------
  // Character removal and separator collapsing

  /** The characters `PUNCTUATION` deletes from emoji names in config/emo.py. */
  const PUNCTUATION: set<char> :=
    {'"', '\'', '\U{2019}', '\U{201C}', '\U{201D}', '&', '!', '(', ')', ',', '.', ':'}

  /** The smaller class `_PUNCTUATION` of scripts/emo.py. */
  const SCRIPTS_PUNCTUATION: set<char> := {':', '\'', '"', '!', '(', ')'}

  /** `re.sub('[...]', '', s)`: delete every character of the class, keep the
      rest in order. */
  function RemoveChars(s: string, cs: set<char>): (r: string)
    ensures |r| <= |s|
    ensures forall c :: c in r <==> c in s && c !in cs
  {
    if s == [] then []
    else if s[0] in cs then RemoveChars(s[1..], cs)
    else [s[0]] + RemoveChars(s[1..], cs)
  }

  /** Removal works character by character: the result for a
      concatenation is the results for its parts, concatenated. */
  lemma {:induction false} RemoveCharsConcat(a: string, b: string, cs: set<char>)
    ensures RemoveChars(a + b, cs) == RemoveChars(a, cs) + RemoveChars(b, cs)
    decreases |a|
  {
    if a == [] {
      assert a + b == b;
    } else {
      var s := a + b;
      assert s[0] == a[0] && s[1..] == a[1..] + b;
      RemoveCharsConcat(a[1..], b, cs);
    }
  }

  /** One character is deleted when it is in the class and kept otherwise. */
  lemma RemoveCharsOne(c: char, cs: set<char>)
    ensures RemoveChars([c], cs) == if c in cs then [] else [c]
  {
    assert [c][1..] == [];
  }

  /** The separator class `[ _\-]` of all three variants. */
  predicate IsSeparator(c: char) {
    c == ' ' || c == '_' || c == '-'
  }

  /** No two separators are adjacent. */
  predicate NoSeparatorRun(s: string) {
    forall i :: 0 <= i < |s| - 1 ==> !(IsSeparator(s[i]) && IsSeparator(s[i + 1]))
  }

  /** The only separator left is the hyphen, and it never repeats. */
  predicate Collapsed(s: string) {
    NoSeparatorRun(s) && ' ' !in s && '_' !in s
  }

  /** The characters that are not separators, in order. */
  function WordChars(s: string): (r: string)
    ensures forall c :: c in r <==> c in s && !IsSeparator(c)
  {
    if s == [] then []
    else if IsSeparator(s[0]) then WordChars(s[1..])
    else [s[0]] + WordChars(s[1..])
  }

  /** `s` without its leading separators. */
  function DropSeparators(s: string): (r: string)
    ensures |r| <= |s| && r == s[|s| - |r|..]
    ensures r == [] || !IsSeparator(r[0])
    ensures WordChars(r) == WordChars(s)
    ensures forall c :: c in r ==> c in s
  {
    if s != [] && IsSeparator(s[0]) then
      var r := DropSeparators(s[1..]);
      SliceOfSlice(s, 1, |s| - 1 - |r|);
      assert forall c :: c in s[1..] ==> c in s;
      r
    else s
  }

  /** `re.sub(r'[ _\-]+', '-', s)`: each maximal run of separators becomes a
      single hyphen. */
  function CollapseSeparators(s: string): (r: string)
    ensures |r| == 0 <==> |s| == 0
    ensures r != [] ==> (IsSeparator(r[0]) <==> IsSeparator(s[0]))
    ensures Collapsed(r)
    ensures WordChars(r) == WordChars(s)
    decreases |s|
  {
    if s == [] then []
    else if IsSeparator(s[0]) then
      var rest := CollapseSeparators(DropSeparators(s));
      assert "-" + rest == ['-'] + rest;
      "-" + rest
    else
      [s[0]] + CollapseSeparators(s[1..])
  }

  /** A word without separators in front of `t` is kept as it is. */
  lemma {:induction false} CollapseWord(w: string, t: string)
    requires forall i :: 0 <= i < |w| ==> !IsSeparator(w[i])
    ensures CollapseSeparators(w + t) == w + CollapseSeparators(t)
    decreases |w|
  {
    if w == [] {
      assert w + t == t;
    } else {
      ConsAppend(w, t);
      CollapseCons(w[0], w[1..] + t);
      CollapseWord(w[1..], t);
      ConsAppend(w, CollapseSeparators(t));
    }
  }

  /** A character that is no separator is kept in front. */
  lemma CollapseCons(c: char, t: string)
    requires !IsSeparator(c)
    ensures CollapseSeparators([c] + t) == [c] + CollapseSeparators(t)
  {
    assert ([c] + t)[1..] == t;
  }

  /** A whole run of separators in front of `t` becomes one hyphen.  With
      `CollapseWord` this pins the result down completely: words are kept
      and each maximal run is one hyphen. */
  lemma CollapseRun(run: string, t: string)
    requires run != [] && forall i :: 0 <= i < |run| ==> IsSeparator(run[i])
    requires t == [] || !IsSeparator(t[0])
    ensures CollapseSeparators(run + t) == "-" + CollapseSeparators(t)
  {
    DropRun(run, t);
    assert (run + t)[0] == run[0];
  }

  /** `DropSeparators` removes exactly a leading run. */
  lemma {:induction false} DropRun(run: string, t: string)
    requires forall i :: 0 <= i < |run| ==> IsSeparator(run[i])
    requires t == [] || !IsSeparator(t[0])
    ensures DropSeparators(run + t) == t
    decreases |run|
  {
    if run == [] {
      assert run + t == t;
    } else {
      var s := run + t;
      assert s[0] == run[0] && s[1..] == run[1..] + t;
      DropRun(run[1..], t);
    }
  }

  /** Collapsing introduces no character but the hyphen. */
  lemma {:induction false} CollapseChars(s: string)
    ensures forall c :: c in CollapseSeparators(s) ==> c in s || c == '-'
    decreases |s|
  {
    if s != [] {
      if IsSeparator(s[0]) {
        CollapseChars(DropSeparators(s));
      } else {
        CollapseChars(s[1..]);
      }
    }
  }

  predicate HasSeparator(s: string) {
    exists i :: 0 <= i < |s| && IsSeparator(s[i])
  }

  lemma HasSeparatorTail(s: string)
    requires s != [] && !IsSeparator(s[0])
    ensures HasSeparator(s) <==> HasSeparator(s[1..])
  {
    var tail := s[1..];
    if HasSeparator(s) {
      var i :| 0 <= i < |s| && IsSeparator(s[i]);
      assert tail[i - 1] == s[i];
    }
    if HasSeparator(tail) {
      var i :| 0 <= i < |tail| && IsSeparator(tail[i]);
      assert s[i + 1] == tail[i];
    }
  }

  lemma HyphenInCons(c: char, rest: string)
    requires c != '-'
    ensures ('-' in [c] + rest) <==> ('-' in rest)
  {
    var r := [c] + rest;
    if '-' in r {
      var i :| 0 <= i < |r| && r[i] == '-';
      assert rest[i - 1] == '-';
    }
  }

  /** Collapsing leaves a hyphen exactly when the input had a separator. */
  lemma {:induction false} CollapseHyphen(s: string)
    ensures ('-' in CollapseSeparators(s)) <==> HasSeparator(s)
    decreases |s|
  {
    if s == [] {
    } else if IsSeparator(s[0]) {
      assert CollapseSeparators(s)[0] == '-';
    } else {
      CollapseHyphen(s[1..]);
      HasSeparatorTail(s);
      HyphenInCons(s[0], CollapseSeparators(s[1..]));
    }
  }

  /** Every separator turned into a hyphen, one for one. */
  function Hyphenate(s: string): (r: string)
    ensures |r| == |s|
  {
    seq(|s|, i requires 0 <= i < |s| => if IsSeparator(s[i]) then '-' else s[i])
  }

  /** Without separator runs, collapsing only turns separators into hyphens. */
  lemma {:induction false} CollapseWithoutRuns(s: string)
    requires NoSeparatorRun(s)
    ensures CollapseSeparators(s) == Hyphenate(s)
    decreases |s|
  {
    if s != [] {
      assert NoSeparatorRun(s[1..]);
      CollapseWithoutRuns(s[1..]);
      if IsSeparator(s[0]) {
        assert DropSeparators(s) == s[1..] by {
          assert s[1..] == [] || !IsSeparator(s[1]);
        }
      }
      assert Hyphenate(s) == [Hyphenate(s)[0]] + Hyphenate(s[1..]);
    }
  }

  /** A collapsed string is a fixed point, so collapsing is idempotent. */
  lemma {:induction false} CollapseFixpoint(s: string)
    requires Collapsed(s)
    ensures CollapseSeparators(s) == s
    decreases |s|
  {
    if s != [] {
      assert Collapsed(s[1..]);
      if IsSeparator(s[0]) {
        assert s[0] == '-';
        assert DropSeparators(s) == s[1..] by {
          assert s[1..] == [] || !IsSeparator(s[1]);
        }
      }
      CollapseFixpoint(s[1..]);
    }
  }

  lemma CollapseIdempotent(s: string)
    ensures CollapseSeparators(CollapseSeparators(s)) == CollapseSeparators(s)
  {
    CollapseFixpoint(CollapseSeparators(s));
  }

  // ---------------------------------------------------------------------------
  // Hyphen runs and replacement

  /** No `--` anywhere. */
  predicate NoDoubleHyphen(s: string) {
    forall i :: 0 <= i < |s| - 1 ==> !(s[i] == '-' && s[i + 1] == '-')
  }

  /** A non-empty replacement keeps a non-empty string non-empty, and the
      result starts with the original first character or the replacement's. */
  lemma {:induction false} ReplaceAllFirst(s: string, pat: string, rep: string)
    requires pat != [] && rep != [] && s != []
    ensures var r := ReplaceAll(s, pat, rep); r != [] && (r[0] == s[0] || r[0] == rep[0])
  {
  }

  /** Replacing with a non-empty, hyphen-free string never creates `--`. */
  lemma {:induction false} ReplaceAllNoDoubleHyphen(s: string, pat: string, rep: string)
    requires pat != [] && rep != [] && '-' !in rep
    requires NoDoubleHyphen(s)
    ensures NoDoubleHyphen(ReplaceAll(s, pat, rep))
    decreases |s|
  {
    if |s| < |pat| {
    } else if s[..|pat|] == pat {
      var tail := s[|pat|..];
      assert NoDoubleHyphen(tail) by {
        forall i | 0 <= i < |tail| - 1
          ensures !(tail[i] == '-' && tail[i + 1] == '-')
        {
          assert tail[i] == s[|pat| + i] && tail[i + 1] == s[|pat| + i + 1];
        }
      }
      ReplaceAllNoDoubleHyphen(tail, pat, rep);
      var rest := ReplaceAll(tail, pat, rep);
      assert rep[|rep| - 1] != '-';
      var r := rep + rest;
      forall i | 0 <= i < |r| - 1
        ensures !(r[i] == '-' && r[i + 1] == '-')
      {
        if i < |rep| {
          assert r[i] == rep[i];
        } else {
          assert r[i] == rest[i - |rep|] && r[i + 1] == rest[i - |rep| + 1];
        }
      }
    } else {
      var tail := s[1..];
      assert NoDoubleHyphen(tail) by {
        forall i | 0 <= i < |tail| - 1
          ensures !(tail[i] == '-' && tail[i + 1] == '-')
        {
          assert tail[i] == s[i + 1] && tail[i + 1] == s[i + 2];
        }
      }
      ReplaceAllNoDoubleHyphen(tail, pat, rep);
      var rest := ReplaceAll(tail, pat, rep);
      if tail != [] {
        ReplaceAllFirst(tail, pat, rep);
      }
      var r := [s[0]] + rest;
      forall i | 0 <= i < |r| - 1
        ensures !(r[i] == '-' && r[i + 1] == '-')
      {
        if i > 0 {
          assert r[i] == rest[i - 1] && r[i + 1] == rest[i];
        } else {
          assert r[1] == rest[0];
          assert rest[0] == s[1] || rest[0] == rep[0];
        }
      }
    }
  }

  // ---------------------------------------------------------------------------
  // to_name

  /** The historical name overrides (`RENAMING`), applied last as an exact
      match.  The table is written in source order, in slices of eight
      entries, so that facts about it can be checked slice by slice. */
  const RENAMING_1: map<string, string> := map[
    "a-button-blood-type" := "a-button",
    "ab-button-blood-type" := "ab-button",
    "b-button-blood-type" := "b-button",
    "o-button-blood-type" := "o-button",
    "bust-in-silhouette" := "bust",
    "busts-in-silhouette" := "busts",
    "flag-european-union" := "eu",
    "globe-showing-americas" := "globe-americas"
  ]

  const RENAMING_2: map<string, string> := map[
    "globe-showing-asia-australia" := "globe-asia-australia",
    "globe-showing-europe-africa" := "globe-africa-europe",
    "hear-no-evil-monkey" := "hear-no-evil",
    "index-pointing-at-the-viewer" := "index-pointing-at-viewer",
    "index-pointing-at-the-viewer-darkest" := "index-pointing-at-viewer-darkest",
    "index-pointing-at-the-viewer-darker" := "index-pointing-at-viewer-darker",
    "index-pointing-at-the-viewer-medium" := "index-pointing-at-viewer-medium",
    "index-pointing-at-the-viewer-lighter" := "index-pointing-at-viewer-lighter"
  ]

  const RENAMING_3: map<string, string> := map[
    "index-pointing-at-the-viewer-lightest" := "index-pointing-at-viewer-lightest",
    "keycap-*" := "keycap-star",
    "keycap-#" := "keycap-hash",
    "keycap-0" := "keycap-zero",
    "keycap-1" := "keycap-one",
    "keycap-2" := "keycap-two",
    "keycap-3" := "keycap-three",
    "keycap-4" := "keycap-four"
  ]

  const RENAMING_4: map<string, string> := map[
    "keycap-5" := "keycap-five",
    "keycap-6" := "keycap-six",
    "keycap-7" := "keycap-seven",
    "keycap-8" := "keycap-eight",
    "keycap-9" := "keycap-nine",
    "keycap-10" := "keycap-ten",
    "magnifying-glass-tilted-left" := "loupe-left",
    "magnifying-glass-tilted-right" := "loupe-right"
  ]

  const RENAMING_5: map<string, string> := map[
    "palm-down-hand" := "palm-down",
    "palm-down-hand-darkest" := "palm-down-darkest",
    "palm-down-hand-darker" := "palm-down-darker",
    "palm-down-hand-medium" := "palm-down-medium",
    "palm-down-hand-lighter" := "palm-down-lighter",
    "palm-down-hand-lightest" := "palm-down-lightest",
    "palm-up-hand" := "palm-up",
    "palm-up-hand-darkest" := "palm-up-darkest"
  ]

  const RENAMING_6: map<string, string> := map[
    "palm-up-hand-darker" := "palm-up-darker",
    "palm-up-hand-medium" := "palm-up-medium",
    "palm-up-hand-lighter" := "palm-up-lighter",
    "palm-up-hand-lightest" := "palm-up-lightest",
    "rolling-on-the-floor-laughing" := "rofl",
    "see-no-evil-monkey" := "see-no-evil",
    "speak-no-evil-monkey" := "speak-no-evil"
  ]

  /** `name` is one of the overridden names. */
  predicate Renamed(name: string) {
    || name in RENAMING_1 || name in RENAMING_2 || name in RENAMING_3
    || name in RENAMING_4 || name in RENAMING_5 || name in RENAMING_6
  }

  /** `RENAMING.get(name, name)`.  No name occurs in two slices, so the slice
      that holds a name decides its override. */
  function Rename(name: string): string {
    if name in RENAMING_1 then RENAMING_1[name]
    else if name in RENAMING_2 then RENAMING_2[name]
    else if name in RENAMING_3 then RENAMING_3[name]
    else if name in RENAMING_4 then RENAMING_4[name]
    else if name in RENAMING_5 then RENAMING_5[name]
    else if name in RENAMING_6 then RENAMING_6[name]
    else name
  }

  /** The five skin-tone substitutions of `to_name`, longest phrase first;
      their order matters (see `SkinToneOrder`). */
  function SkinTones(s: string): string {
    var s1 := ReplaceAll(s, "medium-dark-skin-tone", "darker");
    var s2 := ReplaceAll(s1, "medium-light-skin-tone", "lighter");
    var s3 := ReplaceAll(s2, "medium-skin-tone", "medium");
    var s4 := ReplaceAll(s3, "dark-skin-tone", "darkest");
    ReplaceAll(s4, "light-skin-tone", "lightest")
  }

  /** `to_name`: lower-case, delete punctuation, collapse separators, shorten
      the skin tones, then apply the override table to the whole string. */
  function ToName(value: string): string {
    var name := SkinTones(CollapseSeparators(RemoveChars(Lower(value), PUNCTUATION)));
    Rename(name)
  }

  /** A character that may appear in an emoji name. */
  predicate NameChar(c: char) {
    !IsAsciiUpper(c) && c !in PUNCTUATION && c != ' ' && c != '_'
  }

  /** The shape every emoji name has: lower case, no punctuation, no spaces or
      underscores, and no `--` runs. */
  predicate IsNameShaped(s: string) {
    && (forall i :: 0 <= i < |s| ==> NameChar(s[i]))
    && NoDoubleHyphen(s)
  }

  /** A word of lower-case letters is name-shaped and free of hyphens. */
  lemma WordIsNameShaped(w: string)
    requires forall i :: 0 <= i < |w| ==> 'a' <= w[i] <= 'z'
    ensures IsNameShaped(w) && '-' !in w
  {
  }

  /** Replacing with a name-shaped, hyphen-free word keeps a name
      name-shaped. */
  lemma ReplaceKeepsShape(s: string, pat: string, rep: string)
    requires pat != [] && rep != [] && IsNameShaped(s) && IsNameShaped(rep) && '-' !in rep
    ensures IsNameShaped(ReplaceAll(s, pat, rep))
  {
    ReplaceAllNoDoubleHyphen(s, pat, rep);
    ReplaceAllChars(s, pat, rep);
    var r := ReplaceAll(s, pat, rep);
    forall i | 0 <= i < |r|
      ensures NameChar(r[i])
    {
      assert r[i] in s || r[i] in rep;
    }
  }

  lemma SkinTonesKeepShape(s: string)
    requires IsNameShaped(s)
    ensures IsNameShaped(SkinTones(s))
  {
    WordIsNameShaped("darker");
    WordIsNameShaped("lighter");
    WordIsNameShaped("medium");
    WordIsNameShaped("darkest");
    WordIsNameShaped("lightest");
    var s1 := ReplaceAll(s, "medium-dark-skin-tone", "darker");
    ReplaceKeepsShape(s, "medium-dark-skin-tone", "darker");
    var s2 := ReplaceAll(s1, "medium-light-skin-tone", "lighter");
    ReplaceKeepsShape(s1, "medium-light-skin-tone", "lighter");
    var s3 := ReplaceAll(s2, "medium-skin-tone", "medium");
    ReplaceKeepsShape(s2, "medium-skin-tone", "medium");
    var s4 := ReplaceAll(s3, "dark-skin-tone", "darkest");
    ReplaceKeepsShape(s3, "dark-skin-tone", "darkest");
    ReplaceKeepsShape(s4, "light-skin-tone", "lightest");
  }

  /** After lower-casing, deleting punctuation and collapsing separators, a
      name has the shape of an emoji name. */
  lemma CollapsedShape(value: string)
    ensures IsNameShaped(CollapseSeparators(RemoveChars(Lower(value), PUNCTUATION)))
  {
    var stripped := RemoveChars(Lower(value), PUNCTUATION);
    var collapsed := CollapseSeparators(stripped);
    CollapseChars(stripped);
    forall i | 0 <= i < |collapsed|
      ensures NameChar(collapsed[i])
    {
      assert collapsed[i] in collapsed;
      assert collapsed[i] in stripped || collapsed[i] == '-';
    }
    forall i | 0 <= i < |collapsed| - 1
      ensures !(collapsed[i] == '-' && collapsed[i + 1] == '-')
    {
      assert !(IsSeparator(collapsed[i]) && IsSeparator(collapsed[i + 1]));
    }
  }

  /** Before the override table, every name `to_name` computes is lower case,
      free of the punctuation class, of spaces and underscores, and of `--`
      runs; the override table applies last, to the whole string only. */
  lemma ToNameShape(value: string)
    ensures var pre := SkinTones(CollapseSeparators(RemoveChars(Lower(value), PUNCTUATION)));
      && IsNameShaped(pre)
      && ToName(value) == Rename(pre)
      && (!Renamed(pre) ==> ToName(value) == pre)
  {
    CollapsedShape(value);
    SkinTonesKeepShape(CollapseSeparators(RemoveChars(Lower(value), PUNCTUATION)));
  }

  /** Deleting characters that do not occur changes nothing. */
  lemma {:induction false} RemoveCharsNone(s: string, cs: set<char>)
    requires forall i :: 0 <= i < |s| ==> s[i] !in cs
    ensures RemoveChars(s, cs) == s
    decreases |s|
  {
    if s != [] {
      RemoveCharsNone(s[1..], cs);
    }
  }

  /** A pattern with a character the string lacks is never replaced. */
  lemma ReplaceAllAbsent(s: string, pat: string, rep: string, j: nat)
    requires pat != [] && j < |pat|
    requires forall i :: 0 <= i < |s| ==> s[i] != pat[j]
    ensures ReplaceAll(s, pat, rep) == s
  {
    forall i | 0 <= i <= |s| - |pat|
      ensures !StartsWith(s[i..], pat)
    {
      assert s[i..][j] == s[i + j];
    }
    ReplaceAllNoMatch(s, pat, rep);
  }

  /** A string that starts with the pattern has that occurrence replaced. */
  lemma ReplaceAllLeading(pat: string, tail: string, rep: string)
    requires pat != []
    ensures ReplaceAll(pat + tail, pat, rep) == rep + ReplaceAll(tail, pat, rep)
  {
    var s := pat + tail;
    assert s[..|pat|] == pat;
    assert s[|pat|..] == tail;
  }

  predicate NoPunctuation(value: string) {
    forall i :: 0 <= i < |value| ==> value[i] !in PUNCTUATION
  }

  /** For a name whose lower-case form is punctuation-free and without
      separator runs, `to_name` only lower-cases, hyphenates, shortens skin
      tones, and looks up the override table. */
  lemma ToNameOfLowered(value: string)
    requires NoPunctuation(Lower(value)) && NoSeparatorRun(Lower(value))
    ensures ToName(value) == Rename(SkinTones(Hyphenate(Lower(value))))
  {
    RemoveCharsNone(Lower(value), PUNCTUATION);
    CollapseWithoutRuns(Lower(value));
  }

  /** The same for a name that is already lower case. */
  lemma ToNameOfPlain(value: string)
    requires NoUpper(value) && NoPunctuation(value) && NoSeparatorRun(value)
    ensures ToName(value) == Rename(SkinTones(Hyphenate(value)))
  {
    LowerIdempotent(value);
    ToNameOfLowered(value);
  }

  /** A string in which none of the five skin-tone phrases can occur is left
      alone by `SkinTones`, witnessed by one missing character per phrase. */
  lemma SkinTonesAbsent(s: string, j1: nat, j2: nat, j3: nat, j4: nat, j5: nat)
    requires j1 < 21 && forall i :: 0 <= i < |s| ==> s[i] != "medium-dark-skin-tone"[j1]
    requires j2 < 22 && forall i :: 0 <= i < |s| ==> s[i] != "medium-light-skin-tone"[j2]
    requires j3 < 16 && forall i :: 0 <= i < |s| ==> s[i] != "medium-skin-tone"[j3]
    requires j4 < 14 && forall i :: 0 <= i < |s| ==> s[i] != "dark-skin-tone"[j4]
    requires j5 < 15 && forall i :: 0 <= i < |s| ==> s[i] != "light-skin-tone"[j5]
    ensures SkinTones(s) == s
  {
    ReplaceAllAbsent(s, "medium-dark-skin-tone", "darker", j1);
    ReplaceAllAbsent(s, "medium-light-skin-tone", "lighter", j2);
    ReplaceAllAbsent(s, "medium-skin-tone", "medium", j3);
    ReplaceAllAbsent(s, "dark-skin-tone", "darkest", j4);
    ReplaceAllAbsent(s, "light-skin-tone", "lightest", j5);
  }

  lemma MediumDarkSkinTone()
    ensures SkinTones("medium-dark-skin-tone") == "darker"
  {
    var p := "medium-dark-skin-tone";
    ReplaceAllLeading(p, [], "darker");
    assert p + [] == p;
    assert ReplaceAll([], p, "darker") == [];
    ReplaceAllAbsent("darker", "medium-light-skin-tone", "lighter", 7);
    ReplaceAllAbsent("darker", "medium-skin-tone", "medium", 0);
    ReplaceAllAbsent("darker", "dark-skin-tone", "darkest", 4);
    ReplaceAllAbsent("darker", "light-skin-tone", "lightest", 0);
  }

  lemma MediumSkinTone()
    ensures SkinTones("medium-skin-tone") == "medium"
  {
    var p := "medium-skin-tone";
    ReplaceAllAbsent(p, "medium-dark-skin-tone", "darker", 8);
    ReplaceAllAbsent(p, "medium-light-skin-tone", "lighter", 7);
    ReplaceAllLeading(p, [], "medium");
    assert p + [] == p;
    assert ReplaceAll([], p, "medium") == [];
    ReplaceAllAbsent("medium", "dark-skin-tone", "darkest", 1);
    ReplaceAllAbsent("medium", "light-skin-tone", "lightest", 0);
  }

  lemma LightSkinTone()
    ensures SkinTones("light-skin-tone") == "lightest"
  {
    var p := "light-skin-tone";
    ReplaceAllAbsent(p, "medium-dark-skin-tone", "darker", 0);
    ReplaceAllAbsent(p, "medium-light-skin-tone", "lighter", 0);
    ReplaceAllAbsent(p, "medium-skin-tone", "medium", 0);
    ReplaceAllAbsent(p, "dark-skin-tone", "darkest", 0);
    ReplaceAllLeading(p, [], "lightest");
    assert p + [] == p;
    assert ReplaceAll([], p, "lightest") == [];
  }

  /** The skin-tone phrases are shortened longest first: medium dark becomes
      `darker` (not `medium-darkest`), medium becomes `medium`, and light
      becomes `lightest`. */
  lemma SkinToneOrder()
    ensures SkinTones("medium-dark-skin-tone") == "darker"
    ensures SkinTones("medium-skin-tone") == "medium"
    ensures SkinTones("light-skin-tone") == "lightest"
  {
    MediumDarkSkinTone();
    MediumSkinTone();
    LightSkinTone();
  }

  // The examples below are split into one computation per lemma, because
  // the verifier evaluates string literals character by character.

  lemma TwiceNoUpper()
    ensures NoUpper("medium skin tone skin tone")
  {
  }

  lemma TwiceNoPunctuation()
    ensures NoPunctuation("medium skin tone skin tone")
  {
  }

  lemma TwiceNoRuns()
    ensures NoSeparatorRun("medium skin tone skin tone")
  {
  }

  lemma TwiceStage()
    ensures ToName("medium skin tone skin tone") == Rename(SkinTones("medium-skin-tone-skin-tone"))
  {
    var x := "medium skin tone skin tone";
    TwiceNoUpper();
    TwiceNoPunctuation();
    TwiceNoRuns();
    assert Hyphenate(x) == "medium-skin-tone-skin-tone";
    ToNameOfPlain(x);
  }

  /** `SkinTones` as its five steps. */
  lemma SkinTonesBySteps(s: string, s1: string, s2: string, s3: string, s4: string, s5: string)
    requires s1 == ReplaceAll(s, "medium-dark-skin-tone", "darker")
    requires s2 == ReplaceAll(s1, "medium-light-skin-tone", "lighter")
    requires s3 == ReplaceAll(s2, "medium-skin-tone", "medium")
    requires s4 == ReplaceAll(s3, "dark-skin-tone", "darkest")
    requires s5 == ReplaceAll(s4, "light-skin-tone", "lightest")
    ensures SkinTones(s) == s5
  {
  }

  lemma TwiceMediumDark()
    ensures ReplaceAll("medium-skin-tone-skin-tone", "medium-dark-skin-tone", "darker")
      == "medium-skin-tone-skin-tone"
  {
    ReplaceAllAbsent("medium-skin-tone-skin-tone", "medium-dark-skin-tone", "darker", 8);
  }

  lemma TwiceMediumLight()
    ensures ReplaceAll("medium-skin-tone-skin-tone", "medium-light-skin-tone", "lighter")
      == "medium-skin-tone-skin-tone"
  {
    ReplaceAllAbsent("medium-skin-tone-skin-tone", "medium-light-skin-tone", "lighter", 7);
  }

  lemma SkinToneTailMedium()
    ensures ReplaceAll("-skin-tone", "medium-skin-tone", "medium") == "-skin-tone"
  {
    ReplaceAllAbsent("-skin-tone", "medium-skin-tone", "medium", 0);
  }

  lemma TwiceMedium()
    ensures ReplaceAll("medium-skin-tone-skin-tone", "medium-skin-tone", "medium")
      == "medium-skin-tone"
  {
    var p := "medium-skin-tone";
    var tail := "-skin-tone";
    assert p + tail == "medium-skin-tone-skin-tone";
    ReplaceAllLeading(p, tail, "medium");
    SkinToneTailMedium();
  }

  lemma MediumSkinToneDarkLight()
    ensures ReplaceAll("medium-skin-tone", "dark-skin-tone", "darkest") == "medium-skin-tone"
    ensures ReplaceAll("medium-skin-tone", "light-skin-tone", "lightest") == "medium-skin-tone"
  {
    ReplaceAllAbsent("medium-skin-tone", "dark-skin-tone", "darkest", 1);
    ReplaceAllAbsent("medium-skin-tone", "light-skin-tone", "lightest", 0);
  }

  lemma TwiceSkinTones()
    ensures SkinTones("medium-skin-tone-skin-tone") == "medium-skin-tone"
  {
    var h := "medium-skin-tone-skin-tone";
    TwiceMediumDark();
    TwiceMediumLight();
    TwiceMedium();
    MediumSkinToneDarkLight();
    SkinTonesBySteps(h, h, h, "medium-skin-tone", "medium-skin-tone", "medium-skin-tone");
  }

  lemma MediumNoUpper()
    ensures NoUpper("medium-skin-tone")
  {
  }

  lemma MediumNoPunctuation()
    ensures NoPunctuation("medium-skin-tone")
  {
  }

  lemma MediumNoRuns()
    ensures NoSeparatorRun("medium-skin-tone")
  {
  }

  lemma MediumHyphenated()
    ensures Hyphenate("medium-skin-tone") == "medium-skin-tone"
  {
  }

  lemma MediumStage()
    ensures ToName("medium-skin-tone") == Rename(SkinTones("medium-skin-tone"))
  {
    MediumNoUpper();
    MediumNoPunctuation();
    MediumNoRuns();
    MediumHyphenated();
    ToNameOfPlain("medium-skin-tone");
  }

  lemma RenameKeepsMediumSkinTone()
    ensures Rename("medium-skin-tone") == "medium-skin-tone"
  {
    assert !Renamed("medium-skin-tone");
  }

  lemma RenameKeepsMedium()
    ensures Rename("medium") == "medium"
  {
    assert !Renamed("medium");
  }

  /** `to_name` is not idempotent: the third substitution can assemble a new
      `medium-skin-tone` from what the input leaves behind. */
  lemma ToNameNotIdempotent()
    ensures ToName("medium skin tone skin tone") == "medium-skin-tone"
    ensures ToName("medium-skin-tone") == "medium"
    ensures ToName(ToName("medium skin tone skin tone")) != ToName("medium skin tone skin tone")
  {
    TwiceStage();
    TwiceSkinTones();
    MediumStage();
    MediumSkinTone();
    RenameKeepsMediumSkinTone();
    RenameKeepsMedium();
  }

  lemma RoflLower()
    ensures Lower("Rolling on the Floor Laughing") == "rolling on the floor laughing"
  {
  }

  lemma RoflNoUpper()
    ensures NoUpper("rolling on the floor laughing")
  {
  }

  lemma RoflNoPunctuation()
    ensures NoPunctuation("rolling on the floor laughing")
  {
  }

  lemma RoflNoRuns()
    ensures NoSeparatorRun("rolling on the floor laughing")
  {
  }

  lemma RoflStage()
    ensures ToName("Rolling on the Floor Laughing") == Rename(SkinTones("rolling-on-the-floor-laughing"))
  {
    RoflLower();
    RoflNoPunctuation();
    RoflNoRuns();
    RoflHyphenated();
    ToNameOfLowered("Rolling on the Floor Laughing");
  }

  lemma RoflHyphenated()
    ensures Hyphenate("rolling on the floor laughing") == "rolling-on-the-floor-laughing"
  {
  }

  lemma RoflSkinTones()
    ensures SkinTones("rolling-on-the-floor-laughing") == "rolling-on-the-floor-laughing"
  {
    SkinTonesAbsent("rolling-on-the-floor-laughing", 0, 0, 0, 0, 6);
  }

  lemma RoflRename()
    ensures Rename("rolling-on-the-floor-laughing") == "rofl"
  {
    var h := "rolling-on-the-floor-laughing";
    assert h !in RENAMING_1 && h !in RENAMING_2 && h !in RENAMING_3;
    assert h !in RENAMING_4 && h !in RENAMING_5 && h in RENAMING_6;
  }

  /** The overrides apply to the whole normalised name. */
  lemma RenamingExample()
    ensures ToName("Rolling on the Floor Laughing") == "rofl"
  {
    RoflStage();
    RoflSkinTones();
    RoflRename();
  }

  // ---------------------------------------------------------------------------
  // Group and subgroup names

  /** `SHORT_GROUPS`: abbreviations accepted for the Unicode group names. */
  const SHORT_GROUPS: map<string, string> := map[
    "animals" := "animals-and-nature",
    "body" := "people-and-body",
    "drink" := "food-and-drink",
    "emotion" := "smileys-and-emotion",
    "food" := "food-and-drink",
    "nature" := "animals-and-nature",
    "people" := "people-and-body",
    "places" := "travel-and-places",
    "smileys" := "smileys-and-emotion",
    "travel" := "travel-and-places"
  ]

  /** The number of leading U+0020 spaces. */
  function LeadingBlanks(s: string): (k: nat)
    ensures k <= |s|
    ensures forall i :: 0 <= i < k ==> s[i] == ' '
    ensures k < |s| ==> s[k] != ' '
  {
    if s != [] && s[0] == ' ' then 1 + LeadingBlanks(s[1..]) else 0
  }

  /** An ampersand follows the leading blanks. */
  predicate AmpersandAhead(s: string) {
    var k := LeadingBlanks(s);
    k < |s| && s[k] == '&'
  }

  /** Where the next match or copied character ends: past an ampersand
      and the blanks around it, or past the first character. */
  function AmpersandStep(s: string): (n: nat)
    requires s != []
    ensures 0 < n <= |s|
  {
    if AmpersandAhead(s) then
      var k := LeadingBlanks(s);
      k + 1 + LeadingBlanks(s[k + 1..])
    else 1
  }

  /** `re.sub('[ ]*&[ ]*', '-and-', s)`: scanning from the left, each
      ampersand, together with the blanks around it, becomes `-and-`, and
      every other character is copied. */
  function SubstituteAmpersands(s: string): string
    decreases |s|
  {
    if s == [] then []
    else (if AmpersandAhead(s) then "-and-" else [s[0]]) + SubstituteAmpersands(s[AmpersandStep(s)..])
  }

  /** The characters of `-and-`. */
  const AND_CHARS: set<char> := {'-', 'a', 'n', 'd'}

  lemma SuffixChars(s: string, j: nat)
    requires j <= |s|
    ensures forall c :: c in s[j..] ==> c in s
  {
    forall c | c in s[j..] ensures c in s {
      var i :| 0 <= i < |s[j..]| && s[j..][i] == c;
      assert s[j + i] == c;
    }
  }

  /** The characters `c` that `SubstituteAmpersands(s)` may contain. */
  predicate AmpersandFree(r: string, s: string) {
    forall c :: c in r ==> (c in s && c != '&') || c in AND_CHARS
  }

  lemma AmpersandFreeCons(x: string, r: string, s: string)
    requires AmpersandFree(x, s) && AmpersandFree(r, s)
    ensures AmpersandFree(x + r, s)
  {
  }

  lemma AmpersandFreeWider(r: string, s: string, j: nat)
    requires j <= |s| && AmpersandFree(r, s[j..])
    ensures AmpersandFree(r, s)
  {
    SuffixChars(s, j);
  }

  /** Nothing but the characters of `s` other than `&`, and those of
      `-and-`, appears in the result; in particular no ampersand survives. */
  lemma {:induction false} SubstituteAmpersandsChars(s: string)
    ensures AmpersandFree(SubstituteAmpersands(s), s)
    decreases |s|
  {
    if s != [] {
      var n := AmpersandStep(s);
      SubstituteAmpersandsChars(s[n..]);
      AmpersandFreeWider(SubstituteAmpersands(s[n..]), s, n);
      var head := if AmpersandAhead(s) then "-and-" else [s[0]];
      assert AmpersandFree(head, s);
      AmpersandFreeCons(head, SubstituteAmpersands(s[n..]), s);
    }
  }

  lemma SubstituteAmpersandsRemovesAll(s: string)
    ensures '&' !in SubstituteAmpersands(s)
  {
    SubstituteAmpersandsChars(s);
    assert '&' !in AND_CHARS;
  }

  /** Without an ampersand the string is unchanged. */
  lemma {:induction false} SubstituteAmpersandsIdentity(s: string)
    requires '&' !in s
    ensures SubstituteAmpersands(s) == s
    decreases |s|
  {
    if s != [] {
      var k := LeadingBlanks(s);
      assert k < |s| ==> s[k] != '&';
      assert AmpersandStep(s) == 1;
      assert '&' !in s[1..];
      SubstituteAmpersandsIdentity(s[1..]);
    }
  }

  /** With an ampersand, a hyphen appears. */
  lemma {:induction false} SubstituteAmpersandsHyphen(s: string)
    requires '&' in s
    ensures '-' in SubstituteAmpersands(s)
    decreases |s|
  {
    if AmpersandAhead(s) {
      assert SubstituteAmpersands(s)[0] == '-';
    } else {
      assert s[0] != '&';
      assert '&' in s[1..];
      SubstituteAmpersandsHyphen(s[1..]);
      SubstituteAmpersandsHyphenStep(s);
    }
  }

  /** Step of `SubstituteAmpersandsHyphen` when no ampersand leads. */
  lemma SubstituteAmpersandsHyphenStep(s: string)
    requires s != [] && '-' in SubstituteAmpersands(s[1..]) && !AmpersandAhead(s)
    ensures '-' in SubstituteAmpersands(s)
  {
    var r := SubstituteAmpersands(s[1..]);
    assert SubstituteAmpersands(s) == [s[0]] + r;
    var i :| 0 <= i < |r| && r[i] == '-';
    assert ([s[0]] + r)[i + 1] == '-';
  }

  /** `to_group`: lower-case, expand an abbreviation, spell out ampersands. */
  function ToGroup(group: string): string {
    var g := Lower(group);
    SubstituteAmpersands(MapGet(SHORT_GROUPS, g, g))
  }

  /** `to_subgroup`: lower-case and spell out ampersands. */
  function ToSubgroup(subgroup: string): string {
    SubstituteAmpersands(Lower(subgroup))
  }

  /** The five group names the abbreviations expand to. */
  const FULL_GROUPS: seq<string> := [
    "animals-and-nature", "people-and-body", "food-and-drink",
    "smileys-and-emotion", "travel-and-places"
  ]

  lemma ShortGroupsExpand()
    ensures forall k :: k in SHORT_GROUPS ==> SHORT_GROUPS[k] in FULL_GROUPS
  {
  }

  lemma ShortGroupsKeys()
    ensures forall k :: k in SHORT_GROUPS ==> '-' !in k
  {
  }

  lemma FullGroupsLower()
    ensures forall i :: 0 <= i < |FULL_GROUPS| ==> NoUpper(FULL_GROUPS[i])
  {
  }

  lemma FullGroupsShape()
    ensures forall i :: 0 <= i < |FULL_GROUPS| ==> '&' !in FULL_GROUPS[i] && '-' in FULL_GROUPS[i]
  {
  }

  /** Replacing ampersands keeps a lower-case name lower case. */
  lemma SubstituteAmpersandsLower(s: string)
    requires NoUpper(s)
    ensures NoUpper(SubstituteAmpersands(s))
  {
    SubstituteAmpersandsChars(s);
    var r := SubstituteAmpersands(s);
    forall i | 0 <= i < |r| ensures !IsAsciiUpper(r[i]) {
      assert r[i] in r;
      if r[i] in s {
        var j :| 0 <= j < |s| && s[j] == r[i];
      }
    }
  }

  /** Group names are normalised once and for all: the result of `to_group`
      has no upper-case letter and no ampersand, is never an abbreviation,
      and normalising it again changes nothing. */
  lemma ToGroupIdempotent(group: string)
    ensures var g := ToGroup(group); NoUpper(g) && '&' !in g && g !in SHORT_GROUPS
    ensures ToGroup(ToGroup(group)) == ToGroup(group)
  {
    ShortGroupsExpand();
    ShortGroupsKeys();
    FullGroupsLower();
    FullGroupsShape();
    var l := Lower(group);
    var e := MapGet(SHORT_GROUPS, l, l);
    var g := SubstituteAmpersands(e);
    assert NoUpper(e);
    SubstituteAmpersandsLower(e);
    SubstituteAmpersandsRemovesAll(e);
    if '&' in e {
      SubstituteAmpersandsHyphen(e);
    } else {
      SubstituteAmpersandsIdentity(e);
    }
    assert g !in SHORT_GROUPS;
    LowerIdempotent(g);
    SubstituteAmpersandsIdentity(g);
  }

  /** The same holds for subgroup names. */
  lemma ToSubgroupIdempotent(subgroup: string)
    ensures var s := ToSubgroup(subgroup); NoUpper(s) && '&' !in s
    ensures ToSubgroup(ToSubgroup(subgroup)) == ToSubgroup(subgroup)
  {
    var s := ToSubgroup(subgroup);
    SubstituteAmpersandsLower(Lower(subgroup));
    SubstituteAmpersandsRemovesAll(Lower(subgroup));
    LowerIdempotent(s);
    SubstituteAmpersandsIdentity(s);
  }

  /** A character other than a blank or an ampersand is copied. */
  lemma SubstituteAmpersandsCons(c: char, t: string)
    requires c != ' ' && c != '&'
    ensures SubstituteAmpersands([c] + t) == [c] + SubstituteAmpersands(t)
  {
    var s := [c] + t;
    assert LeadingBlanks(s) == 0;
    assert s[1..] == t;
  }

  /** A run of characters other than blanks and ampersands is copied. */
  lemma {:induction false} SubstituteAmpersandsWord(w: string, rest: string)
    requires forall i :: 0 <= i < |w| ==> w[i] != ' ' && w[i] != '&'
    ensures SubstituteAmpersands(w + rest) == w + SubstituteAmpersands(rest)
    decreases |w|
  {
    if w == [] {
      assert w + rest == rest;
    } else {
      SubstituteAmpersandsWord(w[1..], rest);
      SubstituteAmpersandsWordStep(w, rest);
    }
  }

  /** Step of `SubstituteAmpersandsWord`: one more copied character. */
  lemma SubstituteAmpersandsWordStep(w: string, rest: string)
    requires w != [] && w[0] != ' ' && w[0] != '&'
    requires SubstituteAmpersands(w[1..] + rest) == w[1..] + SubstituteAmpersands(rest)
    ensures SubstituteAmpersands(w + rest) == w + SubstituteAmpersands(rest)
  {
    ConsAppend(w, rest);
    ConsAppend(w, SubstituteAmpersands(rest));
    SubstituteAmpersandsCons(w[0], w[1..] + rest);
  }

  /** An ampersand between single blanks becomes `-and-`. */
  lemma SubstituteAmpersandsMatch(rest: string)
    requires rest == [] || rest[0] != ' '
    ensures SubstituteAmpersands(" & " + rest) == "-and-" + SubstituteAmpersands(rest)
  {
    var s := " & " + rest;
    assert LeadingBlanks(s) == 1 by {
      assert LeadingBlanks(s[1..]) == 0;
    }
    var after := s[2..];
    assert LeadingBlanks(after) == 1 by {
      assert LeadingBlanks(after[1..]) == 0;
    }
    assert after[1..] == rest;
  }

  lemma SmileysAbbreviation()
    ensures ToGroup("smileys") == "smileys-and-emotion"
  {
    assert Lower("smileys") == "smileys";
    assert "smileys" in SHORT_GROUPS;
    SubstituteAmpersandsIdentity("smileys-and-emotion");
  }

  lemma SmileysLower()
    ensures Lower("Smileys & Emotion") == "smileys & emotion"
  {
  }

  lemma SmileysPieces()
    ensures "smileys & emotion" == "smileys" + (" & " + "emotion")
    ensures "smileys-and-emotion" == "smileys" + ("-and-" + "emotion")
  {
  }

  /** `" & "` before a word without ampersands becomes `-and-`. */
  lemma AmpersandBeforeWord(w: string)
    requires '&' !in w && (w == [] || w[0] != ' ')
    ensures SubstituteAmpersands(" & " + w) == "-and-" + w
  {
    SubstituteAmpersandsMatch(w);
    SubstituteAmpersandsIdentity(w);
  }

  lemma SmileysSpelledOut(x: string)
    requires x == "smileys & emotion"
    ensures SubstituteAmpersands(x) == "smileys-and-emotion"
  {
    SmileysPieces();
    WordAmpersandWord("smileys", "emotion");
  }

  /** `a & b`, for words without blanks and ampersands, becomes `a-and-b`. */
  lemma WordAmpersandWord(a: string, b: string)
    requires forall i :: 0 <= i < |a| ==> a[i] != ' ' && a[i] != '&'
    requires '&' !in b && (b == [] || b[0] != ' ')
    ensures SubstituteAmpersands(a + (" & " + b)) == a + ("-and-" + b)
  {
    SubstituteAmpersandsWord(a, " & " + b);
    AmpersandBeforeWord(b);
  }

  /** The abbreviation and the Unicode spelling name the same group. */
  lemma ToGroupExamples()
    ensures ToGroup("smileys") == "smileys-and-emotion"
    ensures ToGroup("Smileys & Emotion") == "smileys-and-emotion"
  {
    SmileysAbbreviation();
    SmileysUnicode();
  }

  lemma SmileysUnicode()
    ensures ToGroup("Smileys & Emotion") == "smileys-and-emotion"
  {
    SmileysLower();
    assert "smileys & emotion" !in SHORT_GROUPS;
    SmileysSpelledOut("smileys & emotion");
  }

  /** `is_subgroup_selector`: the selector contains `::`. */
  predicate IsSubgroupSelector(identifier: string) {
    Contains(identifier, "::")
  }

  /** `split_subgroup_selector`: lower-case, then split at every `::`,
      scanning left to right.  The pieces join back to the lower-cased
      identifier; no piece but the last runs into a `::` even with the
      following colon added (so `a:::b` splits as `a`, `:b`), and the last
      piece has no `::` (`Lacks` is `!Contains`, by `LacksContains`). */
  function SplitSubgroupSelector(identifier: string): (parts: seq<string>)
    ensures |parts| >= 1
    ensures Join(parts, "::") == Lower(identifier)
    ensures forall i :: 0 <= i < |parts| - 1 ==> Lacks(parts[i] + ":", "::")
    ensures Lacks(parts[|parts| - 1], "::")
  {
    JoinSplit(Lower(identifier), "::");
    SplitLeftmost(Lower(identifier), "::");
    assert "::"[..1] == ":";
    Split(Lower(identifier), "::")
  }

  // ---------------------------------------------------------------------------
  // Gender, hair and skin tokens

  /** The alternatives of `GENDER_HAIR_SKIN`: hair modifiers, skin modifiers,
      and the four gendered words. */
  const DIVERSITY_TOKENS: seq<string> := [
    "red-hair", "curly-hair", "white-hair", "bald",
    "darkest", "darker", "medium", "lighter", "lightest",
    "man", "men", "woman", "women"
  ]

  /** Token `t` occurs at position `i` of `name`, preceded by the start or a
      character other than `a`..`z`, and followed by the end or such a
      character. */
  predicate TokenAt(name: string, i: nat, t: string) {
    && i + |t| <= |name|
    && name[i..i + |t|] == t
    && (i == 0 || !IsAsciiLower(name[i - 1]))
    && (i + |t| == |name| || !IsAsciiLower(name[i + |t|]))
  }

  /** `GENDER_HAIR_SKIN.search(name) is not None`. */
  ghost predicate IsDiverse(name: string) {
    exists i: nat, k :: 0 <= k < |DIVERSITY_TOKENS| && TokenAt(name, i, DIVERSITY_TOKENS[k])
  }

  /** Some token among `tokens[k..]` occurs at position `i`. */
  function AnyTokenAt(name: string, i: nat, k: nat): (b: bool)
    requires k <= |DIVERSITY_TOKENS|
    ensures b <==> exists j :: k <= j < |DIVERSITY_TOKENS| && TokenAt(name, i, DIVERSITY_TOKENS[j])
    decreases |DIVERSITY_TOKENS| - k
  {
    if k == |DIVERSITY_TOKENS| then false
    else TokenAt(name, i, DIVERSITY_TOKENS[k]) || AnyTokenAt(name, i, k + 1)
  }

  /** The scanning search: some token occurs at a position `i` or later. */
  function DiverseFrom(name: string, i: nat): (b: bool)
    requires i <= |name|
    ensures b <==> exists j: nat, k ::
      (i <= j <= |name| && 0 <= k < |DIVERSITY_TOKENS| && TokenAt(name, j, DIVERSITY_TOKENS[k]))
    decreases |name| - i
  {
    if i == |name| then AnyTokenAt(name, i, 0)
    else AnyTokenAt(name, i, 0) || DiverseFrom(name, i + 1)
  }

  /** The executable search agrees with the pattern. */
  function IsDiverseName(name: string): (b: bool)
    ensures b <==> IsDiverse(name)
  {
    DiverseFrom(name, 0)
  }

  /** A gendered word at the start of a name counts. */
  lemma DiverseWoman()
    ensures IsDiverseName("woman-gesturing-ok")
  {
    assert TokenAt("woman-gesturing-ok", 0, DIVERSITY_TOKENS[11]);
  }

  /** A skin tone at the end of a name counts. */
  lemma DiverseDarker()
    ensures IsDiverseName("waving-hand-darker")
  {
    assert TokenAt("waving-hand-darker", 12, DIVERSITY_TOKENS[5]);
  }

  /** A token inside a longer word does not count. */
  lemma NotDiverseMandarin()
    ensures !IsDiverseName("mandarin")
  {
    forall i: nat, k | 0 <= k < |DIVERSITY_TOKENS|
      ensures !TokenAt("mandarin", i, DIVERSITY_TOKENS[k])
    {
      MandarinNoToken(i, DIVERSITY_TOKENS[k]);
    }
    NoTokenNotDiverse("mandarin");
  }

  /** A name with no token anywhere is not diverse. */
  lemma NoTokenNotDiverse(name: string)
    requires forall i: nat, k :: 0 <= k < |DIVERSITY_TOKENS| ==> !TokenAt(name, i, DIVERSITY_TOKENS[k])
    ensures !IsDiverseName(name)
  {
  }

  lemma MandarinNoToken(i: nat, t: string)
    requires t in DIVERSITY_TOKENS
    ensures !TokenAt("mandarin", i, t)
  {
    var n := "mandarin";
    if i == 0 {
      MandarinStart(t);
    } else if i <= |n| {
      assert IsAsciiLower(n[i - 1]);
    }
  }

  /** No token starts "mandarin" as a whole word: only `man` is a prefix,
      and a letter follows it. */
  lemma MandarinStart(t: string)
    requires t in DIVERSITY_TOKENS
    ensures !TokenAt("mandarin", 0, t)
  {
    var n := "mandarin";
    if |t| <= |n| && n[..|t|] == t {
      assert t[0] == 'm' && t[1] == 'a';
      assert t == "man";
      assert IsAsciiLower(n[3]);
    }
  }
}

=== FILE: pagegroup.dfy ===
/** Removing the page group object from a one-page PDF in qpdf's JSON form
    (`remove_page_group_object` in config/emo.py and emo.py,
    `_remove_page_group_object` in scripts/emo.py, and `degroup` in
    scripts/fix-page-groups.py).  The four functions walk the same chain of
    references — trailer, catalog, page tree, single page — perform the same
    lookups in the same order, and delete `/Group` from the page's own
    dictionary only.  Each lookup is Python's `in`, `len` or `[]` on
    whatever JSON value it meets, so a list or a string along the chain
    behaves as it does in Python.  They raise exceptions at the same points
    and of the same classes but one: where a typed value is not a
    dictionary, the `.get` of config/emo.py and scripts/emo.py raises
    `AttributeError` and the indexing of emo.py and degroup `TypeError`,
    and the model reports `TypeError` for all four.  The messages differ
    in wording, and degroup's `KeyError` carries `'<ref> cannot be
    resolved'` where the other three carry the reference itself.  The model records each exception's class
    and the values its message reports, in the form of the other three. */
module PageGroups {
  import opened Wrappers
  import opened Strings

  /** A JSON value as `json.load` returns it.  Numbers are integers; objects
      are maps, since the walk only looks keys up and deletes one. */
  datatype Json =
    | JNull
    | JBool(b: bool)
    | JNum(n: int)
    | JStr(s: string)
    | JArr(items: seq<Json>)
    | JObj(fields: map<string, Json>)

  /** Why a `ValueError` was raised. */
  datatype ValueProblem =
    | NotAnObject(ref: Json)
    | WrongType(ref: Json, expected: string)
    | TooManyPages(count: nat)

  /** The exceptions the walk can raise.  `TypeError` also stands for the
      `AttributeError` of calling `.get` on something that is not a
      dictionary. */
  datatype PyError =
    | KeyError(key: Json)
    | ValueError(problem: ValueProblem)
    | IndexError
    | TypeError

  // ---------------------------------------------------------------------------
  // Python's `in`, `len` and `[]` on JSON values

  /** The values that support `in` and `len`: dictionaries, lists and
      strings. */
  predicate IsContainer(v: Json) {
    v.JObj? || v.JArr? || v.JStr?
  }

  /** `key in v` for a string `key`: a dictionary tests its keys, a list its
      elements and a string its substrings; anything else raises
      `TypeError`. */
  function PyIn(key: string, v: Json): (r: Result<bool, PyError>)
    ensures r.Err? <==> !IsContainer(v)
    ensures r.Err? ==> r.error == TypeError
    ensures v.JObj? ==> r == Ok(key in v.fields)
    ensures v.JArr? ==> r == Ok(JStr(key) in v.items)
    ensures v.JStr? ==> r == Ok(Contains(v.s, key))
  {
    match v
    case JObj(fields) => Ok(key in fields)
    case JArr(items) => Ok(JStr(key) in items)
    case JStr(s) => Ok(Contains(s, key))
    case _ => Err(TypeError)
  }

  /** `len(v)`: the number of entries, elements or characters. */
  function Len(v: Json): (r: Result<nat, PyError>)
    ensures r.Ok? <==> IsContainer(v)
    ensures r.Err? ==> r.error == TypeError
    ensures v.JObj? ==> r == Ok(|v.fields|)
    ensures v.JArr? ==> r == Ok(|v.items|)
    ensures v.JStr? ==> r == Ok(|v.s|)
  {
    match v
    case JObj(fields) => Ok(|fields|)
    case JArr(items) => Ok(|items|)
    case JStr(s) => Ok(|s|)
    case _ => Err(TypeError)
  }

  /** The integer a list or string index stands for: an integer, or a
      boolean as 0 or 1. */
  function AsIndex(key: Json): Option<int> {
    match key
    case JNum(n) => Some(n)
    case JBool(b) => Some(if b then 1 else 0)
    case _ => None
  }

  /** The element an index picks out of `n`: `0..n-1` from the front,
      `-n..-1` from the back. */
  function Position(i: int, n: nat): (p: Option<nat>)
    ensures p.Some? <==> -(n as int) <= i < n
    ensures p.Some? ==> p.value < n && (p.value == i || p.value == n + i)
  {
    if 0 <= i < n then Some(i) else if -(n as int) <= i < 0 then Some(n + i) else None
  }

  /** `v[key]`.  A dictionary looks the key up (JSON keys are strings, so
      any other hashable key is missing, and a list or dictionary key is
      unhashable); a list or string takes an integer index, negative ones
      counting from the end, and a string gives a one-character string. */
  function GetItem(v: Json, key: Json): (r: Result<Json, PyError>)
    ensures r.Ok? ==> IsContainer(v)
    ensures r.Ok? && v.JObj? ==> key.JStr? && key.s in v.fields && r.value == v.fields[key.s]
    ensures v.JObj? && key.JStr? ==> (r.Ok? <==> key.s in v.fields)
    ensures v.JObj? && key.JStr? && key.s !in v.fields ==> r == Err(KeyError(key))
    ensures (v.JArr? || v.JStr?) && key.JStr? ==> r == Err(TypeError)
    ensures v.JArr? && AsIndex(key).Some? ==>
      var i := AsIndex(key).value;
      r == if 0 <= i < |v.items| then Ok(v.items[i])
           else if -|v.items| <= i < 0 then Ok(v.items[|v.items| + i])
           else Err(IndexError)
    ensures v.JStr? && AsIndex(key).Some? ==>
      var i := AsIndex(key).value;
      r == if 0 <= i < |v.s| then Ok(JStr([v.s[i]]))
           else if -|v.s| <= i < 0 then Ok(JStr([v.s[|v.s| + i]]))
           else Err(IndexError)
  {
    match v
    case JObj(fields) =>
      if key.JArr? || key.JObj? then Err(TypeError)
      else if key.JStr? && key.s in fields then Ok(fields[key.s])
      else Err(KeyError(key))
    case JArr(items) =>
      if AsIndex(key).None? then Err(TypeError)
      else if Position(AsIndex(key).value, |items|).None? then Err(IndexError)
      else Ok(items[Position(AsIndex(key).value, |items|).value])
    case JStr(s) =>
      if AsIndex(key).None? then Err(TypeError)
      else if Position(AsIndex(key).value, |s|).None? then Err(IndexError)
      else Ok(JStr([s[Position(AsIndex(key).value, |s|).value]]))
    case _ => Err(TypeError)
  }

  /** `d[name]` for a string `name`: present iff `d` is a dictionary
      holding `name`. */
  function Field(v: Json, name: string): (r: Result<Json, PyError>)
    ensures r.Ok? <==> v.JObj? && name in v.fields
    ensures r.Ok? ==> r.value == v.fields[name]
    ensures v.JObj? && name !in v.fields ==> r == Err(KeyError(JStr(name)))
    ensures !v.JObj? ==> r == Err(TypeError)
  {
    GetItem(v, JStr(name))
  }

  // ---------------------------------------------------------------------------
  // Looking things up

  /** `document['qpdf'][1]`, the table of objects by key.  A string under
      `qpdf` has a second character, and that is what the walk goes on
      with. */
  function Objects(doc: Json): (r: Result<Json, PyError>)
    ensures r.Ok? <==>
      (&& doc.JObj? && "qpdf" in doc.fields
       && ((doc.fields["qpdf"].JArr? && |doc.fields["qpdf"].items| >= 2)
           || (doc.fields["qpdf"].JStr? && |doc.fields["qpdf"].s| >= 2)))
    ensures r.Ok? && r.value.JObj? ==>
      doc.fields["qpdf"].JArr? && doc.fields["qpdf"].items[1] == r.value
  {
    var qpdf :- Field(doc, "qpdf");
    GetItem(qpdf, JNum(1))
  }

  /** The document with its table of objects replaced. */
  function WithObjects(doc: Json, objects: map<string, Json>): (r: Json)
    requires Objects(doc).Ok? && Objects(doc).value.JObj?
    ensures Objects(r) == Ok(JObj(objects))
    ensures r.JObj? && r.fields.Keys == doc.fields.Keys
    ensures forall k :: k in doc.fields && k != "qpdf" ==> r.fields[k] == doc.fields[k]
  {
    var items := doc.fields["qpdf"].items;
    JObj(doc.fields["qpdf" := JArr(items[1 := JObj(objects)])])
  }

  /** `str(n)` for an integer: its decimal digits, after a `-` when
      negative. */
  function Decimal(n: int): (r: string)
    ensures r != []
    ensures n < 0 <==> r[0] == '-'
  {
    if n < 0 then "-" + Digits(-n) else Digits(n)
  }

  function Digits(n: nat): (r: string)
    ensures r != [] && forall i :: 0 <= i < |r| ==> '0' <= r[i] <= '9'
    decreases n
  {
    if n < 10 then [('0' as int + n) as char]
    else Digits(n / 10) + [('0' as int + n % 10) as char]
  }

  /** The key `resolve` looks up: `trailer` itself, otherwise `f'obj:{ref}'`
      with the reference formatted by `str`.  A list or dictionary is
      formatted by `repr`, which is not modelled: such a reference names no
      key. */
  function RefKey(ref: Json): Option<string> {
    match ref
    case JStr(s) => Some(if s == "trailer" then s else "obj:" + s)
    case JNum(n) => Some("obj:" + Decimal(n))
    case JBool(b) => Some("obj:" + if b then "True" else "False")
    case JNull => Some("obj:None")
    case _ => None
  }

  /** `resolve(ref)`: `key not in objects` raises `KeyError(ref)`, and
      otherwise the entry is `objects[key]`. */
  function Resolve(objects: Json, ref: Json): (r: Result<(string, Json), PyError>)
    ensures r.Ok? <==> objects.JObj? && RefKey(ref).Some? && RefKey(ref).value in objects.fields
    ensures r.Ok? ==> r.value.0 == RefKey(ref).value && r.value.1 == objects.fields[r.value.0]
    ensures r.Err? ==> r.error == KeyError(ref) || r.error == TypeError
  {
    match RefKey(ref)
    case None => if IsContainer(objects) then Err(KeyError(ref)) else Err(TypeError)
    case Some(key) =>
      var found :- PyIn(key, objects);
      if !found then Err(KeyError(ref))
      else
        var o :- GetItem(objects, JStr(key));
        Ok((key, o))
  }

  /** `resolve_value(ref, type)`: the `value` of the referenced object,
      whose `/Type` must be `type` when one is given.  A value without
      `/Type` raises `KeyError('/Type')`: emo.py and fix-page-groups.py
      index it directly, and config/emo.py and scripts/emo.py, which test it
      with `.get`, index it while formatting their error message. */
  function ResolveValue(objects: Json, ref: Json, typ: Option<string>)
    : (r: Result<(string, Json), PyError>)
    ensures r.Ok? ==> objects.JObj? && RefKey(ref) == Some(r.value.0) && r.value.0 in objects.fields
    ensures r.Ok? ==> Field(objects.fields[r.value.0], "value") == Ok(r.value.1)
    ensures r.Ok? && typ.Some? ==> Field(r.value.1, "/Type") == Ok(JStr(typ.value))
  {
    var found :- Resolve(objects, ref);
    var (key, o) := found;
    var hasValue :- PyIn("value", o);
    if !hasValue then Err(ValueError(NotAnObject(ref)))
    else
      var v :- GetItem(o, JStr("value"));
      match typ
      case None => Ok((key, v))
      case Some(t) =>
        var vt :- GetItem(v, JStr("/Type"));
        if vt != JStr(t) then Err(ValueError(WrongType(ref, t))) else Ok((key, v))
  }

  /** The object under `key` with `/Group` deleted from its value. */
  function Ungrouped(o: Json): (r: Json)
    requires Field(o, "value").Ok? && o.fields["value"].JObj?
    ensures r.JObj? && r.fields.Keys == o.fields.Keys
    ensures forall k :: k in o.fields && k != "value" ==> r.fields[k] == o.fields[k]
    ensures r.fields["value"] == JObj(o.fields["value"].fields - {"/Group"})
  {
    JObj(o.fields["value" := JObj(o.fields["value"].fields - {"/Group"})])
  }

  // ---------------------------------------------------------------------------
  // The walk

  /** `degroup(document)`: whether the page had a group, and the document
      afterwards.  The page's `/Group` is deleted in place, so the returned
      document is the argument with that one entry gone. */
  function Degroup(doc: Json): (r: Result<(bool, Json), PyError>)
    ensures r.Ok? && !r.value.0 ==> r.value.1 == doc
  {
    var objects :- Objects(doc);
    var trailer :- ResolveValue(objects, JStr("trailer"), None);
    var rootRef :- Field(trailer.1, "/Root");
    var root :- ResolveValue(objects, rootRef, Some("/Catalog"));
    var pagesRef :- Field(root.1, "/Pages");
    var pagesObj :- ResolveValue(objects, pagesRef, Some("/Pages"));
    var pages :- Field(pagesObj.1, "/Kids");
    var count :- Len(pages);
    if count > 1 then Err(ValueError(TooManyPages(count)))
    else
      var pageRef :- GetItem(pages, JNum(0));
      var page :- ResolveValue(objects, pageRef, Some("/Page"));
      var (key, v) := page;
      if "/Group" !in v.fields then Ok((false, doc))
      else Ok((true, WithObjects(doc, objects.fields[key := Ungrouped(objects.fields[key])])))
  }

  // ---------------------------------------------------------------------------
  // The chain of references, stated declaratively

  /** The value of the object under `key`, when it has one. */
  predicate HasValue(objects: map<string, Json>, key: string) {
    key in objects && objects[key].JObj? && "value" in objects[key].fields
  }

  function ValueAt(objects: map<string, Json>, key: string): Json
    requires HasValue(objects, key)
  {
    objects[key].fields["value"]
  }

  /** The value under `from` is a dictionary whose `field` refers to `to`. */
  predicate Links(objects: map<string, Json>, from: string, field: string, to: string) {
    && HasValue(objects, from) && ValueAt(objects, from).JObj?
    && field in ValueAt(objects, from).fields
    && RefKey(ValueAt(objects, from).fields[field]) == Some(to)
  }

  /** The value under `key` is a dictionary of `/Type` `typ`. */
  predicate HasType(objects: map<string, Json>, key: string, typ: string) {
    && HasValue(objects, key) && ValueAt(objects, key).JObj?
    && "/Type" in ValueAt(objects, key).fields
    && ValueAt(objects, key).fields["/Type"] == JStr(typ)
  }

  /** The single kid of a `/Kids` value that `len` counts as one: the
      element of a one-element list, or a one-character string, which
      `pages[0]` returns whole. */
  function OnlyKid(kids: Json): Option<Json> {
    match kids
    case JArr(items) => if |items| == 1 then Some(items[0]) else None
    case JStr(s) => if |s| == 1 then Some(kids) else None
    case _ => None
  }

  /** `len(kids) <= 1` and `kids[0]` succeed together exactly when there is
      one kid, and `kids[0]` is that kid. */
  lemma OnlyKidItem(kids: Json)
    ensures OnlyKid(kids).Some? <==>
      Len(kids).Ok? && Len(kids).value <= 1 && GetItem(kids, JNum(0)).Ok?
    ensures OnlyKid(kids).Some? ==> GetItem(kids, JNum(0)) == Ok(OnlyKid(kids).value)
  {
    if kids.JStr? && |kids.s| == 1 {
      assert [kids.s[0]] == kids.s;
    }
  }

  /** The page tree under `pages` has exactly one kid, which refers to
      `page`. */
  predicate OneKid(objects: map<string, Json>, pages: string, page: string) {
    && HasValue(objects, pages) && ValueAt(objects, pages).JObj?
    && "/Kids" in ValueAt(objects, pages).fields
    && OnlyKid(ValueAt(objects, pages).fields["/Kids"]).Some?
    && RefKey(OnlyKid(ValueAt(objects, pages).fields["/Kids"]).value) == Some(page)
  }

  /** The trailer's `/Root` is a catalog, whose `/Pages` is a page tree with
      one kid, which is a page. */
  predicate SinglePage(objects: map<string, Json>, root: string, pages: string, page: string) {
    && HasValue(objects, "trailer")
    && Links(objects, "trailer", "/Root", root) && HasType(objects, root, "/Catalog")
    && Links(objects, root, "/Pages", pages) && HasType(objects, pages, "/Pages")
    && OneKid(objects, pages, page) && HasType(objects, page, "/Page")
  }

  /** The page's value has a `/Group` entry. */
  predicate Grouped(objects: map<string, Json>, page: string)
    requires HasType(objects, page, "/Page")
  {
    "/Group" in ValueAt(objects, page).fields
  }

  /** The document's object table is a dictionary. */
  predicate HasTable(doc: Json) {
    Objects(doc).Ok? && Objects(doc).value.JObj?
  }

  function Table(doc: Json): map<string, Json>
    requires HasTable(doc)
  {
    Objects(doc).value.fields
  }

  // ---------------------------------------------------------------------------
  // What the walk does

  /** Along a single-page chain, the walk reports whether the page was
      grouped and removes exactly the page's `/Group`: every other object,
      every other entry of the page and everything outside the object table
      stay as they were. */
  lemma DegroupChain(doc: Json, root: string, pages: string, page: string)
    requires HasTable(doc) && SinglePage(Table(doc), root, pages, page)
    ensures var objects := Table(doc);
      Degroup(doc) == Ok((
        Grouped(objects, page),
        if Grouped(objects, page) then WithObjects(doc, objects[page := Ungrouped(objects[page])])
        else doc))
  {
    var objects := Table(doc);
    OnlyKidItem(ValueAt(objects, pages).fields["/Kids"]);
  }

  /** The walk succeeds exactly on documents with a single-page chain. */
  lemma DegroupOk(doc: Json)
    ensures Degroup(doc).Ok? <==>
      HasTable(doc) && exists root, pages, page :: SinglePage(Table(doc), root, pages, page)
  {
    if Degroup(doc).Ok? {
      var root, pages, page := DegroupWitness(doc);
    }
    if HasTable(doc) && exists root, pages, page :: SinglePage(Table(doc), root, pages, page) {
      var root, pages, page :| SinglePage(Table(doc), root, pages, page);
      DegroupChain(doc, root, pages, page);
    }
  }

  /** The chain a successful walk followed. */
  lemma DegroupWitness(doc: Json) returns (root: string, pages: string, page: string)
    requires Degroup(doc).Ok?
    ensures HasTable(doc) && SinglePage(Table(doc), root, pages, page)
  {
    var objects := Objects(doc).value;
    var trailer := ResolveValue(objects, JStr("trailer"), None).value;
    Resolved(objects, JStr("trailer"), None);
    var rootRef := trailer.1.fields["/Root"];
    var rootObj := ResolveValue(objects, rootRef, Some("/Catalog")).value;
    Resolved(objects, rootRef, Some("/Catalog"));
    var pagesRef := rootObj.1.fields["/Pages"];
    var pagesObj := ResolveValue(objects, pagesRef, Some("/Pages")).value;
    Resolved(objects, pagesRef, Some("/Pages"));
    var kids := pagesObj.1.fields["/Kids"];
    var pageRef := GetItem(kids, JNum(0)).value;
    OnlyKidItem(kids);
    var pageObj := ResolveValue(objects, pageRef, Some("/Page")).value;
    Resolved(objects, pageRef, Some("/Page"));
    assert Table(doc) == objects.fields;
    root, pages, page := rootObj.0, pagesObj.0, pageObj.0;
  }

  /** What a successful `resolve_value` found, in the terms of the chain. */
  lemma Resolved(objects: Json, ref: Json, typ: Option<string>)
    requires ResolveValue(objects, ref, typ).Ok?
    ensures var (k, v) := ResolveValue(objects, ref, typ).value;
      && objects.JObj? && RefKey(ref) == Some(k)
      && HasValue(objects.fields, k) && ValueAt(objects.fields, k) == v
      && (typ.Some? ==> HasType(objects.fields, k, typ.value))
  {
  }

  /** Deleting `/Group` from the page keeps the chain: none of the entries
      the walk reads is `/Group`. */
  lemma UngroupedKeepsChain(objects: map<string, Json>, root: string, pages: string, page: string)
    requires SinglePage(objects, root, pages, page)
    ensures var after := objects[page := Ungrouped(objects[page])];
      SinglePage(after, root, pages, page) && !Grouped(after, page)
  {
    var after := objects[page := Ungrouped(objects[page])];
    assert HasValue(after, "trailer");
    assert Links(after, "trailer", "/Root", root);
    assert HasType(after, root, "/Catalog");
    assert Links(after, root, "/Pages", pages);
    assert HasType(after, pages, "/Pages");
    assert OneKid(after, pages, page);
  }

  /** Removing the page group is idempotent: on its own output the walk
      finds nothing to remove and leaves the document alone. */
  lemma DegroupIdempotent(doc: Json)
    requires Degroup(doc).Ok?
    ensures Degroup(Degroup(doc).value.1) == Ok((false, Degroup(doc).value.1))
  {
    DegroupOk(doc);
    var objects := Table(doc);
    var root, pages, page :| SinglePage(objects, root, pages, page);
    DegroupChain(doc, root, pages, page);
    if Grouped(objects, page) {
      var after := objects[page := Ungrouped(objects[page])];
      UngroupedKeepsChain(objects, root, pages, page);
      DegroupChain(WithObjects(doc, after), root, pages, page);
    } else {
      DegroupChain(doc, root, pages, page);
    }
  }

  // ---------------------------------------------------------------------------
  // The errors, in the order the walk meets them

  /** The chain from the trailer to a page tree whose value has `/Kids`. */
  predicate ReachesKids(objects: map<string, Json>, root: string, pages: string) {
    && HasValue(objects, "trailer")
    && Links(objects, "trailer", "/Root", root) && HasType(objects, root, "/Catalog")
    && Links(objects, root, "/Pages", pages) && HasType(objects, pages, "/Pages")
    && "/Kids" in ValueAt(objects, pages).fields
  }

  /** What `len(pages)` and `pages[0]` make of `/Kids`: a value without a
      length is a `TypeError`; more than one entry, element or character is
      the page-count `ValueError`; an empty list or string fails at
      `pages[0]` with `IndexError`; and a dictionary of at most one entry
      fails there with `KeyError(0)`, its keys being strings. */
  lemma DegroupKids(doc: Json, root: string, pages: string)
    requires HasTable(doc) && ReachesKids(Table(doc), root, pages)
    ensures var kids := ValueAt(Table(doc), pages).fields["/Kids"];
      && (!IsContainer(kids) ==> Degroup(doc) == Err(TypeError))
      && (IsContainer(kids) && Len(kids).value > 1 ==>
            Degroup(doc) == Err(ValueError(TooManyPages(Len(kids).value))))
      && (kids == JArr([]) || kids == JStr([]) ==> Degroup(doc) == Err(IndexError))
      && (kids.JObj? && |kids.fields| <= 1 ==> Degroup(doc) == Err(KeyError(JNum(0))))
  {
  }

  /** An object along the chain whose value lacks `/Type` raises
      `KeyError('/Type')`, not the `ValueError` of a wrong type. */
  lemma MissingTypeIsKeyError(objects: map<string, Json>, ref: Json, typ: string)
    requires RefKey(ref).Some? && HasValue(objects, RefKey(ref).value)
    requires ValueAt(objects, RefKey(ref).value).JObj?
    requires "/Type" !in ValueAt(objects, RefKey(ref).value).fields
    ensures ResolveValue(JObj(objects), ref, Some(typ)) == Err(KeyError(JStr("/Type")))
  {
  }

  /** Resolving against a table that is no dictionary: without a length it
      is a `TypeError`; a list or string is searched with `in`, and a hit
      fails when the list or string is indexed by the key. */
  lemma ResolveValueOfNonTable(objects: Json, ref: Json, typ: Option<string>)
    requires !objects.JObj? && RefKey(ref).Some?
    ensures !IsContainer(objects) ==> ResolveValue(objects, ref, typ) == Err(TypeError)
    ensures objects.JArr? ==>
      (ResolveValue(objects, ref, typ) ==
       if JStr(RefKey(ref).value) in objects.items then Err(TypeError) else Err(KeyError(ref)))
    ensures objects.JStr? ==>
      (ResolveValue(objects, ref, typ) ==
       if Contains(objects.s, RefKey(ref).value) then Err(TypeError) else Err(KeyError(ref)))
  {
  }

  /** Asking the type of a value that is no dictionary is a `TypeError`,
      the error of indexing it; the `.get` of two of the four variants
      would raise `AttributeError` there instead. */
  lemma ResolveValueOfNonDictionary(objects: map<string, Json>, ref: Json, t: string)
    requires RefKey(ref).Some? && RefKey(ref).value in objects
    requires Field(objects[RefKey(ref).value], "value").Ok?
    requires !Field(objects[RefKey(ref).value], "value").value.JObj?
    ensures ResolveValue(JObj(objects), ref, Some(t)) == Err(TypeError)
  {
  }

  /** A missing entry of the object table raises `KeyError` with the
      reference itself. */
  lemma ResolveValueErrors(objects: map<string, Json>, ref: Json, typ: Option<string>)
    requires RefKey(ref).None? || RefKey(ref).value !in objects
    ensures ResolveValue(JObj(objects), ref, typ) == Err(KeyError(ref))
  {
  }

  /** `'value' not in o` on the referenced object: a dictionary without the
      key, a list without the element `"value"` and a string without the
      substring `value` are the `ValueError` of a reference to no object; a
      list or string that passes the test fails when it is indexed by
      `'value'`, and a value without a length fails the test itself. */
  lemma ResolveValueNotAnObject(objects: map<string, Json>, ref: Json, typ: Option<string>)
    requires RefKey(ref).Some? && RefKey(ref).value in objects
    ensures var o := objects[RefKey(ref).value];
      var r := ResolveValue(JObj(objects), ref, typ);
      && (o.JObj? && "value" !in o.fields ==> r == Err(ValueError(NotAnObject(ref))))
      && (o.JArr? ==> r == if JStr("value") in o.items then Err(TypeError)
                           else Err(ValueError(NotAnObject(ref))))
      && (o.JStr? ==> r == if Contains(o.s, "value") then Err(TypeError)
                           else Err(ValueError(NotAnObject(ref))))
      && (!IsContainer(o) ==> r == Err(TypeError))
  {
  }

  // ---------------------------------------------------------------------------
  // The four call sites

  /** `remove_page_group_object(document)` (config/emo.py and emo.py) and
      `_remove_page_group_object(document)` (scripts/emo.py): the updated
      document, or `None` when the page has no group. */
  function RemovePageGroupObject(doc: Json): (r: Result<Option<Json>, PyError>)
    ensures r.Ok? <==> Degroup(doc).Ok?
    ensures r.Ok? ==> (r.value.None? <==> !Degroup(doc).value.0)
    ensures r.Ok? && r.value.Some? ==> r.value.value == Degroup(doc).value.1
    ensures r.Err? ==> r.error == Degroup(doc).error
  {
    var (changed, after) :- Degroup(doc);
    Ok(if changed then Some(after) else None)
  }

  /** A second removal on the updated document finds nothing to do. */
  lemma RemovePageGroupObjectTwice(doc: Json)
    requires RemovePageGroupObject(doc).Ok? && RemovePageGroupObject(doc).value.Some?
    ensures RemovePageGroupObject(RemovePageGroupObject(doc).value.value) == Ok(None)
  {
    DegroupIdempotent(doc);
  }
}

=== FILE: parser.dfy ===
/** `RegistryParser` of config/emo.py: a fold over the parsed lines of
    `emoji-test.txt` that keeps a cursor on the current group and subgroup,
    registers every declared emoji by codepoints and the component and
    fully-qualified ones also by name and in their subgroup, and finally
    points every other codepoint sequence at the registered emoji of the
    same name.

    What the fold computes is related to an independent description of the
    file: the cursor in effect after each line (`CursorGroup`,
    `CursorSubgroup`) and the registered emoji declared under each group and
    subgroup (`Collect`). */
module Parser {
  import opened Wrappers
  import opened Codepoints
  import opened Emojis
  import opened Dicts
  import Lines

  /** The one group that holds the component emoji. */
  const COMPONENT: string := "component"

  /** What `self.error` reports, at a line number. */
  datatype Problem =
    | NotADeclaration
    | SubgroupWithoutGroup
    | EmojiWithoutSubgroup
    | DuplicateCodepoints(emoji: Emoji)
    | DuplicateComponent(emoji: Emoji)
    | DuplicateFullyQualified(emoji: Emoji)
    | NonComponentInComponentGroup(emoji: Emoji)
    | ComponentOutsideComponentGroup(emoji: Emoji)
    | NoFullyQualified(emoji: Emoji)

  /** A `ValueError` raised by `self.error`, or one raised by `Emoji.of`,
      which carries no line number. */
  datatype Failure = AtLine(lineno: nat, problem: Problem) | BadEmoji(error: EmojiError)

  type Subgroups = Dict<string, seq<Emoji>>
  type Groups = Dict<string, Subgroups>

  /** The parser's fields: the name, codepoint and group tables, the names
      of the current group and subgroup, and the list collecting the
      current subgroup's emoji. */
  datatype State = State(
    names: map<string, Emoji>,
    codepoints: Dict<seq<Scalar>, Emoji>,
    groups: Groups,
    group: Option<string>,
    subgroup: Option<string>,
    buffer: seq<Emoji>)

  /** The emoji registered by name: component and fully-qualified ones. */
  predicate Registered(e: Emoji) {
    IsComponent(e) || IsFullyQualified(e)
  }

  /** The group table and every subgroup table are dictionaries. */
  predicate Nested(groups: Groups) {
    Valid(groups) && forall g :: g in groups.m ==> Valid(groups.m[g])
  }

  /** The tables are dictionaries, the current group is one of them, and
      a subgroup is only open inside a group. */
  predicate Cursor(st: State) {
    && Valid(st.codepoints) && Nested(st.groups)
    && (st.group.Some? ==> st.group.value in st.groups.m)
    && (st.subgroup.Some? ==> st.group.Some?)
  }

  /** A subgroup's emoji, or nothing when the group or subgroup is
      missing. */
  function Lookup(groups: Groups, g: string, s: string): seq<Emoji> {
    if g in groups.m && s in groups.m[g].m then groups.m[g].m[s] else []
  }

  function Length(es: seq<Emoji>): nat {
    |es|
  }

  function SubgroupsTotal(d: Subgroups): nat {
    if Valid(d) then Size(d, Length) else 0
  }

  /** The number of emoji over all subgroups of all groups. */
  function Total(groups: Groups): nat {
    if Valid(groups) then Size(groups, SubgroupsTotal) else 0
  }

  // ---------------------------------------------------------------------------
  // The state machine

  /** The fields as `__init__` sets them. */
  function Start(): (st: State)
    ensures Cursor(st)
  {
    State(map[], Empty(), Empty(), None, None, [])
  }

  /** `groups[g][s] = es` for a group `g` that exists. */
  function Store(groups: Groups, g: string, s: string, es: seq<Emoji>): (r: Groups)
    requires Nested(groups) && g in groups.m
    ensures Nested(r) && r.m.Keys == groups.m.Keys
  {
    Put(groups, g, Put(groups.m[g], s, es))
  }

  /** Storing replaces one subgroup's emoji and no others. */
  lemma StoreLookup(groups: Groups, g: string, s: string, es: seq<Emoji>)
    requires Nested(groups) && g in groups.m
    ensures forall h, t ::
      Lookup(Store(groups, g, s, es), h, t) == if h == g && t == s then es else Lookup(groups, h, t)
  {
  }

  /** `maybe_exit_subgroup`: the open subgroup's list is stored in its
      group, and no subgroup is open any more. */
  function Flush(st: State): (r: State)
    requires Cursor(st)
    ensures Cursor(r) && r.subgroup.None? && r.group == st.group
    ensures r.names == st.names && r.codepoints == st.codepoints
    ensures st.subgroup.None? ==> r == st
  {
    match st.subgroup
    case None => st
    case Some(s) =>
      var g := st.group.value;
      st.(groups := Store(st.groups, g, s, st.buffer), subgroup := None, buffer := [])
  }

  /** The group table as it would be if the open subgroup were stored. */
  function View(st: State): Groups {
    if Cursor(st) then Flush(st).groups else st.groups
  }

  /** Storing the open subgroup replaces the subgroup's stored list by the
      open one and leaves every other subgroup alone. */
  lemma ViewLookup(st: State)
    requires Cursor(st)
    ensures forall g, s ::
      Lookup(View(st), g, s)
      == if st.group == Some(g) && st.subgroup == Some(s) then st.buffer else Lookup(st.groups, g, s)
  {
    if st.subgroup.Some? {
      StoreLookup(st.groups, st.group.value, st.subgroup.value, st.buffer);
    }
  }

  /** `enter_group`: the group becomes current, and is added, without
      subgroups, if it is new. */
  function EnterGroup(st: State, name: string): (r: State)
    requires Cursor(st) && st.subgroup.None?
    ensures Cursor(r) && r.group == Some(name) && r.subgroup.None?
    ensures r.names == st.names && r.codepoints == st.codepoints
  {
    st.(group := Some(name), groups := SetDefault(st.groups, name, Empty()))
  }

  /** Entering a group stores no emoji. */
  lemma EnterGroupFrame(st: State, name: string)
    requires Cursor(st) && st.subgroup.None?
    ensures forall g, s :: Lookup(EnterGroup(st, name).groups, g, s) == Lookup(st.groups, g, s)
    ensures Total(EnterGroup(st, name).groups) == Total(st.groups)
  {
    SizePut(st.groups, name, Empty(), SubgroupsTotal);
  }

  /** `enter_subgroup`: without a current group this is an error;
      otherwise the subgroup becomes current and collects after the emoji
      it already holds. */
  function EnterSubgroup(lineno: nat, st: State, name: string): (r: Result<State, Failure>)
    requires Cursor(st) && st.subgroup.None?
    ensures r.Err? <==> st.group.None?
    ensures r.Err? ==> r.error == AtLine(lineno, SubgroupWithoutGroup)
    ensures r.Ok? ==> (Cursor(r.value) && r.value.subgroup == Some(name)
      && r.value.group == st.group && r.value.groups == st.groups
      && r.value.names == st.names && r.value.codepoints == st.codepoints
      && r.value.buffer == Lookup(st.groups, st.group.value, name))
  {
    match st.group
    case None => Err(AtLine(lineno, SubgroupWithoutGroup))
    case Some(g) =>
      var inner := st.groups.m[g];
      Ok(st.(subgroup := Some(name), buffer := if name in inner.m then inner.m[name] else []))
  }

  /** What `add_emoji` stores for an accepted emoji: it is recorded by
      codepoints, and when it is registered, also by name and in the open
      subgroup. */
  function Record(st: State, e: Emoji): (r: State)
    requires Cursor(st)
    ensures Cursor(r) && r.group == st.group && r.subgroup == st.subgroup && r.groups == st.groups
    ensures r.codepoints == Put(st.codepoints, e.codepoints, e)
  {
    var codepoints := Put(st.codepoints, e.codepoints, e);
    if Registered(e) then st.(codepoints := codepoints, names := st.names[e.name := e], buffer := st.buffer + [e])
    else st.(codepoints := codepoints)
  }

  /** `add_emoji`: an emoji is accepted when a subgroup is open, its
      codepoints are new, its name is new if it is registered by name, and
      it is a component exactly when the current group is `component`.  It
      is recorded by codepoints, and when it is registered by name, also by
      name and in the open subgroup. */
  function AddEmoji(lineno: nat, st: State, e: Emoji): (r: Result<State, Failure>)
    requires Cursor(st)
    ensures r.Ok? <==> (st.subgroup.Some? && e.codepoints !in st.codepoints.m
      && (Registered(e) ==> e.name !in st.names)
      && (st.group == Some(COMPONENT) <==> IsComponent(e)))
    ensures st.subgroup.None? ==> r == Err(AtLine(lineno, EmojiWithoutSubgroup))
    ensures st.subgroup.Some? && e.codepoints in st.codepoints.m ==>
      r == Err(AtLine(lineno, DuplicateCodepoints(e)))
    ensures r.Err? ==> r.error.AtLine? && r.error.lineno == lineno
    ensures r.Ok? ==> (Cursor(r.value)
      && r.value.codepoints == Put(st.codepoints, e.codepoints, e)
      && r.value.group == st.group && r.value.subgroup == st.subgroup
      && r.value.groups == st.groups
      && r.value.names == (if Registered(e) then st.names[e.name := e] else st.names)
      && r.value.buffer == (if Registered(e) then st.buffer + [e] else st.buffer))
  {
    if st.subgroup.None? then Err(AtLine(lineno, EmojiWithoutSubgroup))
    else if e.codepoints in st.codepoints.m then Err(AtLine(lineno, DuplicateCodepoints(e)))
    else if IsComponent(e) && e.name in st.names then Err(AtLine(lineno, DuplicateComponent(e)))
    else if IsFullyQualified(e) && e.name in st.names then Err(AtLine(lineno, DuplicateFullyQualified(e)))
    else if st.group == Some(COMPONENT) && !IsComponent(e) then
      Err(AtLine(lineno, NonComponentInComponentGroup(e)))
    else if IsComponent(e) && st.group != Some(COMPONENT) then
      Err(AtLine(lineno, ComponentOutsideComponentGroup(e)))
    else Ok(Record(st, e))
  }

  /** One parsed line in the loop of `run`: an emoji is added, and a group
      or subgroup header first stores the open subgroup. */
  function Step(lineno: nat, st: State, item: Lines.Item): (r: Result<State, Failure>)
    requires Cursor(st)
    ensures r.Ok? ==> Cursor(r.value)
  {
    match item
    case Blank => Ok(st)
    case EmojiItem(e) => AddEmoji(lineno, st, e)
    case GroupItem(g) => Ok(EnterGroup(Flush(st), g))
    case SubgroupItem(s) => EnterSubgroup(lineno, Flush(st), s)
  }

  /** The loop of `run` over the parsed lines, numbered from 1: it stops at
      the first line that fails to parse or that the state rejects. */
  function Scan(parsed: seq<Result<Lines.Item, Lines.LineError>>): (r: Result<State, Failure>)
    ensures r.Ok? ==> Cursor(r.value)
  {
    if parsed == [] then Ok(Start())
    else
      var n := |parsed|;
      var st :- Scan(parsed[..n - 1]);
      match parsed[n - 1]
      case Err(NotADeclaration) => Err(AtLine(n, NotADeclaration))
      case Err(MalformedEmoji(x)) => Err(BadEmoji(x))
      case Ok(item) => Step(n, st, item)
  }

  // ---------------------------------------------------------------------------
  // The file as a reference

  /** The parsed lines' items; a line that failed to parse counts as
      blank (the loop has stopped there anyway). */
  function ItemsOf(parsed: seq<Result<Lines.Item, Lines.LineError>>): (items: seq<Lines.Item>)
    ensures |items| == |parsed|
  {
    if parsed == [] then []
    else
      var last := parsed[|parsed| - 1];
      ItemsOf(parsed[..|parsed| - 1]) + [if last.Ok? then last.value else Lines.Blank]
  }

  /** The group named by the last group header. */
  function CursorGroup(items: seq<Lines.Item>): Option<string> {
    if items == [] then None
    else
      match items[|items| - 1]
      case GroupItem(g) => Some(g)
      case _ => CursorGroup(items[..|items| - 1])
  }

  /** The subgroup named by the last subgroup header, unless a group header
      came after it. */
  function CursorSubgroup(items: seq<Lines.Item>): Option<string> {
    if items == [] then None
    else
      match items[|items| - 1]
      case GroupItem(_) => None
      case SubgroupItem(s) => Some(s)
      case _ => CursorSubgroup(items[..|items| - 1])
  }

  /** The registered emoji declared, in file order, while group `g` and
      subgroup `s` were current. */
  function Collect(items: seq<Lines.Item>, g: string, s: string): seq<Emoji> {
    if items == [] then []
    else
      var init := items[..|items| - 1];
      var last := items[|items| - 1];
      Collect(init, g, s)
        + if last.EmojiItem? && Registered(last.emoji)
             && CursorGroup(init) == Some(g) && CursorSubgroup(init) == Some(s)
          then [last.emoji] else []
  }

  /** One more item, in terms of the items before it. */
  lemma Snoc(items: seq<Lines.Item>, x: Lines.Item)
    ensures CursorGroup(items + [x]) == if x.GroupItem? then Some(x.name) else CursorGroup(items)
    ensures CursorSubgroup(items + [x])
      == match x
         case GroupItem(_) => None
         case SubgroupItem(s) => Some(s)
         case _ => CursorSubgroup(items)
    ensures forall g, s ::
      Collect(items + [x], g, s)
      == Collect(items, g, s)
         + if x.EmojiItem? && Registered(x.emoji)
              && CursorGroup(items) == Some(g) && CursorSubgroup(items) == Some(s)
           then [x.emoji] else []
  {
    assert (items + [x])[..|items|] == items;
  }

  // ---------------------------------------------------------------------------
  // What the loop maintains

  /** Every name maps to a registered emoji of that name. */
  predicate NamesOk(names: map<string, Emoji>) {
    forall n :: n in names ==> names[n].name == n && Registered(names[n])
  }

  /** Every codepoint sequence maps to an emoji with those codepoints, and a
      registered one is also the emoji registered under its name. */
  predicate CodepointsOk(codepoints: Dict<seq<Scalar>, Emoji>, names: map<string, Emoji>) {
    forall k :: k in codepoints.m ==> (codepoints.m[k].codepoints == k
      && (Registered(codepoints.m[k]) ==>
            codepoints.m[k].name in names && names[codepoints.m[k].name] == codepoints.m[k]))
  }

  /** Every emoji of a subgroup of group `g` is the one registered under
      its name, and it is a component exactly when `g` is `component`. */
  predicate SubgroupOk(g: string, es: seq<Emoji>, names: map<string, Emoji>) {
    forall i :: 0 <= i < |es| ==>
      es[i].name in names && names[es[i].name] == es[i] && (g == COMPONENT <==> IsComponent(es[i]))
  }

  /** Every subgroup is as `SubgroupOk` says. */
  ghost predicate GroupsOk(groups: Groups, names: map<string, Emoji>) {
    forall g, s :: SubgroupOk(g, Lookup(groups, g, s), names)
  }

  /** The cursor is the one the items leave in effect. */
  ghost predicate CursorOk(items: seq<Lines.Item>, st: State) {
    st.group == CursorGroup(items) && st.subgroup == CursorSubgroup(items)
  }

  /** The name and codepoint tables agree with each other. */
  predicate TablesOk(st: State) {
    NamesOk(st.names) && CodepointsOk(st.codepoints, st.names)
  }

  /** With the open subgroup stored, the groups hold as many emoji as the
      name table, exactly the reference ones, and only registered ones. */
  ghost predicate ViewOk(items: seq<Lines.Item>, st: State) {
    && Total(View(st)) == |st.names|
    && (forall g, s :: Lookup(View(st), g, s) == Collect(items, g, s))
    && GroupsOk(View(st), st.names)
  }

  /** The state after the given items. */
  ghost predicate Inv(items: seq<Lines.Item>, st: State) {
    Cursor(st) && CursorOk(items, st) && TablesOk(st) && ViewOk(items, st)
  }

  /** Storing the open subgroup replaces the subgroup's stored list by the
      open one. */
  lemma ViewTotal(st: State)
    requires Cursor(st)
    ensures st.subgroup.None? ==> Total(View(st)) == Total(st.groups)
    ensures st.subgroup.Some? ==>
      Total(View(st)) + |Lookup(st.groups, st.group.value, st.subgroup.value)|
      == Total(st.groups) + |st.buffer|
  {
    if st.subgroup.Some? {
      var g := st.group.value;
      var s := st.subgroup.value;
      var inner := st.groups.m[g];
      SizePut(inner, s, st.buffer, Length);
      SizePut(st.groups, g, Put(inner, s, st.buffer), SubgroupsTotal);
    }
  }

  lemma StartInv()
    ensures Inv([], Start())
  {
  }

  lemma {:induction false} StepGroupInv(items: seq<Lines.Item>, st: State, name: string)
    requires Inv(items, st)
    ensures Inv(items + [Lines.GroupItem(name)], EnterGroup(Flush(st), name))
  {
    var r := EnterGroup(Flush(st), name);
    Snoc(items, Lines.GroupItem(name));
    ViewLookup(st);
    ViewTotal(st);
    EnterGroupFrame(Flush(st), name);
    assert View(r) == r.groups;
  }

  /** Opening a subgroup does not change the groups as they would be
      stored. */
  lemma SubgroupView(st: State, lineno: nat, name: string)
    requires Cursor(st) && EnterSubgroup(lineno, Flush(st), name).Ok?
    ensures var r := EnterSubgroup(lineno, Flush(st), name).value;
      && (forall g, s :: Lookup(View(r), g, s) == Lookup(View(st), g, s))
      && Total(View(r)) == Total(View(st))
  {
    var r := EnterSubgroup(lineno, Flush(st), name).value;
    ViewLookup(r);
    ViewTotal(r);
  }

  lemma {:induction false} StepSubgroupInv(items: seq<Lines.Item>, st: State, lineno: nat, name: string)
    requires Inv(items, st)
    requires EnterSubgroup(lineno, Flush(st), name).Ok?
    ensures Inv(items + [Lines.SubgroupItem(name)], EnterSubgroup(lineno, Flush(st), name).value)
  {
    Snoc(items, Lines.SubgroupItem(name));
    SubgroupView(st, lineno, name);
  }

  /** Recording a registered emoji appends it to the stored view of the
      open subgroup. */
  lemma EmojiLookup(st: State, e: Emoji)
    requires Cursor(st) && st.subgroup.Some? && Registered(e)
    ensures forall g, s ::
      Lookup(View(Record(st, e)), g, s)
      == Lookup(View(st), g, s) + if st.group == Some(g) && st.subgroup == Some(s) then [e] else []
  {
    ViewLookup(st);
    ViewLookup(Record(st, e));
  }

  /** `EmojiLookup` with the open group and subgroup named. */
  lemma EmojiLookupAt(st: State, e: Emoji, group: string, subgroup: string)
    requires Cursor(st) && st.group == Some(group) && st.subgroup == Some(subgroup) && Registered(e)
    ensures forall g, s ::
      Lookup(View(Record(st, e)), g, s)
      == Lookup(View(st), g, s) + if g == group && s == subgroup then [e] else []
  {
    EmojiLookup(st, e);
  }

  /** Recording a registered emoji adds one to the total. */
  lemma EmojiTotal(st: State, e: Emoji)
    requires Cursor(st) && st.subgroup.Some? && Registered(e)
    ensures Total(View(Record(st, e))) == Total(View(st)) + 1
  {
    ViewTotal(Record(st, e));
    ViewTotal(st);
  }

  /** Recording a registered emoji at the cursor follows the reference. */
  lemma {:induction false} EmojiCollect(items: seq<Lines.Item>, st: State, e: Emoji)
    requires Cursor(st) && st.subgroup.Some? && Registered(e) && CursorOk(items, st)
    requires forall g, s :: Lookup(View(st), g, s) == Collect(items, g, s)
    ensures forall g, s :: Lookup(View(Record(st, e)), g, s) == Collect(items + [Lines.EmojiItem(e)], g, s)
  {
    Snoc(items, Lines.EmojiItem(e));
    EmojiLookup(st, e);
  }

  /** Recording a new emoji by codepoints, and by name when it is
      registered, keeps the codepoint table consistent with the names. */
  lemma CodepointsOkAdd(codepoints: Dict<seq<Scalar>, Emoji>, names: map<string, Emoji>, e: Emoji)
    requires Valid(codepoints) && CodepointsOk(codepoints, names)
    requires Registered(e) ==> e.name !in names
    ensures CodepointsOk(Put(codepoints, e.codepoints, e),
                         if Registered(e) then names[e.name := e] else names)
  {
  }

  /** Registering a new name keeps a subgroup registered. */
  lemma SubgroupOkAdd(g: string, es: seq<Emoji>, names: map<string, Emoji>, e: Emoji)
    requires SubgroupOk(g, es, names) && e.name !in names
    ensures SubgroupOk(g, es, names[e.name := e])
  {
  }

  /** Appending the newly registered emoji to a subgroup of the right kind
      keeps it registered. */
  lemma SubgroupOkAppend(g: string, es: seq<Emoji>, names: map<string, Emoji>, e: Emoji)
    requires SubgroupOk(g, es, names) && e.name !in names
    requires g == COMPONENT <==> IsComponent(e)
    ensures SubgroupOk(g, es + [e], names[e.name := e])
  {
    SubgroupOkAdd(g, es, names, e);
  }

  /** Appending a newly registered emoji to a subgroup of the right kind
      keeps every subgroup's emoji registered under their names. */
  lemma GroupsOkAppend(groups: Groups, groups': Groups, names: map<string, Emoji>,
                       e: Emoji, group: string, subgroup: string)
    requires GroupsOk(groups, names) && e.name !in names
    requires group == COMPONENT <==> IsComponent(e)
    requires forall g, s ::
      Lookup(groups', g, s) == Lookup(groups, g, s) + if g == group && s == subgroup then [e] else []
    ensures GroupsOk(groups', names[e.name := e])
  {
    forall g, s ensures SubgroupOk(g, Lookup(groups', g, s), names[e.name := e]) {
      if g == group && s == subgroup {
        SubgroupOkAppend(g, Lookup(groups, g, s), names, e);
      } else {
        SubgroupOkAdd(g, Lookup(groups, g, s), names, e);
      }
    }
  }

  /** Recording a newly registered emoji of the right kind keeps the
      stored view registered under its names. */
  lemma EmojiGroupsOk(st: State, e: Emoji)
    requires Cursor(st) && st.subgroup.Some? && Registered(e)
    requires GroupsOk(View(st), st.names) && e.name !in st.names
    requires st.group == Some(COMPONENT) <==> IsComponent(e)
    ensures GroupsOk(View(Record(st, e)), st.names[e.name := e])
  {
    var group, subgroup := st.group.value, st.subgroup.value;
    EmojiLookupAt(st, e, group, subgroup);
    GroupsOkAppend(View(st), View(Record(st, e)), st.names, e, group, subgroup);
  }

  /** A registered emoji extends the reference subgroup at the cursor, and
      the stored view with it. */
  lemma {:induction false} RegisteredViewOk(items: seq<Lines.Item>, st: State, e: Emoji)
    requires Cursor(st) && st.subgroup.Some? && Registered(e) && e.name !in st.names
    requires st.group == Some(COMPONENT) <==> IsComponent(e)
    requires CursorOk(items, st) && ViewOk(items, st)
    ensures ViewOk(items + [Lines.EmojiItem(e)], Record(st, e))
  {
    var r := Record(st, e);
    RecordNames(st, e);
    EmojiTotal(st, e);
    EmojiCollect(items, st, e);
    EmojiGroupsOk(st, e);
    ViewOkIntro(items + [Lines.EmojiItem(e)], r);
  }

  /** Recording a registered emoji with a new name adds that name. */
  lemma RecordNames(st: State, e: Emoji)
    requires Cursor(st) && Registered(e) && e.name !in st.names
    ensures Record(st, e).names == st.names[e.name := e]
    ensures |Record(st, e).names| == |st.names| + 1
  {
  }

  lemma ViewOkIntro(items: seq<Lines.Item>, st: State)
    requires Total(View(st)) == |st.names|
    requires forall g, s :: Lookup(View(st), g, s) == Collect(items, g, s)
    requires GroupsOk(View(st), st.names)
    ensures ViewOk(items, st)
  {
  }

  /** An emoji recorded by codepoints only leaves the view alone, and the
      reference ignores it. */
  lemma {:induction false} UnregisteredViewOk(items: seq<Lines.Item>, st: State, e: Emoji)
    requires Cursor(st) && ViewOk(items, st) && !Registered(e)
    ensures ViewOk(items + [Lines.EmojiItem(e)], Record(st, e))
  {
    Snoc(items, Lines.EmojiItem(e));
    assert View(Record(st, e)) == View(st);
  }

  /** Recording a new emoji, whose name is new when it is registered,
      keeps the tables consistent. */
  lemma EmojiTablesOk(st: State, e: Emoji)
    requires Cursor(st) && TablesOk(st) && (Registered(e) ==> e.name !in st.names)
    ensures TablesOk(Record(st, e))
  {
    CodepointsOkAdd(st.codepoints, st.names, e);
  }

  lemma {:induction false} StepEmojiInv(items: seq<Lines.Item>, st: State, lineno: nat, e: Emoji)
    requires Inv(items, st)
    requires AddEmoji(lineno, st, e).Ok?
    ensures Inv(items + [Lines.EmojiItem(e)], AddEmoji(lineno, st, e).value)
  {
    assert AddEmoji(lineno, st, e).value == Record(st, e);
    Snoc(items, Lines.EmojiItem(e));
    EmojiTablesOk(st, e);
    if Registered(e) {
      RegisteredViewOk(items, st, e);
    } else {
      UnregisteredViewOk(items, st, e);
    }
  }

  /** One more item keeps the invariant. */
  lemma StepInv(items: seq<Lines.Item>, st: State, lineno: nat, item: Lines.Item, r: State)
    requires Inv(items, st) && Step(lineno, st, item) == Ok(r)
    ensures Inv(items + [item], r)
  {
    match item
    case Blank => Snoc(items, item);
    case EmojiItem(e) => StepEmojiInv(items, st, lineno, e);
    case GroupItem(g) => StepGroupInv(items, st, g);
    case SubgroupItem(s) => StepSubgroupInv(items, st, lineno, s);
  }

  /** The last parsed line, in terms of the ones before it. */
  lemma ItemsOfSnoc(parsed: seq<Result<Lines.Item, Lines.LineError>>)
    requires parsed != [] && parsed[|parsed| - 1].Ok?
    ensures ItemsOf(parsed) == ItemsOf(parsed[..|parsed| - 1]) + [parsed[|parsed| - 1].value]
  {
  }

  /** A scan that succeeds past its last line succeeded up to it and
      stepped over that line's item. */
  lemma ScanLast(parsed: seq<Result<Lines.Item, Lines.LineError>>)
    requires parsed != [] && Scan(parsed).Ok?
    ensures Scan(parsed[..|parsed| - 1]).Ok? && parsed[|parsed| - 1].Ok?
    ensures Step(|parsed|, Scan(parsed[..|parsed| - 1]).value, parsed[|parsed| - 1].value) == Ok(Scan(parsed).value)
  {
  }

  /** A scan that succeeds read only well-formed lines, and leaves the
      state the invariant describes for their items. */
  lemma {:induction false} ScanInv(parsed: seq<Result<Lines.Item, Lines.LineError>>)
    requires Scan(parsed).Ok?
    ensures forall i :: 0 <= i < |parsed| ==> parsed[i].Ok?
    ensures Inv(ItemsOf(parsed), Scan(parsed).value)
  {
    if parsed == [] {
      StartInv();
    } else {
      ScanLast(parsed);
      ScanInv(parsed[..|parsed| - 1]);
      ScanInvStep(parsed);
    }
  }

  /** Step of `ScanInv`: the invariant for all lines but the last extends
      over the last. */
  lemma ScanInvStep(parsed: seq<Result<Lines.Item, Lines.LineError>>)
    requires parsed != [] && Scan(parsed).Ok?
    requires var init := parsed[..|parsed| - 1];
      && Scan(init).Ok? && parsed[|parsed| - 1].Ok?
      && (forall i :: 0 <= i < |init| ==> init[i].Ok?)
      && Inv(ItemsOf(init), Scan(init).value)
    ensures forall i :: 0 <= i < |parsed| ==> parsed[i].Ok?
    ensures Inv(ItemsOf(parsed), Scan(parsed).value)
  {
    var n := |parsed|;
    var init := parsed[..n - 1];
    ScanLast(parsed);
    ItemsOfSnoc(parsed);
    forall i | 0 <= i < n
      ensures parsed[i].Ok?
    {
      if i < n - 1 {
        assert parsed[i] == init[i];
      }
    }
    StepInv(ItemsOf(init), Scan(init).value, n, parsed[n - 1].value, Scan(parsed).value);
  }

  /** A scan that failed before its last line fails the same way. */
  lemma ScanFailed(parsed: seq<Result<Lines.Item, Lines.LineError>>)
    requires parsed != [] && Scan(parsed[..|parsed| - 1]).Err?
    ensures Scan(parsed) == Scan(parsed[..|parsed| - 1])
  {
  }

  /** The loop stops at the first line that fails: once a prefix fails,
      the whole scan fails the same way. */
  lemma {:induction false} ScanStops(parsed: seq<Result<Lines.Item, Lines.LineError>>, i: nat)
    requires i <= |parsed| && Scan(parsed[..i]).Err?
    ensures Scan(parsed) == Scan(parsed[..i])
    decreases |parsed| - i
  {
    if i < |parsed| {
      var init := parsed[..|parsed| - 1];
      assert init[..i] == parsed[..i];
      ScanStops(init, i);
      ScanFailed(parsed);
    } else {
      assert parsed[..i] == parsed;
    }
  }

  // ---------------------------------------------------------------------------
  // Pointing every codepoint sequence at a registered emoji

  /** An emoji that is registered itself, or whose name is. */
  predicate Resolves(e: Emoji, names: map<string, Emoji>) {
    Registered(e) || e.name in names
  }

  /** The registered emoji standing for `e`. */
  function Resolve(e: Emoji, names: map<string, Emoji>): Emoji
    requires Resolves(e, names)
  {
    if Registered(e) then e else names[e.name]
  }

  /** The loop over the codepoint table at the end of `run`, in key order:
      an emoji that is neither a component nor fully qualified is replaced
      by the one registered under its name, and an emoji without one is an
      error, reported at the last line number. */
  function Repoint(keys: seq<seq<Scalar>>, table: map<seq<Scalar>, Emoji>, names: map<string, Emoji>,
                   lineno: nat): (r: Result<map<seq<Scalar>, Emoji>, Failure>)
    requires Listed(keys) <= table.Keys && Distinct(keys)
    ensures r.Ok? <==> forall i :: 0 <= i < |keys| ==> Resolves(table[keys[i]], names)
    ensures r.Ok? ==> r.value.Keys == table.Keys
    ensures r.Ok? ==>
      forall i :: 0 <= i < |keys| ==> r.value[keys[i]] == Resolve(table[keys[i]], names)
    ensures r.Ok? ==> forall k :: k in table && k !in keys ==> r.value[k] == table[k]
    ensures r.Err? ==>
      exists i ::
        && 0 <= i < |keys| && r.error == AtLine(lineno, NoFullyQualified(table[keys[i]]))
        && !Resolves(table[keys[i]], names)
        && forall j :: 0 <= j < i ==> Resolves(table[keys[j]], names)
  {
    if keys == [] then Ok(table)
    else
      var n := |keys|;
      var k := keys[n - 1];
      assert keys == keys[..n - 1] + [k];
      var t :- Repoint(keys[..n - 1], table, names, lineno);
      var e := t[k];
      if Registered(e) then Ok(t)
      else if e.name !in names then Err(AtLine(lineno, NoFullyQualified(e)))
      else Ok(t[k := names[e.name]])
  }

  // ---------------------------------------------------------------------------
  // The whole run

  /** What `run` returns: the name, codepoint and group tables. */
  datatype Tables = Tables(names: map<string, Emoji>, codepoints: Dict<seq<Scalar>, Emoji>, groups: Groups)

  /** `run` on the parsed lines: the loop, storing the last subgroup, and
      pointing the codepoint table at registered emoji; the last line
      number is the number of lines. */
  function RunParsed(parsed: seq<Result<Lines.Item, Lines.LineError>>): (r: Result<Tables, Failure>)
  {
    var st :- Scan(parsed);
    var fin := Flush(st);
    var cps :- Repoint(fin.codepoints.keys, fin.codepoints.m, fin.names, |parsed|);
    Ok(Tables(fin.names, Dict(fin.codepoints.keys, cps), fin.groups))
  }

  /** `run` on the text of a file: every line loses its last character and
      is parsed. */
  function Run(text: string): Result<Tables, Failure> {
    var lines := Lines.ReadLines(text);
    RunParsed(seq(|lines|, i requires 0 <= i < |lines| => Lines.ParseLine(Lines.Chop(lines[i]))))
  }

  /** Every entry of the codepoint table is the emoji registered under its
      name. */
  predicate Points(table: map<seq<Scalar>, Emoji>, names: map<string, Emoji>) {
    forall k :: k in table ==> table[k].name in names && names[table[k].name] == table[k]
  }

  /** Once repointed, a consistent codepoint table points only at
      registered emoji. */
  lemma RepointPoints(keys: seq<seq<Scalar>>, table: map<seq<Scalar>, Emoji>, names: map<string, Emoji>,
                      lineno: nat)
    requires Listed(keys) == table.Keys && Distinct(keys)
    requires NamesOk(names) && CodepointsOk(Dict(keys, table), names)
    requires Repoint(keys, table, names, lineno).Ok?
    ensures Points(Repoint(keys, table, names, lineno).value, names)
  {
    var r := Repoint(keys, table, names, lineno).value;
    forall k | k in r
      ensures r[k].name in names && names[r[k].name] == r[k]
    {
      ListedIn(keys, k);
      var i :| 0 <= i < |keys| && keys[i] == k;
    }
  }

  /** What a successful `run` returns: every line was well formed; the
      group table holds exactly the registered emoji of each group and
      subgroup in file order, as many as the name table holds; every group
      but `component` holds no component emoji and `component` holds only
      those; every name maps to a registered emoji of that name; and every
      codepoint sequence maps to a registered emoji, the one of its
      name. */
  lemma {:induction false} RunSound(parsed: seq<Result<Lines.Item, Lines.LineError>>)
    requires RunParsed(parsed).Ok?
    ensures forall i :: 0 <= i < |parsed| ==> parsed[i].Ok?
    ensures var t := RunParsed(parsed).value;
      && (forall g, s :: Lookup(t.groups, g, s) == Collect(ItemsOf(parsed), g, s))
      && Nested(t.groups) && Total(t.groups) == |t.names|
      && GroupsOk(t.groups, t.names)
      && NamesOk(t.names)
      && Valid(t.codepoints) && Points(t.codepoints.m, t.names)
  {
    ScanInv(parsed);
    var st := Scan(parsed).value;
    var fin := Flush(st);
    RepointPoints(fin.codepoints.keys, fin.codepoints.m, fin.names, |parsed|);
  }
}

=== FILE: prototype_emo.dfy ===
/** The first prototype of the emoji value (emo.py at the repository's
    root): an emoji is a key and the string it displays as, the key's word
    separators are collapsed into single hyphens, and file names and LaTeX
    definitions are derived from the key and the codepoints. */
module Prototype {
  import opened Wrappers
  import opened Strings
  import opened Codepoints
  import Names
  import Emojis
  import ScriptsEmo

  /** `Emoji(key, value)`: the value is the emoji itself as a string. */
  datatype Emoji = Emoji(key: string, value: string)

  // ---------------------------------------------------------------------------
  // `Emoji.of` and `dashed`

  /** `key` contains a hyphen. */
  predicate Dashed(e: Emoji) {
    '-' in e.key
  }

  /** `Emoji.of`: each run of spaces, underscores and hyphens in the key
      becomes one hyphen; nothing else about the key changes (no
      lower-casing, no punctuation removed) and the value is kept. */
  function Of(key: string, value: string): (r: Emoji)
    ensures r.value == value
    ensures Names.Collapsed(r.key)
    ensures Names.WordChars(r.key) == Names.WordChars(key)
    ensures forall c :: c in r.key ==> c in key || c == '-'
    ensures Dashed(r) <==> Names.HasSeparator(key)
  {
    Names.CollapseChars(key);
    Names.CollapseHyphen(key);
    Emoji(Names.CollapseSeparators(key), value)
  }

  /** Normalising a normalised key changes nothing, and a key without
      separator runs, spaces or underscores is kept as given, case and all. */
  lemma OfIdempotent(key: string, value: string)
    ensures Of(Of(key, value).key, value) == Of(key, value)
    ensures Names.Collapsed(key) ==> Of(key, value).key == key
  {
    Names.CollapseIdempotent(key);
    if Names.Collapsed(key) {
      Names.CollapseFixpoint(key);
    }
  }

  /** What `Of` does to the key, piece by piece: a word without separators
      is kept in front, and a whole run of separators in front of a word
      becomes one hyphen. */
  lemma OfPieces(w: string, run: string, t: string, value: string)
    requires forall i :: 0 <= i < |w| ==> !Names.IsSeparator(w[i])
    requires run != [] && forall i :: 0 <= i < |run| ==> Names.IsSeparator(run[i])
    requires t == [] || !Names.IsSeparator(t[0])
    ensures Of(w + t, value).key == w + Of(t, value).key
    ensures Of(run + t, value).key == "-" + Of(t, value).key
  {
    Names.CollapseWord(w, t);
    Names.CollapseRun(run, t);
  }

  // ---------------------------------------------------------------------------
  // `codepoints`

  /** `[ord(c) for c in value]`: one codepoint per character, and the
      characters with those codepoints spell the value again. */
  function CodepointsOf(e: Emoji): (r: seq<Scalar>)
    ensures |r| == |e.value|
    ensures forall i :: 0 <= i < |r| ==> r[i] == e.value[i] as int
    ensures Display(r) == e.value
  {
    var r: seq<Scalar> := seq(|e.value|, i requires 0 <= i < |e.value| => e.value[i] as int);
    assert Display(r) == e.value;
    r
  }

  /** The codepoints of a displayed codepoint sequence are that sequence. */
  lemma CodepointsOfDisplay(key: string, cps: seq<Scalar>)
    ensures CodepointsOf(Emoji(key, Display(cps))) == cps
  {
  }

  /** Emoji that display the same have the same codepoints, and the other
      way round. */
  lemma CodepointsDetermineValue(e1: Emoji, e2: Emoji)
    ensures CodepointsOf(e1) == CodepointsOf(e2) <==> e1.value == e2.value
  {
  }

  // ---------------------------------------------------------------------------
  // File names

  /** `filename(extension)`: `KEY.EXTENSION`. */
  function Filename(e: Emoji, extension: string): (r: string)
    ensures |r| == |e.key| + 1 + |extension|
    ensures r[..|e.key|] == e.key && r[|e.key|] == '.' && r[|e.key| + 1..] == extension
  {
    e.key + "." + extension
  }

  /** With the extension fixed, the file name determines the key. */
  lemma FilenameInjective(e1: Emoji, e2: Emoji, extension: string)
    requires Filename(e1, extension) == Filename(e2, extension)
    ensures e1.key == e2.key
  {
  }

  /** The `json` property. */
  function Json(e: Emoji): (r: string)
    ensures r == Filename(e, "json") && EndsWith(r, ".json")
  {
    var r := Filename(e, "json");
    assert r[|r| - 5..] == ".json";
    r
  }

  /** The `pdf` property. */
  function Pdf(e: Emoji): (r: string)
    ensures r == Filename(e, "pdf") && EndsWith(r, ".pdf")
  {
    var r := Filename(e, "pdf");
    assert r[|r| - 4..] == ".pdf";
    r
  }

  /** The JSON and PDF files of an emoji differ, and so do those of two
      emoji with different keys. */
  lemma JsonPdfDistinct(e1: Emoji, e2: Emoji)
    ensures Json(e1) != Pdf(e2)
    ensures Json(e1) == Json(e2) ==> e1.key == e2.key
    ensures Pdf(e1) == Pdf(e2) ==> e1.key == e2.key
  {
    if Json(e1) == Json(e2) {
      FilenameInjective(e1, e2, "json");
    }
    if Pdf(e1) == Pdf(e2) {
      FilenameInjective(e1, e2, "pdf");
    }
  }

  // ---------------------------------------------------------------------------
  // `svg`

  /** `svg` as written: `emoji_u`, every codepoint in at least four
      lower-case digits with nothing between them, and `.svg`. */
  function Svg(e: Emoji): (r: string)
    ensures StartsWith(r, "emoji_u") && EndsWith(r, ".svg")
  {
    var r := "emoji_u" + Join(Emojis.LowerHexWords(CodepointsOf(e)), "") + ".svg";
    assert r[..7] == "emoji_u" && r[|r| - 4..] == ".svg";
    r
  }

  /** The file name spells the first character in front of the file name
      of the rest, and no character gives `emoji_u.svg`: so, character by
      character, the middle is every codepoint's spelling in order, with
      nothing between them. */
  lemma SvgCons(key: string, c: char, rest: string)
    ensures Svg(Emoji(key, [c] + rest)) == "emoji_u" + Hex4(c as nat, false) + Svg(Emoji(key, rest))[7..]
    ensures Svg(Emoji(key, "")) == "emoji_u.svg"
  {
    var h := Hex4(c as nat, false);
    var m := Join(Emojis.LowerHexWords(CodepointsOf(Emoji(key, rest))), "");
    SvgOfCons(key, c, rest);
    SvgMiddle(Emoji(key, rest), m);
    Regroup("emoji_u", h, m);
    Regroup("emoji_u" + h, m, ".svg");
    SvgEmpty(key);
  }

  /** No character gives `emoji_u.svg`. */
  lemma SvgEmpty(key: string)
    ensures Svg(Emoji(key, "")) == "emoji_u.svg"
  {
    var words := Emojis.LowerHexWords(CodepointsOf(Emoji(key, "")));
    assert words == [];
    SvgMiddle(Emoji(key, ""), "");
  }

  /** `SvgCons` with the middle of the rest spelled out. */
  lemma SvgOfCons(key: string, c: char, rest: string)
    ensures Svg(Emoji(key, [c] + rest))
      == "emoji_u" + (Hex4(c as nat, false) + Join(Emojis.LowerHexWords(CodepointsOf(Emoji(key, rest))), "")) + ".svg"
  {
    var cps := CodepointsOf(Emoji(key, rest));
    CodepointsOfCons(key, c, rest);
    HexWordsCons(c as int, cps);
    SvgMiddle(Emoji(key, [c] + rest), Hex4(c as nat, false) + Join(Emojis.LowerHexWords(cps), ""));
  }

  /** The file name is `emoji_u`, the middle `m` and `.svg`. */
  lemma SvgMiddle(e: Emoji, m: string)
    requires m == Join(Emojis.LowerHexWords(CodepointsOf(e)), "")
    ensures Svg(e) == "emoji_u" + m + ".svg" && Svg(e)[7..] == m + ".svg"
  {
  }

  /** The codepoints of a first character and the rest. */
  lemma CodepointsOfCons(key: string, c: char, rest: string)
    ensures CodepointsOf(Emoji(key, [c] + rest)) == [c as int] + CodepointsOf(Emoji(key, rest))
  {
  }

  /** The spellings of a first codepoint and the rest, run together. */
  lemma HexWordsCons(a: nat, cps: seq<Scalar>)
    requires IsScalar(a)
    ensures Join(Emojis.LowerHexWords([a] + cps), "") == Hex4(a, false) + Join(Emojis.LowerHexWords(cps), "")
  {
    var tail := Emojis.LowerHexWords(cps);
    assert Emojis.LowerHexWords([a] + cps) == [Hex4(a, false)] + tail;
    JoinRunTogether(Hex4(a, false), tail);
  }

  /** Run together, a first word stays in front of the rest. */
  lemma JoinRunTogether(w: string, ws: seq<string>)
    ensures Join([w] + ws, "") == w + Join(ws, "")
  {
    if ws != [] {
      assert ([w] + ws)[1..] == ws;
      assert w + "" == w;
    }
  }

  /** The file name of two codepoints is their two spellings run together. */
  lemma SvgOfPair(e: Emoji, a: nat, b: nat)
    requires CodepointsOf(e) == [a, b]
    ensures Svg(e) == "emoji_u" + (Hex4(a, false) + Hex4(b, false)) + ".svg"
  {
    var words := Emojis.LowerHexWords([a, b]);
    assert words == [Hex4(a, false), Hex4(b, false)];
    assert Join(words, "") == words[0] + "" + Join(words[1..], "");
  }

  /** `1234` and `6789` are spelled with exactly four digits. */
  lemma FourDigits()
    ensures Hex4(0x1234, false) == HexDigits(0x1234, false)
    ensures Hex4(0x6789, false) == HexDigits(0x6789, false)
  {
    assert |HexDigits(0x123, false)| == 3;
    assert |HexDigits(0x678, false)| == 3;
  }

  /** A fifth digit behind. */
  lemma FifthDigitBehind()
    ensures Hex4(0x12345, false) == Hex4(0x1234, false) + [HexChar(5, false)]
  {
    FourDigits();
  }

  /** A fifth digit in front. */
  lemma FifthDigitInFront()
    ensures Hex4(0x56789, false) == [HexChar(5, false)] + Hex4(0x6789, false)
  {
    FourDigits();
    var d5 := [HexChar(5, false)];
    assert HexDigits(0x56, false) == d5 + HexDigits(0x6, false);
    Prepend(d5, 0x567, 0x6);
    Prepend(d5, 0x5678, 0x67);
    Prepend(d5, 0x56789, 0x678);
  }

  /** Digits in front of a number's spelling stay in front when a digit is
      appended. */
  lemma Prepend(x: string, m: nat, k: nat)
    requires m >= 16 && k >= 1 && HexDigits(m / 16, false) == x + HexDigits(k, false)
    ensures HexDigits(m, false) == x + HexDigits(k * 16 + m % 16, false)
  {
    var r := m % 16;
    assert (k * 16 + r) / 16 == k && (k * 16 + r) % 16 == r;
    Regroup(x, HexDigits(k, false), [HexChar(r, false)]);
  }

  /** Without a separator between codepoints, the SVG file name does not
      determine the emoji: U+12345 U+6789 and U+1234 U+56789 both become
      `emoji_u123456789.svg`. */
  lemma SvgAmbiguous()
    ensures var e1 := Emoji("a", Display([0x12345, 0x6789]));
      var e2 := Emoji("b", Display([0x1234, 0x56789]));
      CodepointsOf(e1) != CodepointsOf(e2) && Svg(e1) == Svg(e2)
  {
    var e1 := Emoji("a", Display([0x12345, 0x6789]));
    var e2 := Emoji("b", Display([0x1234, 0x56789]));
    CodepointsOfDisplay("a", [0x12345, 0x6789]);
    CodepointsOfDisplay("b", [0x1234, 0x56789]);
    SvgOfPair(e1, 0x12345, 0x6789);
    SvgOfPair(e2, 0x1234, 0x56789);
    FifthDigitBehind();
    FifthDigitInFront();
    Regroup(Hex4(0x1234, false), [HexChar(5, false)], Hex4(0x6789, false));
  }

  lemma Regroup(x: string, y: string, z: string)
    ensures (x + y) + z == x + (y + z)
  {
  }

  /** `svg` with the codepoints joined by underscores, as the later variants
      and the font's own file names have it. */
  function SvgSeparated(e: Emoji): (r: string)
    ensures StartsWith(r, "emoji_u") && EndsWith(r, ".svg")
  {
    var r := "emoji_u" + Join(Emojis.LowerHexWords(CodepointsOf(e)), "_") + ".svg";
    assert r[..7] == "emoji_u" && r[|r| - 4..] == ".svg";
    r
  }

  /** The separated file name reads back as the codepoints, so distinct
      emoji get distinct files. */
  lemma SvgSeparatedRoundTrip(e: Emoji)
    ensures Emojis.ParseSvgFile(SvgSeparated(e)) == Some(CodepointsOf(e))
  {
    var cps := CodepointsOf(e);
    Emojis.ParseEmojiFile(Join(Emojis.LowerHexWords(cps), "_"));
    if cps == [] {
      assert Join(Emojis.LowerHexWords(cps), "_") == [];
    } else {
      Emojis.ParseJoinedHex(cps);
    }
  }

  lemma SvgSeparatedInjective(e1: Emoji, e2: Emoji)
    requires SvgSeparated(e1) == SvgSeparated(e2)
    ensures e1.value == e2.value
  {
    SvgSeparatedRoundTrip(e1);
    SvgSeparatedRoundTrip(e2);
  }

  // ---------------------------------------------------------------------------
  // LaTeX

  /** `to_latex_chars`: `\char"XXXX` per codepoint, upper-case hex; the
      commands read back as the codepoints and never contain a `#`. */
  function ToLatexChars(e: Emoji): (r: string)
    ensures Emojis.ParseCharCommands(r) == Some(CodepointsOf(e))
    ensures '#' !in r
  {
    var cps := CodepointsOf(e);
    Emojis.LatexCharsRoundTrip(cps);
    Emojis.LatexCharsNoHash(cps);
    Emojis.CharCommands(cps)
  }

  /** `to_latex_table_entry`: the `\csname` shape for a dashed key, the
      `\def` shape otherwise, with the `\char` commands as the body. */
  function ToLatexTableEntry(e: Emoji): string {
    ScriptsEmo.Entry(e.key, ToLatexChars(e), Dashed(e))
  }

  /** The entry's shape follows the hyphen in the key, and reading the
      entry back gives the key and `\char` commands that spell the
      codepoints. */
  lemma ToLatexTableEntryRoundTrip(e: Emoji)
    requires '\\' !in e.key && '{' !in e.key
    ensures StartsWith(ToLatexTableEntry(e), ScriptsEmo.CSNAME_PREFIX) <==> Dashed(e)
    ensures ScriptsEmo.ParseLatexEntry(ToLatexTableEntry(e)) == Some((e.key, ToLatexChars(e)))
  {
    ScriptsEmo.EntryRoundTrip(e.key, ToLatexChars(e), Dashed(e));
  }
}

=== FILE: registry.dfy ===
/** The `Registry` class of config/emo.py: lookups in the three tables that
    `RegistryParser.run` returns, the selection of emoji by selector
    strings, and which emoji, groups and subgroups `write_latex_table`
    writes, in which order. */
module Registry {
  import opened Wrappers
  import opened Strings
  import opened Codepoints
  import opened Emojis
  import opened Dicts
  import Names
  import Parser
  import Lines

  /** The `KeyError`s the registry raises. */
  datatype KeyError =
    | NoGroup(group: string)
    | NotTwoNames(selector: string)
    | NonExistentGroup(selector: string)
    | NonExistentSubgroup(selector: string)
    | NeitherEmojiNorGroup(selector: string)

  /** What `run` guarantees about the tables (`Parser.RunSound`). */
  ghost predicate Sound(reg: Parser.Tables) {
    && Parser.NamesOk(reg.names)
    && Valid(reg.codepoints) && Parser.Points(reg.codepoints.m, reg.names)
    && Parser.Nested(reg.groups) && Parser.GroupsOk(reg.groups, reg.names)
    && Parser.Total(reg.groups) == |reg.names|
  }

  /** The tables of a successful run are sound. */
  lemma RunSound(parsed: seq<Result<Lines.Item, Lines.LineError>>)
    requires Parser.RunParsed(parsed).Ok?
    ensures Sound(Parser.RunParsed(parsed).value)
  {
    Parser.RunSound(parsed);
  }

  // ---------------------------------------------------------------------------
  // Lookup

  /** The argument of `lookup`: a name or a codepoint tuple. */
  datatype Identifier = Name(name: string) | Sequence(codepoints: seq<Scalar>)

  /** `lookup`: a name is looked up in lower case, a codepoint sequence as
      is. */
  function Lookup(reg: Parser.Tables, id: Identifier): (r: Option<Emoji>)
    ensures id.Name? ==> (r.Some? <==> Lower(id.name) in reg.names)
    ensures id.Name? && r.Some? ==> r.value == reg.names[Lower(id.name)]
    ensures id.Sequence? ==> (r.Some? <==> id.codepoints in reg.codepoints.m)
    ensures id.Sequence? && r.Some? ==> r.value == reg.codepoints.m[id.codepoints]
  {
    match id
    case Name(n) => if Lower(n) in reg.names then Some(reg.names[Lower(n)]) else None
    case Sequence(cps) => if cps in reg.codepoints.m then Some(reg.codepoints.m[cps]) else None
  }

  /** Names are looked up without regard to case. */
  lemma LookupIgnoresCase(reg: Parser.Tables, n: string)
    ensures Lookup(reg, Name(n)) == Lookup(reg, Name(Lower(n)))
  {
    LowerIdempotent(n);
  }

  /** In a sound registry every codepoint sequence finds a registered emoji,
      and that emoji is also found by its name when the name is in lower
      case. */
  lemma LookupAgrees(reg: Parser.Tables, cps: seq<Scalar>)
    requires Sound(reg) && cps in reg.codepoints.m
    ensures var e := reg.codepoints.m[cps];
      && Parser.Registered(e)
      && (NoUpper(e.name) ==> Lookup(reg, Name(e.name)) == Lookup(reg, Sequence(cps)))
  {
    var e := reg.codepoints.m[cps];
    LowerIdempotent(e.name);
  }

  // ---------------------------------------------------------------------------
  // Groups and subgroups

  /** `is_subgroup`: the group must exist, or indexing the group table
      raises. */
  function IsSubgroup(reg: Parser.Tables, g: string, s: string): (r: Result<bool, KeyError>)
    ensures r.Err? <==> g !in reg.groups.m
    ensures r.Ok? ==> (r.value <==> Parser.Lookup(reg.groups, g, s) != [] || s in reg.groups.m[g].m)
  {
    if g in reg.groups.m then Ok(s in reg.groups.m[g].m) else Err(NoGroup(g))
  }

  /** `subgroup_from_selector`: the lower-cased selector must split at `::`
      into exactly two names, which normalised name an existing group and
      subgroup. */
  function SubgroupFromSelector(reg: Parser.Tables, selector: string): (r: Result<seq<Emoji>, KeyError>)
    ensures r.Ok? ==> exists g, s ::
      && g in reg.groups.m && s in reg.groups.m[g].m
      && r.value == Parser.Lookup(reg.groups, g, s)
    ensures |Names.SplitSubgroupSelector(selector)| != 2 ==> r == Err(NotTwoNames(selector))
  {
    var names := Names.SplitSubgroupSelector(selector);
    if |names| != 2 then Err(NotTwoNames(selector))
    else
      var g := Names.ToGroup(names[0]);
      var s := Names.ToSubgroup(names[1]);
      if g !in reg.groups.m then Err(NonExistentGroup(selector))
      else if s !in reg.groups.m[g].m then Err(NonExistentSubgroup(selector))
      else Ok(reg.groups.m[g].m[s])
  }

  // ---------------------------------------------------------------------------
  // Emoji in registry order

  /** The emoji of the listed subgroups, subgroup after subgroup. */
  function SubgroupsEmoji(d: Parser.Subgroups, keys: seq<string>): seq<Emoji>
    requires Listed(keys) <= d.m.Keys
  {
    if keys == [] then [] else SubgroupsEmoji(d, keys[..|keys| - 1]) + d.m[keys[|keys| - 1]]
  }

  /** The emoji of a group, in subgroup order. */
  function GroupEmoji(groups: Parser.Groups, g: string): seq<Emoji>
    requires Parser.Nested(groups) && g in groups.m
  {
    SubgroupsEmoji(groups.m[g], groups.m[g].keys)
  }

  /** The emoji of the listed groups, group after group. */
  function GroupsEmoji(groups: Parser.Groups, keys: seq<string>): seq<Emoji>
    requires Parser.Nested(groups) && Listed(keys) <= groups.m.Keys
  {
    if keys == [] then [] else GroupsEmoji(groups, keys[..|keys| - 1]) + GroupEmoji(groups, keys[|keys| - 1])
  }

  /** All emoji of the group table, in group and subgroup order. */
  function AllEmoji(groups: Parser.Groups): seq<Emoji>
    requires Parser.Nested(groups)
  {
    GroupsEmoji(groups, groups.keys)
  }

  /** An emoji is among the listed subgroups' emoji exactly when it is in
      one of them. */
  lemma {:induction false} SubgroupsEmojiIn(d: Parser.Subgroups, keys: seq<string>, e: Emoji)
    requires Listed(keys) <= d.m.Keys
    ensures e in SubgroupsEmoji(d, keys) <==> exists i :: 0 <= i < |keys| && e in d.m[keys[i]]
  {
    if keys != [] {
      var init := keys[..|keys| - 1];
      SubgroupsEmojiIn(d, init, e);
      if e in SubgroupsEmoji(d, keys) && e !in d.m[keys[|keys| - 1]] {
        var i :| 0 <= i < |init| && e in d.m[init[i]];
        assert keys[i] == init[i];
      }
      if exists i :: 0 <= i < |keys| && e in d.m[keys[i]] {
        var i :| 0 <= i < |keys| && e in d.m[keys[i]];
        if i < |init| {
          assert init[i] == keys[i];
        }
      }
    }
  }

  /** An emoji is in a group exactly when it is in one of its subgroups. */
  lemma GroupEmojiIn(groups: Parser.Groups, g: string, e: Emoji)
    requires Parser.Nested(groups) && g in groups.m
    ensures e in GroupEmoji(groups, g) <==> exists s :: e in Parser.Lookup(groups, g, s)
  {
    var d := groups.m[g];
    SubgroupsEmojiIn(d, d.keys, e);
    if e in GroupEmoji(groups, g) {
      var i :| 0 <= i < |d.keys| && e in d.m[d.keys[i]];
      assert e in Parser.Lookup(groups, g, d.keys[i]);
    }
    if exists s :: e in Parser.Lookup(groups, g, s) {
      var s :| e in Parser.Lookup(groups, g, s);
      ListedIn(d.keys, s);
      var i :| 0 <= i < |d.keys| && d.keys[i] == s;
    }
  }

  /** An emoji is among the listed groups' emoji exactly when it is in one
      of their subgroups. */
  lemma {:induction false} GroupsEmojiIn(groups: Parser.Groups, keys: seq<string>, e: Emoji)
    requires Parser.Nested(groups) && Listed(keys) <= groups.m.Keys
    ensures e in GroupsEmoji(groups, keys) <==> exists i, s :: 0 <= i < |keys| && e in Parser.Lookup(groups, keys[i], s)
  {
    if keys != [] {
      GroupsEmojiIn(groups, keys[..|keys| - 1], e);
      GroupsEmojiInStep(groups, keys, e);
    }
  }

  /** Step of `GroupsEmojiIn`: the last listed group added to the others. */
  lemma GroupsEmojiInStep(groups: Parser.Groups, keys: seq<string>, e: Emoji)
    requires Parser.Nested(groups) && Listed(keys) <= groups.m.Keys && keys != []
    requires var init := keys[..|keys| - 1];
      e in GroupsEmoji(groups, init) <==> exists i, s :: 0 <= i < |init| && e in Parser.Lookup(groups, init[i], s)
    ensures e in GroupsEmoji(groups, keys) <==> exists i, s :: 0 <= i < |keys| && e in Parser.Lookup(groups, keys[i], s)
  {
    var init := keys[..|keys| - 1];
    var last := keys[|keys| - 1];
    GroupEmojiIn(groups, last, e);
    if e in GroupsEmoji(groups, keys) && e !in GroupEmoji(groups, last) {
      var i, s :| 0 <= i < |init| && e in Parser.Lookup(groups, init[i], s);
      assert keys[i] == init[i];
    }
    if exists i, s :: 0 <= i < |keys| && e in Parser.Lookup(groups, keys[i], s) {
      var i, s :| 0 <= i < |keys| && e in Parser.Lookup(groups, keys[i], s);
      if i < |init| {
        assert init[i] == keys[i];
      }
    }
  }

  /** The registry order lists exactly the emoji of the group table. */
  lemma AllEmojiIn(groups: Parser.Groups, e: Emoji)
    requires Parser.Nested(groups)
    ensures e in AllEmoji(groups) <==> exists g, s :: e in Parser.Lookup(groups, g, s)
  {
    GroupsEmojiIn(groups, groups.keys, e);
    if exists g, s :: e in Parser.Lookup(groups, g, s) {
      var g, s :| e in Parser.Lookup(groups, g, s);
      ListedIn(groups.keys, g);
      var i :| 0 <= i < |groups.keys| && groups.keys[i] == g;
    }
  }

  /** The listed subgroups hold as many emoji as their sizes add up to. */
  lemma {:induction false} SubgroupsEmojiCount(d: Parser.Subgroups, keys: seq<string>)
    requires Listed(keys) <= d.m.Keys
    ensures |SubgroupsEmoji(d, keys)| == Sum(keys, d.m, Parser.Length)
  {
    if keys != [] {
      SubgroupsEmojiCount(d, keys[..|keys| - 1]);
    }
  }

  /** The listed groups hold as many emoji as their totals add up to. */
  lemma {:induction false} GroupsEmojiCount(groups: Parser.Groups, keys: seq<string>)
    requires Parser.Nested(groups) && Listed(keys) <= groups.m.Keys
    ensures |GroupsEmoji(groups, keys)| == Sum(keys, groups.m, Parser.SubgroupsTotal)
  {
    if keys != [] {
      var last := keys[|keys| - 1];
      GroupsEmojiCount(groups, keys[..|keys| - 1]);
      SubgroupsEmojiCount(groups.m[last], groups.m[last].keys);
    }
  }

  /** The registry order lists as many emoji as the group table counts; in
      a sound registry, as many as there are names. */
  lemma AllEmojiCount(groups: Parser.Groups)
    requires Parser.Nested(groups)
    ensures |AllEmoji(groups)| == Parser.Total(groups)
  {
    GroupsEmojiCount(groups, groups.keys);
  }

  // ---------------------------------------------------------------------------
  // Selection

  const ALL: string := "ALL"
  const NONDIVERSE: string := "NONDIVERSE"
  const PEOPLE: string := "people-and-body"

  /** The emoji whose names carry no gender, hair or skin token, in
      order. */
  function NonDiverse(es: seq<Emoji>): (r: seq<Emoji>)
    ensures forall e :: e in r <==> e in es && !IsDiverse(e)
  {
    if es == [] then []
    else NonDiverse(es[..|es| - 1]) + if IsDiverse(es[|es| - 1]) then [] else [es[|es| - 1]]
  }

  /** Filtering the subgroups one by one filters their concatenation. */
  lemma NonDiverseConcat(a: seq<Emoji>, b: seq<Emoji>)
    ensures NonDiverse(a + b) == NonDiverse(a) + NonDiverse(b)
    decreases |b|
  {
    if b != [] {
      var b' := b[..|b| - 1];
      assert (a + b)[..|a + b| - 1] == a + b';
      NonDiverseConcat(a, b');
    } else {
      assert a + b == a;
    }
  }

  /** The loop of `non_diverse_people` over the listed subgroups. */
  function NonDiverseIn(d: Parser.Subgroups, keys: seq<string>): (r: seq<Emoji>)
    requires Listed(keys) <= d.m.Keys
    ensures r == NonDiverse(SubgroupsEmoji(d, keys))
  {
    if keys == [] then []
    else
      var init := keys[..|keys| - 1];
      NonDiverseConcat(SubgroupsEmoji(d, init), d.m[keys[|keys| - 1]]);
      NonDiverseIn(d, init) + NonDiverse(d.m[keys[|keys| - 1]])
  }

  /** `non_diverse_people`: the People & Body emoji without a gender, hair
      or skin token, in registry order; the group must exist. */
  function NonDiversePeople(reg: Parser.Tables): (r: Result<seq<Emoji>, KeyError>)
    requires Parser.Nested(reg.groups)
    ensures r.Err? <==> PEOPLE !in reg.groups.m
    ensures r.Err? ==> r.error == NoGroup(PEOPLE)
    ensures r.Ok? ==> r.value == NonDiverse(GroupEmoji(reg.groups, PEOPLE))
  {
    if PEOPLE !in reg.groups.m then Err(NoGroup(PEOPLE))
    else
      var d := reg.groups.m[PEOPLE];
      Ok(NonDiverseIn(d, d.keys))
  }

  /** One selector of `select`, tried in this order: `ALL`, `NONDIVERSE`, a
      `group::subgroup` selector, a group name, an emoji name. */
  function SelectOne(reg: Parser.Tables, selector: string): (r: Result<seq<Emoji>, KeyError>)
    requires Parser.Nested(reg.groups)
  {
    if selector == ALL then Ok(AllEmoji(reg.groups))
    else if selector == NONDIVERSE then NonDiversePeople(reg)
    else if Names.IsSubgroupSelector(selector) then SubgroupFromSelector(reg, selector)
    else if Names.ToGroup(selector) in reg.groups.m then Ok(GroupEmoji(reg.groups, Names.ToGroup(selector)))
    else if Lower(selector) in reg.names then Ok([reg.names[Lower(selector)]])
    else Err(NeitherEmojiNorGroup(selector))
  }

  /** The selections of the selectors, concatenated in order; the first
      one that failed fails the whole. */
  function Concat(rs: seq<Result<seq<Emoji>, KeyError>>): Result<seq<Emoji>, KeyError> {
    if rs == [] then Ok([])
    else
      var before :- Concat(rs[..|rs| - 1]);
      var more :- rs[|rs| - 1];
      Ok(before + more)
  }

  /** Every selector on its own. */
  function Selections(reg: Parser.Tables, selectors: seq<string>): (rs: seq<Result<seq<Emoji>, KeyError>>)
    requires Parser.Nested(reg.groups)
    ensures |rs| == |selectors|
    ensures forall i :: 0 <= i < |selectors| ==> rs[i] == SelectOne(reg, selectors[i])
  {
    seq(|selectors|, i requires 0 <= i < |selectors| => SelectOne(reg, selectors[i]))
  }

  /** `select`: every selector on its own, then `Concat`. */
  function Select(reg: Parser.Tables, selectors: seq<string>): (r: Result<seq<Emoji>, KeyError>)
    requires Parser.Nested(reg.groups)
    ensures selectors == [] ==> r == Ok([])
  {
    Concat(Selections(reg, selectors))
  }

  lemma {:induction false} ConcatOk(rs: seq<Result<seq<Emoji>, KeyError>>)
    ensures Concat(rs).Ok? <==> forall i :: 0 <= i < |rs| ==> rs[i].Ok?
  {
    if rs != [] {
      var init := rs[..|rs| - 1];
      ConcatOk(init);
      assert forall i :: 0 <= i < |init| ==> init[i] == rs[i];
    }
  }

  lemma {:induction false} ConcatIn(rs: seq<Result<seq<Emoji>, KeyError>>, e: Emoji)
    requires Concat(rs).Ok?
    ensures e in Concat(rs).value <==> exists i :: 0 <= i < |rs| && rs[i].Ok? && e in rs[i].value
  {
    if rs != [] {
      var n := |rs|;
      var init := rs[..n - 1];
      ConcatIn(init, e);
      if exists i :: 0 <= i < n && rs[i].Ok? && e in rs[i].value {
        var i :| 0 <= i < n && rs[i].Ok? && e in rs[i].value;
        if i < n - 1 {
          assert init[i] == rs[i];
        }
      }
      if e in Concat(init).value {
        var i :| 0 <= i < n - 1 && init[i].Ok? && e in init[i].value;
        assert init[i] == rs[i];
      }
    }
  }

  lemma {:induction false} ConcatErr(rs: seq<Result<seq<Emoji>, KeyError>>)
    requires Concat(rs).Err?
    ensures exists i ::
      && 0 <= i < |rs| && rs[i] == Err(Concat(rs).error)
      && forall j :: 0 <= j < i ==> rs[j].Ok?
  {
    var n := |rs|;
    var init := rs[..n - 1];
    if Concat(init).Err? {
      ConcatErr(init);
      var i :| 0 <= i < n - 1 && init[i] == Err(Concat(init).error)
        && forall j :: 0 <= j < i ==> init[j].Ok?;
      assert forall j :: 0 <= j <= i ==> init[j] == rs[j];
    } else {
      ConcatOk(init);
      assert forall j :: 0 <= j < n - 1 ==> init[j] == rs[j];
    }
  }

  /** `select` succeeds exactly when every selector does. */
  lemma SelectOk(reg: Parser.Tables, selectors: seq<string>)
    requires Parser.Nested(reg.groups)
    ensures Select(reg, selectors).Ok? <==> forall i :: 0 <= i < |selectors| ==> SelectOne(reg, selectors[i]).Ok?
  {
    ConcatOk(Selections(reg, selectors));
  }

  /** The selector succeeds and selects `e`. */
  predicate Selects(reg: Parser.Tables, selector: string, e: Emoji)
    requires Parser.Nested(reg.groups)
  {
    SelectOne(reg, selector).Ok? && e in SelectOne(reg, selector).value
  }

  /** A successful `select` holds exactly the emoji some selector
      selects. */
  lemma SelectIn(reg: Parser.Tables, selectors: seq<string>, e: Emoji)
    requires Parser.Nested(reg.groups) && Select(reg, selectors).Ok?
    ensures e in Select(reg, selectors).value <==> exists i :: 0 <= i < |selectors| && Selects(reg, selectors[i], e)
  {
    ConcatIn(Selections(reg, selectors), e);
  }

  /** A failing `select` reports the error of the first failing
      selector. */
  lemma SelectErr(reg: Parser.Tables, selectors: seq<string>)
    requires Parser.Nested(reg.groups) && Select(reg, selectors).Err?
    ensures exists i ::
      && 0 <= i < |selectors| && SelectOne(reg, selectors[i]) == Err(Select(reg, selectors).error)
      && forall j :: 0 <= j < i ==> SelectOne(reg, selectors[j]).Ok?
  {
    ConcatErr(Selections(reg, selectors));
  }

  // ---------------------------------------------------------------------------
  // The five kinds of selector

  /** `ALL` selects every emoji of the group table in registry order; in a
      sound registry that is one emoji per name, each registered under its
      name. */
  lemma SelectAll(reg: Parser.Tables, e: Emoji)
    requires Sound(reg)
    ensures SelectOne(reg, ALL).Ok?
    ensures |SelectOne(reg, ALL).value| == |reg.names|
    ensures e in SelectOne(reg, ALL).value <==> exists g, s :: e in Parser.Lookup(reg.groups, g, s)
    ensures e in SelectOne(reg, ALL).value ==> e.name in reg.names && reg.names[e.name] == e
  {
    AllEmojiCount(reg.groups);
    AllEmojiIn(reg.groups, e);
    if e in SelectOne(reg, ALL).value {
      var g, s :| e in Parser.Lookup(reg.groups, g, s);
      assert Parser.SubgroupOk(g, Parser.Lookup(reg.groups, g, s), reg.names);
    }
  }

  /** `NONDIVERSE` needs the People & Body group and selects its emoji that
      carry no gender, hair or skin token. */
  lemma SelectNonDiverse(reg: Parser.Tables, e: Emoji)
    requires Parser.Nested(reg.groups)
    ensures SelectOne(reg, NONDIVERSE).Ok? <==> PEOPLE in reg.groups.m
    ensures SelectOne(reg, NONDIVERSE).Err? ==> SelectOne(reg, NONDIVERSE).error == NoGroup(PEOPLE)
    ensures SelectOne(reg, NONDIVERSE).Ok? ==>
      (e in SelectOne(reg, NONDIVERSE).value <==>
        (exists s :: e in Parser.Lookup(reg.groups, PEOPLE, s)) && !Names.IsDiverse(e.name))
  {
    if PEOPLE in reg.groups.m {
      GroupEmojiIn(reg.groups, PEOPLE, e);
    }
  }

  /** A selector with `::` selects the subgroup it names, if the two names
      name an existing group and one of its subgroups, whatever the group
      and name tables hold otherwise. */
  lemma SelectSubgroup(reg: Parser.Tables, selector: string)
    requires Parser.Nested(reg.groups) && Names.IsSubgroupSelector(selector)
    ensures var parts := Names.SplitSubgroupSelector(selector);
      && (|parts| != 2 ==> SelectOne(reg, selector) == Err(NotTwoNames(selector)))
      && (|parts| == 2 ==>
        var g := Names.ToGroup(parts[0]);
        var s := Names.ToSubgroup(parts[1]);
        && (SelectOne(reg, selector).Ok? <==> IsSubgroup(reg, g, s) == Ok(true))
        && (SelectOne(reg, selector).Ok? ==> SelectOne(reg, selector).value == Parser.Lookup(reg.groups, g, s)))
  {
    KeywordsAreNoSubgroupSelectors(selector);
    assert SelectOne(reg, selector) == SubgroupFromSelector(reg, selector);
  }

  /** Neither `ALL` nor `NONDIVERSE` contains `::`. */
  lemma KeywordsAreNoSubgroupSelectors(selector: string)
    requires Names.IsSubgroupSelector(selector)
    ensures selector != ALL && selector != NONDIVERSE
  {
    if Contains(ALL, "::") {
      ContainsFirst(ALL, "::");
    }
    if Contains(NONDIVERSE, "::") {
      ContainsFirst(NONDIVERSE, "::");
    }
  }

  /** A selector that is none of the above and normalises to a group name
      selects that group's emoji, even when it is also an emoji's name. */
  lemma SelectGroup(reg: Parser.Tables, selector: string, e: Emoji)
    requires Parser.Nested(reg.groups)
    requires selector != ALL && selector != NONDIVERSE && !Names.IsSubgroupSelector(selector)
    requires Names.ToGroup(selector) in reg.groups.m
    ensures SelectOne(reg, selector).Ok?
    ensures e in SelectOne(reg, selector).value
        <==> exists s :: e in Parser.Lookup(reg.groups, Names.ToGroup(selector), s)
  {
    GroupEmojiIn(reg.groups, Names.ToGroup(selector), e);
  }

  /** Any other selector is an emoji name, looked up as `lookup` does; an
      unknown name fails the selection. */
  lemma SelectName(reg: Parser.Tables, selector: string)
    requires Parser.Nested(reg.groups)
    requires selector != ALL && selector != NONDIVERSE && !Names.IsSubgroupSelector(selector)
    requires Names.ToGroup(selector) !in reg.groups.m
    ensures SelectOne(reg, selector).Ok? <==> Lookup(reg, Name(selector)).Some?
    ensures SelectOne(reg, selector).Ok? ==> SelectOne(reg, selector).value == [Lookup(reg, Name(selector)).value]
    ensures SelectOne(reg, selector).Err? ==> SelectOne(reg, selector).error == NeitherEmojiNorGroup(selector)
  {
  }

  // ---------------------------------------------------------------------------
  // What `write_latex_table` writes

  /** `{emoji.codepoints for emoji in emoji_selection}`. */
  function CodepointSelection(selection: set<Emoji>): (cps: set<seq<Scalar>>)
    ensures forall e :: e in selection ==> e.codepoints in cps
    ensures forall c :: c in cps ==> exists e :: e in selection && e.codepoints == c
  {
    set e | e in selection :: e.codepoints
  }

  /** Some emoji of the subgroup has selected codepoints. */
  predicate AnySelected(es: seq<Emoji>, cps: set<seq<Scalar>>) {
    exists i :: 0 <= i < |es| && es[i].codepoints in cps
  }

  /** `_is_subgroup_included`: the first emoji with selected codepoints ends
      the search. */
  method IsSubgroupIncluded(es: seq<Emoji>, cps: set<seq<Scalar>>) returns (b: bool)
    ensures b <==> AnySelected(es, cps)
  {
    var i := 0;
    while i < |es|
      invariant 0 <= i <= |es|
      invariant forall j :: 0 <= j < i ==> es[j].codepoints !in cps
    {
      if es[i].codepoints in cps {
        return true;
      }
      i := i + 1;
    }
    return false;
  }

  /** `_subgroup_inclusions`: each subgroup of the group mapped to whether
      it holds a selected emoji. */
  function SubgroupInclusions(d: Parser.Subgroups, cps: set<seq<Scalar>>): (marked: map<string, bool>)
    ensures marked.Keys == d.m.Keys
    ensures forall s :: s in marked ==> (marked[s] <==> AnySelected(d.m[s], cps))
  {
    map s | s in d.m :: AnySelected(d.m[s], cps)
  }

  /** The emoji of a subgroup whose codepoints are selected, in order. */
  function Keep(es: seq<Emoji>, cps: set<seq<Scalar>>): seq<Emoji> {
    if es == [] then []
    else Keep(es[..|es| - 1], cps) + if es[|es| - 1].codepoints in cps then [es[|es| - 1]] else []
  }

  /** `Keep` keeps exactly the emoji with selected codepoints. */
  lemma {:induction false} KeepIn(es: seq<Emoji>, cps: set<seq<Scalar>>, e: Emoji)
    ensures e in Keep(es, cps) <==> e in es && e.codepoints in cps
  {
    if es != [] {
      var init := es[..|es| - 1];
      KeepIn(init, cps, e);
      assert es == init + [es[|es| - 1]];
    }
  }

  /** `Keep` keeps nothing exactly when nothing is selected. */
  lemma {:induction false} KeepEmpty(es: seq<Emoji>, cps: set<seq<Scalar>>)
    ensures Keep(es, cps) == [] <==> !AnySelected(es, cps)
  {
    if es != [] {
      var init := es[..|es| - 1];
      KeepEmpty(init, cps);
      if AnySelected(init, cps) {
        var i :| 0 <= i < |init| && init[i].codepoints in cps;
        assert es[i] == init[i];
      }
      if AnySelected(es, cps) && es[|es| - 1].codepoints !in cps {
        var i :| 0 <= i < |es| && es[i].codepoints in cps;
        assert init[i] == es[i];
      }
    }
  }

  /** Keeping distributes over concatenation. */
  lemma {:induction false} KeepConcat(a: seq<Emoji>, b: seq<Emoji>, cps: set<seq<Scalar>>)
    ensures Keep(a + b, cps) == Keep(a, cps) + Keep(b, cps)
    decreases |b|
  {
    if b == [] {
      assert a + b == a;
    } else {
      var b' := b[..|b| - 1];
      assert (a + b)[..|a + b| - 1] == a + b';
      KeepConcat(a, b', cps);
    }
  }

  /** A subgroup block of the table: the subgroup and its selected emoji. */
  datatype Subsection = Subsection(subgroup: string, emoji: seq<Emoji>)

  /** A group block of the table. */
  datatype Section = Section(group: string, subsections: seq<Subsection>)

  /** The blocks of the listed subgroups that are marked, each with its
      selected emoji. */
  function Subsections(d: Parser.Subgroups, keys: seq<string>, marked: map<string, bool>, cps: set<seq<Scalar>>): seq<Subsection>
    requires Listed(keys) <= d.m.Keys && Listed(keys) <= marked.Keys
  {
    if keys == [] then []
    else
      var s := keys[|keys| - 1];
      Subsections(d, keys[..|keys| - 1], marked, cps)
        + if marked[s] then [Subsection(s, Keep(d.m[s], cps))] else []
  }

  /** The blocks of the listed groups that hold a selected emoji. */
  function Sections(groups: Parser.Groups, keys: seq<string>, cps: set<seq<Scalar>>): seq<Section>
    requires Parser.Nested(groups) && Listed(keys) <= groups.m.Keys
  {
    if keys == [] then []
    else
      var g := keys[|keys| - 1];
      var d := groups.m[g];
      var marked := SubgroupInclusions(d, cps);
      Sections(groups, keys[..|keys| - 1], cps)
        + if exists s :: s in marked && marked[s] then [Section(g, Subsections(d, d.keys, marked, cps))] else []
  }

  /** The emoji of the subgroup blocks, block after block. */
  function SubsectionsEmoji(subs: seq<Subsection>): seq<Emoji> {
    if subs == [] then [] else SubsectionsEmoji(subs[..|subs| - 1]) + subs[|subs| - 1].emoji
  }

  /** The emoji of the group blocks, block after block. */
  function SectionsEmoji(secs: seq<Section>): seq<Emoji> {
    if secs == [] then [] else SectionsEmoji(secs[..|secs| - 1]) + SubsectionsEmoji(secs[|secs| - 1].subsections)
  }

  /** The table of `write_latex_table` for a selection, and the emoji it
      returns. */
  function LatexTable(reg: Parser.Tables, selection: set<Emoji>): (r: (seq<Section>, seq<Emoji>))
    requires Parser.Nested(reg.groups)
    ensures r.1 == SectionsEmoji(r.0)
  {
    var secs := Sections(reg.groups, reg.groups.keys, CodepointSelection(selection));
    (secs, SectionsEmoji(secs))
  }

  /** The subgroup blocks hold the listed subgroups' selected emoji, in
      order, when the marks are those of `_subgroup_inclusions`. */
  lemma {:induction false} SubsectionsKeep(d: Parser.Subgroups, keys: seq<string>, cps: set<seq<Scalar>>)
    requires Listed(keys) <= d.m.Keys
    ensures var subs := Subsections(d, keys, SubgroupInclusions(d, cps), cps);
      && SubsectionsEmoji(subs) == Keep(SubgroupsEmoji(d, keys), cps)
      && forall i :: 0 <= i < |subs| ==> subs[i].emoji != []
  {
    if keys != [] {
      var init := keys[..|keys| - 1];
      var s := keys[|keys| - 1];
      var marked := SubgroupInclusions(d, cps);
      var subs := Subsections(d, init, marked, cps);
      SubsectionsKeep(d, init, cps);
      KeepConcat(SubgroupsEmoji(d, init), d.m[s], cps);
      KeepEmpty(d.m[s], cps);
      assert s in d.m;
      if marked[s] {
        var sub := Subsection(s, Keep(d.m[s], cps));
        assert Subsections(d, keys, marked, cps) == subs + [sub];
        assert (subs + [sub])[..|subs|] == subs;
        assert SubsectionsEmoji(subs + [sub]) == SubsectionsEmoji(subs) + sub.emoji;
      } else {
        assert Subsections(d, keys, marked, cps) == subs;
        assert Keep(d.m[s], cps) == [];
      }
    }
  }

  /** Without a marked subgroup there is no block. */
  lemma {:induction false} SubsectionsNone(d: Parser.Subgroups, keys: seq<string>, marked: map<string, bool>, cps: set<seq<Scalar>>)
    requires Listed(keys) <= d.m.Keys && Listed(keys) <= marked.Keys
    ensures Subsections(d, keys, marked, cps) == [] <==> forall i :: 0 <= i < |keys| ==> !marked[keys[i]]
  {
    if keys != [] {
      var init := keys[..|keys| - 1];
      SubsectionsNone(d, init, marked, cps);
      assert forall i :: 0 <= i < |init| ==> init[i] == keys[i];
    }
  }

  /** A group with no marked subgroup has no selected emoji. */
  lemma GroupDropped(groups: Parser.Groups, g: string, cps: set<seq<Scalar>>)
    requires Parser.Nested(groups) && g in groups.m
    requires var marked := SubgroupInclusions(groups.m[g], cps); !exists s :: s in marked && marked[s]
    ensures Keep(GroupEmoji(groups, g), cps) == []
  {
    var d := groups.m[g];
    var marked := SubgroupInclusions(d, cps);
    SubsectionsKeep(d, d.keys, cps);
    SubsectionsNone(d, d.keys, marked, cps);
  }

  /** A group with a marked subgroup has a block. */
  lemma GroupKept(groups: Parser.Groups, g: string, cps: set<seq<Scalar>>)
    requires Parser.Nested(groups) && g in groups.m
    requires var marked := SubgroupInclusions(groups.m[g], cps); exists s :: s in marked && marked[s]
    ensures var d := groups.m[g]; Subsections(d, d.keys, SubgroupInclusions(d, cps), cps) != []
  {
    var d := groups.m[g];
    var marked := SubgroupInclusions(d, cps);
    var s :| s in marked && marked[s];
    ListedIn(d.keys, s);
    var i :| 0 <= i < |d.keys| && d.keys[i] == s;
    SubsectionsNone(d, d.keys, marked, cps);
  }

  /** A group block with at least one subgroup block, and no empty
      subgroup block. */
  predicate Filled(sec: Section) {
    && sec.subsections != []
    && forall j :: 0 <= j < |sec.subsections| ==> sec.subsections[j].emoji != []
  }

  /** Every group block is filled. */
  predicate AllFilled(secs: seq<Section>) {
    forall i :: 0 <= i < |secs| ==> Filled(secs[i])
  }

  /** The group blocks hold the listed groups' selected emoji, in order. */
  lemma {:induction false} SectionsKeep(groups: Parser.Groups, keys: seq<string>, cps: set<seq<Scalar>>)
    requires Parser.Nested(groups) && Listed(keys) <= groups.m.Keys
    ensures SectionsEmoji(Sections(groups, keys, cps)) == Keep(GroupsEmoji(groups, keys), cps)
  {
    if keys != [] {
      var init := keys[..|keys| - 1];
      var g := keys[|keys| - 1];
      var d := groups.m[g];
      var marked := SubgroupInclusions(d, cps);
      var secs := Sections(groups, init, cps);
      SectionsKeep(groups, init, cps);
      KeepConcat(GroupsEmoji(groups, init), GroupEmoji(groups, g), cps);
      SubsectionsKeep(d, d.keys, cps);
      if exists s :: s in marked && marked[s] {
        var sec := Section(g, Subsections(d, d.keys, marked, cps));
        assert Sections(groups, keys, cps) == secs + [sec];
        assert (secs + [sec])[..|secs|] == secs;
      } else {
        assert Sections(groups, keys, cps) == secs;
        GroupDropped(groups, g, cps);
      }
    }
  }

  /** No group block is empty, nor any subgroup block in it. */
  lemma {:induction false} SectionsFilled(groups: Parser.Groups, keys: seq<string>, cps: set<seq<Scalar>>)
    requires Parser.Nested(groups) && Listed(keys) <= groups.m.Keys
    ensures AllFilled(Sections(groups, keys, cps))
  {
    if keys != [] {
      var init := keys[..|keys| - 1];
      var g := keys[|keys| - 1];
      var d := groups.m[g];
      var marked := SubgroupInclusions(d, cps);
      var secs := Sections(groups, init, cps);
      SectionsFilled(groups, init, cps);
      if exists s :: s in marked && marked[s] {
        var sec := Section(g, Subsections(d, d.keys, marked, cps));
        SubsectionsKeep(d, d.keys, cps);
        GroupKept(groups, g, cps);
        assert Filled(sec);
        assert Sections(groups, keys, cps) == secs + [sec];
      } else {
        assert Sections(groups, keys, cps) == secs;
      }
    }
  }

  /** `write_latex_table` returns the selected emoji in registry order, the
      emoji it writes block by block, and writes no empty block. */
  lemma LatexTableOrder(reg: Parser.Tables, selection: set<Emoji>, e: Emoji)
    requires Parser.Nested(reg.groups)
    ensures var (secs, written) := LatexTable(reg, selection);
      && written == Keep(AllEmoji(reg.groups), CodepointSelection(selection))
      && (e in written <==> e in AllEmoji(reg.groups) && exists x :: x in selection && x.codepoints == e.codepoints)
      && AllFilled(secs)
  {
    var cps := CodepointSelection(selection);
    SectionsKeep(reg.groups, reg.groups.keys, cps);
    SectionsFilled(reg.groups, reg.groups.keys, cps);
    KeepIn(AllEmoji(reg.groups), cps, e);
  }
}

=== FILE: scripts_emo.dfy ===
/** The earlier emoji registry of scripts/emo.py: a weaker name
    normalisation, an SVG file name with a single remapped sequence, the
    two shapes of its LaTeX table entry, a line parser that keeps only
    fully-qualified emoji, and a registry that groups the emoji by group and
    subgroup.

    An emoji of this variant carries a name and codepoints only; its string
    is the codepoints as characters, which is also the string it was given
    when it was built from one (`NewFromText`).  It is represented by the
    `Emoji` datatype of config/emo.py with neither status nor version. */
module ScriptsEmo {
  import opened Wrappers
  import opened Strings
  import opened Codepoints
  import opened Emojis
  import opened Dicts
  import Names
  import Declaration
  import Lines
  import Parser

  // ---------------------------------------------------------------------------
  // Names

  /** The constructor's name normalisation: `_PUNCTUATION` deleted, then
      every run of `[ _-]` turned into one hyphen.  Case is kept. */
  function NormalizeName(name: string): (r: string)
    ensures Names.Collapsed(r)
    ensures forall c :: c in r ==> c !in Names.SCRIPTS_PUNCTUATION
    ensures forall c :: c in r ==> c in name || c == '-'
    ensures Names.WordChars(r) == Names.WordChars(Names.RemoveChars(name, Names.SCRIPTS_PUNCTUATION))
  {
    var kept := Names.RemoveChars(name, Names.SCRIPTS_PUNCTUATION);
    Names.CollapseChars(kept);
    Names.CollapseSeparators(kept)
  }

  /** A word with neither separators nor the punctuation is kept in front
      of the rest. */
  lemma NormalizeNameWord(w: string, t: string)
    requires forall i :: 0 <= i < |w| ==> !Names.IsSeparator(w[i]) && w[i] !in Names.SCRIPTS_PUNCTUATION
    ensures NormalizeName(w + t) == w + NormalizeName(t)
  {
    var p := Names.SCRIPTS_PUNCTUATION;
    Names.RemoveCharsConcat(w, t, p);
    Names.RemoveCharsNone(w, p);
    Names.CollapseWord(w, Names.RemoveChars(t, p));
  }

  /** A punctuation character is deleted wherever it stands, so it never
      separates anything. */
  lemma NormalizeNamePunctuation(a: string, c: char, t: string)
    requires c in Names.SCRIPTS_PUNCTUATION
    ensures NormalizeName(a + [c] + t) == NormalizeName(a + t)
  {
    var p := Names.SCRIPTS_PUNCTUATION;
    Names.RemoveCharsConcat(a + [c], t, p);
    Names.RemoveCharsConcat(a, [c], p);
    Names.RemoveCharsOne(c, p);
    Names.RemoveCharsConcat(a, t, p);
    assert Names.RemoveChars(a, p) + [] == Names.RemoveChars(a, p);
  }

  /** A run of separators in front of a character that survives becomes
      one hyphen. */
  lemma NormalizeNameRun(run: string, t: string)
    requires run != [] && forall i :: 0 <= i < |run| ==> Names.IsSeparator(run[i])
    requires t == [] || (!Names.IsSeparator(t[0]) && t[0] !in Names.SCRIPTS_PUNCTUATION)
    ensures NormalizeName(run + t) == "-" + NormalizeName(t)
  {
    var p := Names.SCRIPTS_PUNCTUATION;
    var kept := Names.RemoveChars(t, p);
    Names.RemoveCharsConcat(run, t, p);
    Names.RemoveCharsNone(run, p);
    if t != [] {
      assert kept == [t[0]] + Names.RemoveChars(t[1..], p);
    }
    Names.CollapseRun(run, kept);
  }

  /** Normalising twice changes nothing more: a normalised name has neither
      the punctuation nor separator runs. */
  lemma NormalizeNameIdempotent(name: string)
    ensures NormalizeName(NormalizeName(name)) == NormalizeName(name)
  {
    var r := NormalizeName(name);
    forall i | 0 <= i < |r| ensures r[i] !in Names.SCRIPTS_PUNCTUATION {
      assert r[i] in r;
    }
    Names.RemoveCharsNone(r, Names.SCRIPTS_PUNCTUATION);
    Names.CollapseFixpoint(r);
  }

  /** A name without the punctuation, spaces, underscores and separator
      runs is kept as it is, upper case included. */
  lemma NormalizeNameKeepsCase(name: string)
    requires forall i :: 0 <= i < |name| ==> name[i] !in Names.SCRIPTS_PUNCTUATION
    requires Names.Collapsed(name)
    ensures NormalizeName(name) == name
  {
    Names.RemoveCharsNone(name, Names.SCRIPTS_PUNCTUATION);
    Names.CollapseFixpoint(name);
  }

  /** A lower-case name stays lower case. */
  lemma NormalizeNameNoUpper(name: string)
    requires NoUpper(name)
    ensures NoUpper(NormalizeName(name))
  {
    var r := NormalizeName(name);
    forall i | 0 <= i < |r| ensures !IsAsciiUpper(r[i]) {
      assert r[i] in r;
      if r[i] != '-' {
        var j :| 0 <= j < |name| && name[j] == r[i];
      }
    }
  }

  // ---------------------------------------------------------------------------
  // The emoji

  /** `Emoji(name, value)`: the name normalised; a string value gives its
      characters' ordinals, a token list its codepoints (a malformed token
      or a codepoint `chr` rejects is an error). */
  function New(name: string, value: Value): (r: Result<Emoji, EmojiError>)
    ensures r.Ok? ==> r.value.name == NormalizeName(name) && r.value.status.None? && r.value.version.None?
    ensures r.Ok? ==> ToCodepoints(value) == Ok(r.value.codepoints)
    ensures ToCodepoints(value).Err? ==> r == Err(MalformedCodepoint(ToCodepoints(value).error))
    ensures r.Err? && ToCodepoints(value).Ok? ==>
      exists i :: 0 <= i < |ToCodepoints(value).value| && r.error == NotACharacter(ToCodepoints(value).value[i])
        && !IsScalar(ToCodepoints(value).value[i])
  {
    match ToCodepoints(value)
    case Err(token) => Err(MalformedCodepoint(token))
    case Ok(cps) => Emojis.New(NormalizeName(name), cps, None, None)
  }

  /** An emoji built from a string displays as exactly that string. */
  lemma NewFromText(name: string, s: string)
    ensures New(name, Text(s)).Ok?
    ensures DisplayOf(New(name, Text(s)).value) == s
  {
    DisplayRoundTrip([], s);
  }

  /** Hash, equality and order see the codepoints only: two emoji with the
      same codepoints are equal whatever their names. */
  lemma SameIgnoresName(name1: string, name2: string, value: Value)
    requires New(name1, value).Ok? && New(name2, value).Ok?
    ensures Same(New(name1, value).value, New(name2, value).value)
    ensures !Less(New(name1, value).value, New(name2, value).value)
  {
    EmojiOrder(New(name1, value).value, New(name2, value).value, New(name1, value).value);
  }

  /** `unicode` is the same listing as in config/emo.py, and reads back as
      the codepoints. */
  lemma UnicodeRoundTrip(e: Emoji)
    ensures ToCodepoints(Tokens(StrTokens(SplitWhitespace(Unicode(e))))) == Ok(e.codepoints)
  {
    Emojis.UnicodeRoundTrip(e);
  }

  // ---------------------------------------------------------------------------
  // `svg_file`

  /** The rainbow flag with its presentation selector, the one key of
      `_REMAP`, and the sequence it maps to. */
  const RAINBOW_FLAG: seq<Scalar> := [0x1F3F3, 0xFE0F, 0x200D, 0x1F308]
  const RAINBOW_FLAG_NOTO: seq<Scalar> := [0x1F3F3, 0x200D, 0x1F308]

  /** `_REMAP.get(codepoints, codepoints)`. */
  function Remap(cps: seq<Scalar>): (r: seq<Scalar>)
    ensures cps != RAINBOW_FLAG ==> r == cps
  {
    if cps == RAINBOW_FLAG then RAINBOW_FLAG_NOTO else cps
  }

  /** `svg_file`: a national flag is named by its two letters; any other
      emoji is `emoji_u` and its remapped codepoints, lower-case and joined
      by underscores. */
  function SvgFile(e: Emoji): string {
    if IsRegionalFlag(e) then FlagLetters(e) + ".svg"
    else "emoji_u" + Join(LowerHexWords(Remap(e.codepoints)), "_") + ".svg"
  }

  /** The file name determines the codepoints: a flag's letters give back
      its regional indicators, the rainbow flag reads back without its
      U+FE0F, and every other emoji reads back whole, U+FE0F included. */
  lemma SvgFileRoundTrip(e: Emoji)
    ensures ParseSvgFile(SvgFile(e)) == Some(if IsRegionalFlag(e) then e.codepoints else Remap(e.codepoints))
  {
    if IsRegionalFlag(e) {
      FlagFileRoundTrip(e);
      assert SvgFile(e) == Emojis.SvgFile(e);
    } else {
      var cps := Remap(e.codepoints);
      ParseEmojiFile(Join(LowerHexWords(cps), "_"));
      if cps == [] {
        assert Join(LowerHexWords(cps), "_") == [];
      } else {
        ParseJoinedHex(cps);
      }
    }
  }

  /** Where config/emo.py drops every U+FE0F from the file name, this
      variant keeps it in every sequence but the rainbow flag. */
  lemma SvgFileKeepsSelector(e: Emoji)
    requires !IsRegionalFlag(e) && e.codepoints != RAINBOW_FLAG
    requires EMOJI_PRESENTATION_SELECTOR in e.codepoints
    ensures ParseSvgFile(SvgFile(e)) == Some(e.codepoints)
    ensures ParseSvgFile(Emojis.SvgFile(e)) != ParseSvgFile(SvgFile(e))
  {
    SvgFileRoundTrip(e);
    Emojis.SvgFileRoundTrip(e);
    assert EMOJI_PRESENTATION_SELECTOR !in WithoutSelector(e.codepoints);
  }

  // ---------------------------------------------------------------------------
  // `latex_table_entry`

  /** The two prefixes: a compound name needs `\csname`, since `\def` takes
      letters only. */
  const CSNAME_PREFIX: string := "\\expandafter\\def\\csname emo@emoji@"
  const CSNAME_SUFFIX: string := "\\endcsname"
  const DEF_PREFIX: string := "\\def\\emo@emoji@"

  /** `latex_table_entry`: the definition of the emoji's macro, in the
      `\csname` shape for a name with a hyphen and in the `\def` shape
      otherwise, with the emoji's string as the body. */
  function LatexTableEntry(e: Emoji): string {
    Entry(e.name, DisplayOf(e), HasCompoundName(e))
  }

  /** A macro definition in the `\csname` shape or the `\def` shape. */
  function Entry(name: string, body: string, compound: bool): string {
    if compound then CSNAME_PREFIX + name + CSNAME_SUFFIX + "{" + body + "}"
    else DEF_PREFIX + name + "{" + body + "}"
  }

  /** Reads one shape of table entry back into the macro name and body:
      after the prefix, the name runs to the first `stop` character, then
      come the suffix and the body in braces. */
  function ParseShape(s: string, prefix: string, stop: char, suffix: string): Option<(string, string)> {
    if !StartsWith(s, prefix) then None
    else
      var rest := s[|prefix|..];
      var name := rest[..Declaration.IndexOf(rest, stop)];
      var tail := rest[|name|..];
      if StartsWith(tail, suffix + "{") && EndsWith(tail, "}") && |tail| >= |suffix| + 2
      then Some((name, tail[|suffix| + 1..|tail| - 1]))
      else None
  }

  /** Reads a table entry of either shape back into the macro name and
      body. */
  function ParseLatexEntry(s: string): Option<(string, string)> {
    if StartsWith(s, CSNAME_PREFIX) then ParseShape(s, CSNAME_PREFIX, '\\', CSNAME_SUFFIX)
    else ParseShape(s, DEF_PREFIX, '{', "")
  }

  /** A rendered shape reads back as its name and body when the name lacks
      the stop character that begins what follows it. */
  lemma ParseShapeOf(prefix: string, name: string, suffix: string, body: string, stop: char)
    requires stop !in name && (suffix + "{")[0] == stop
    ensures ParseShape(prefix + name + suffix + "{" + body + "}", prefix, stop, suffix) == Some((name, body))
  {
    var s := prefix + name + suffix + "{" + body + "}";
    var rest := name + suffix + "{" + body + "}";
    assert s == prefix + rest;
    assert s[..|prefix|] == prefix;
    assert s[|prefix|..] == rest;
    var tail := suffix + "{" + body + "}";
    assert rest == name + tail;
    IndexOfAt(rest, name, stop);
    assert rest[|name|..] == tail;
    assert tail[..|suffix + "{"|] == suffix + "{";
    assert tail[|tail| - 1..] == "}";
    assert tail[|suffix| + 1..|tail| - 1] == body;
  }

  /** The shape follows the hyphen, and the entry reads back as the name
      and the emoji's string, for a name without backslashes and braces. */
  lemma LatexTableEntryRoundTrip(e: Emoji)
    requires '\\' !in e.name && '{' !in e.name
    ensures StartsWith(LatexTableEntry(e), CSNAME_PREFIX) <==> HasCompoundName(e)
    ensures ParseLatexEntry(LatexTableEntry(e)) == Some((e.name, DisplayOf(e)))
  {
    EntryRoundTrip(e.name, DisplayOf(e), HasCompoundName(e));
  }

  /** Either shape reads back as its name and body, and only the
      `\csname` shape starts with its prefix. */
  lemma EntryRoundTrip(name: string, body: string, compound: bool)
    requires '\\' !in name && '{' !in name
    ensures StartsWith(Entry(name, body, compound), CSNAME_PREFIX) <==> compound
    ensures ParseLatexEntry(Entry(name, body, compound)) == Some((name, body))
  {
    var s := Entry(name, body, compound);
    if compound {
      assert s[..|CSNAME_PREFIX|] == CSNAME_PREFIX;
      ParseShapeOf(CSNAME_PREFIX, name, CSNAME_SUFFIX, body, '\\');
    } else {
      assert s == DEF_PREFIX + name + "" + "{" + body + "}";
      assert s[1] == 'd' && CSNAME_PREFIX[1] == 'e';
      ParseShapeOf(DEF_PREFIX, name, "", body, '{');
    }
  }

  /** The first `c` in `s` is at `|w|`, when `s` starts with `w`, which
      lacks `c`, followed by `c`. */
  lemma IndexOfAt(s: string, w: string, c: char)
    requires c !in w && |w| < |s| && s[..|w|] == w && s[|w|] == c
    ensures Declaration.IndexOf(s, c) == |w|
  {
  }

  // ---------------------------------------------------------------------------
  // `_parse_line`

  /** What a line yields: nothing, a group or subgroup header with its raw
      name, or a fully-qualified emoji. */
  datatype Item = Nothing | GroupHeader(name: string) | SubgroupHeader(name: string) | Declared(emoji: Emoji)

  /** Why a line stops the registry: a data line the pattern does not match
      (the `match` is `None`), or an emoji the constructor rejects. */
  datatype LineError = NoMatch | BadEmoji(error: EmojiError)

  const FULLY_QUALIFIED: string := "fully-qualified"

  /** What a declaration yields: nothing unless it is fully qualified,
      and otherwise the emoji of its codepoints under its lower-cased
      name. */
  function Declare(d: Declaration.Declaration): (r: Result<Item, LineError>)
    ensures d.status != FULLY_QUALIFIED ==> r == Ok(Nothing)
    ensures r.Err? ==> r.error.BadEmoji?
    ensures r.Ok? && r.value.Declared? ==>
      var e := r.value.emoji;
      && d.status == FULLY_QUALIFIED && NoUpper(e.name) && e.name == NormalizeName(Lower(d.name))
      && ToCodepoints(Tokens(StrTokens(SplitWhitespace(d.codepoints)))) == Ok(e.codepoints)
  {
    if d.status != FULLY_QUALIFIED then Ok(Nothing)
    else
      var name := Lower(d.name);
      NormalizeNameNoUpper(name);
      match New(name, Tokens(StrTokens(SplitWhitespace(d.codepoints))))
      case Ok(e) => Ok(Declared(e))
      case Err(x) => Err(BadEmoji(x))
  }

  /** `_parse_line`: the stripped line is a group header, a subgroup header,
      blank or a comment, or else a declaration, and a data line that is no
      declaration is an error.  Header names are kept raw. */
  function ParseLine(line: string): Result<Item, LineError> {
    var s := Strip(line);
    if StartsWith(s, Lines.GROUP_PREFIX) then Ok(GroupHeader(s[|Lines.GROUP_PREFIX|..]))
    else if StartsWith(s, Lines.SUBGROUP_PREFIX) then Ok(SubgroupHeader(s[|Lines.SUBGROUP_PREFIX|..]))
    else
      var recognized := Lines.Recognize(line);
      if recognized.None? then Err(NoMatch)
      else if recognized.value.DeclarationLine? then Declare(recognized.value.decl)
      else Ok(Nothing)
  }

  /** Headers keep their raw names; every other line is read as in
      config/emo.py, and only a line that is no declaration stops. */
  lemma ParseLineCases(line: string)
    ensures var s := Strip(line);
      && (StartsWith(s, Lines.GROUP_PREFIX) ==> ParseLine(line) == Ok(GroupHeader(s[|Lines.GROUP_PREFIX|..])))
      && (!StartsWith(s, Lines.GROUP_PREFIX) && StartsWith(s, Lines.SUBGROUP_PREFIX) ==>
            ParseLine(line) == Ok(SubgroupHeader(s[|Lines.SUBGROUP_PREFIX|..])))
    ensures Lines.Recognize(line) == Some(Lines.BlankLine) ==> ParseLine(line) == Ok(Nothing)
    ensures Lines.Recognize(line).Some? && Lines.Recognize(line).value.DeclarationLine? ==>
      ParseLine(line) == Declare(Lines.Recognize(line).value.decl)
  {
  }

  /** A line fails to parse exactly when it is neither a header nor a
      line the grammar of config/emo.py recognises; a declaration that
      fails does so for its emoji, never for its shape. */
  lemma ParseLineFails(line: string)
    ensures ParseLine(line) == Err(NoMatch) <==> Lines.Recognize(line).None?
    ensures ParseLine(line).Err? ==> ParseLine(line) == Err(NoMatch) || Lines.Recognize(line).value.DeclarationLine?
  {
  }

  /** A well-formed declaration line is taken apart by the same grammar as
      in config/emo.py; it yields nothing unless fully qualified, and
      otherwise the emoji of its codepoints under its lower-cased,
      normalised name. */
  lemma ParseDeclarationLine(d: Declaration.Declaration)
    requires Declaration.WellFormed(d) && !IsSpace(d.name[|d.name| - 1])
    ensures ParseLine(Declaration.Render(d)) == Declare(d)
  {
    var line := Declaration.Render(d);
    Lines.RecognizeDeclaration(d);
    Lines.RenderEnds(d);
    Lines.StripLine(line, d.codepoints[0], d.name[|d.name| - 1]);
    Lines.NotHeader(line);
  }

  // ---------------------------------------------------------------------------
  // `Registry.__init__`

  /** Why building the registry stops: a line `_parse_line` cannot take,
      or one of the three `ValueError`s of the constructor. */
  datatype Failure =
    | Unparsable(lineno: nat, error: LineError)
    | SubgroupWithoutGroup(subgroup: string)
    | EmojiWithoutSubgroup(emoji: Emoji)
    | DuplicateName(emoji: Emoji, other: Emoji)

  /** The constructor's locals and fields: the name table, the group table,
      the name of the current group, and the name and list of the current
      subgroup. */
  datatype State = State(
    byName: map<string, Emoji>,
    groups: Parser.Groups,
    group: Option<string>,
    subgroup: Option<string>,
    buffer: seq<Emoji>)

  /** The group table is a dictionary of dictionaries, the current group
      is in it, and a subgroup is only open inside a group. */
  predicate Cursor(st: State) {
    && Parser.Nested(st.groups)
    && (st.group.Some? ==> st.group.value in st.groups.m)
    && (st.subgroup.Some? ==> st.group.Some?)
  }

  function Start(): (st: State)
    ensures Cursor(st)
  {
    State(map[], Empty(), None, None, [])
  }

  /** `group[subgroup_name] = tuple(subgroup)` when a subgroup is open. */
  function Flush(st: State): (r: State)
    requires Cursor(st)
    ensures Cursor(r) && r.subgroup.None? && r.group == st.group && r.byName == st.byName
  {
    match st.subgroup
    case None => st
    case Some(s) => st.(groups := Parser.Store(st.groups, st.group.value, s, st.buffer), subgroup := None, buffer := [])
  }

  /** One parsed line of the constructor's loop.  Group and subgroup names
      are lower-cased; a header first stores the open subgroup; an emoji
      needs an open subgroup and a name not yet taken. */
  function Step(st: State, item: Item): (r: Result<State, Failure>)
    requires Cursor(st)
    ensures r.Ok? ==> Cursor(r.value)
    ensures item.SubgroupHeader? ==> (r.Err? <==> st.group.None?)
    ensures item.Declared? ==>
      (r.Err? <==> st.subgroup.None? || Lower(item.emoji.name) in st.byName)
    ensures item.Declared? && r.Ok? ==>
      r.value.byName == st.byName[Lower(item.emoji.name) := item.emoji] && r.value.buffer == st.buffer + [item.emoji]
    ensures !item.Declared? && r.Ok? ==> r.value.byName == st.byName
  {
    match item
    case Nothing => Ok(st)
    case GroupHeader(raw) =>
      var f := Flush(st);
      var name := Lower(raw);
      Ok(f.(groups := SetDefault(f.groups, name, Empty()), group := Some(name)))
    case SubgroupHeader(raw) =>
      if st.group.None? then Err(SubgroupWithoutGroup(raw))
      else
        var f := Flush(st);
        var name := Lower(raw);
        Ok(f.(subgroup := Some(name), buffer := Parser.Lookup(f.groups, f.group.value, name)))
    case Declared(e) =>
      var name := Lower(e.name);
      if st.subgroup.None? then Err(EmojiWithoutSubgroup(e))
      else if name in st.byName then Err(DuplicateName(e, st.byName[name]))
      else Ok(st.(byName := st.byName[name := e], buffer := st.buffer + [e]))
  }

  /** The constructor's loop over the parsed lines, numbered from 1. */
  function Scan(parsed: seq<Result<Item, LineError>>): (r: Result<State, Failure>)
    ensures r.Ok? ==> Cursor(r.value)
  {
    if parsed == [] then Ok(Start())
    else
      var n := |parsed|;
      var st :- Scan(parsed[..n - 1]);
      match parsed[n - 1]
      case Err(x) => Err(Unparsable(n, x))
      case Ok(item) => Step(st, item)
  }

  /** The tables of a registry. */
  datatype Registry = Registry(byName: map<string, Emoji>, groups: Parser.Groups)

  /** `Registry(path)` as written: after the loop, the open subgroup is
      never stored. */
  function Build(parsed: seq<Result<Item, LineError>>): Result<Registry, Failure> {
    var st :- Scan(parsed);
    Ok(Registry(st.byName, st.groups))
  }

  /** The constructor with the open subgroup stored after the loop, as it
      is after every header. */
  function BuildFlushed(parsed: seq<Result<Item, LineError>>): (r: Result<Registry, Failure>)
    ensures r.Ok? ==> Parser.Nested(r.value.groups)
  {
    var st :- Scan(parsed);
    var f := Flush(st);
    Ok(Registry(f.byName, f.groups))
  }

  /** The lines of a file as the constructor reads them: `readline`, the
      last character cut off, `_parse_line`. */
  function Read(text: string): seq<Result<Item, LineError>> {
    var lines := Lines.ReadLines(text);
    seq(|lines|, i requires 0 <= i < |lines| => ParseLine(Lines.Chop(lines[i])))
  }

  // ---------------------------------------------------------------------------
  // Every named emoji is in a subgroup, once the open subgroup is stored

  /** The group table with the open subgroup stored. */
  function View(st: State): Parser.Groups
    requires Cursor(st)
  {
    Flush(st).groups
  }

  /** Storing `es` as a subgroup changes the count by the size of `es` less
      the size of the list it replaces. */
  lemma StoreTotal(groups: Parser.Groups, g: string, s: string, es: seq<Emoji>)
    requires Parser.Nested(groups) && g in groups.m
    ensures Parser.Total(Parser.Store(groups, g, s, es)) + |Parser.Lookup(groups, g, s)|
      == Parser.Total(groups) + |es|
  {
    var d := groups.m[g];
    SizePut(d, s, es, Parser.Length);
    SizePut(groups, g, Put(d, s, es), Parser.SubgroupsTotal);
  }

  /** A new group without subgroups adds nothing to the count. */
  lemma SetDefaultTotal(groups: Parser.Groups, name: string)
    requires Parser.Nested(groups)
    ensures Parser.Total(SetDefault(groups, name, Empty())) == Parser.Total(groups)
  {
    if name !in groups.m {
      SizePut(groups, name, Empty(), Parser.SubgroupsTotal);
      assert Parser.SubgroupsTotal(Empty()) == 0;
    }
  }

  /** A step keeps the difference between the stored count and the number
      of names: it adds a name exactly when it adds an emoji to the open
      subgroup. */
  lemma StepTotal(st: State, item: Item)
    requires Cursor(st) && Step(st, item).Ok?
    ensures var r := Step(st, item).value;
      Parser.Total(View(r)) - |r.byName| == Parser.Total(View(st)) - |st.byName|
  {
    var r := Step(st, item).value;
    match item
    case Nothing =>
    case GroupHeader(raw) =>
      SetDefaultTotal(Flush(st).groups, Lower(raw));
    case SubgroupHeader(raw) =>
      var f := Flush(st);
      StoreTotal(f.groups, f.group.value, Lower(raw), r.buffer);
    case Declared(e) =>
      var g := st.group.value;
      var s := st.subgroup.value;
      StoreTotal(st.groups, g, s, st.buffer);
      StoreTotal(st.groups, g, s, r.buffer);
  }

  /** The last line of a successful scan, in terms of the lines before. */
  lemma ScanLast(parsed: seq<Result<Item, LineError>>)
    requires parsed != [] && Scan(parsed).Ok?
    ensures var init := parsed[..|parsed| - 1];
      && Scan(init).Ok? && parsed[|parsed| - 1].Ok?
      && Step(Scan(init).value, parsed[|parsed| - 1].value) == Ok(Scan(parsed).value)
  {
  }

  /** After every line of a successful scan, storing the open subgroup
      would make the group table count exactly the named emoji. */
  lemma {:induction false} ScanTotal(parsed: seq<Result<Item, LineError>>)
    requires Scan(parsed).Ok?
    ensures Parser.Total(View(Scan(parsed).value)) == |Scan(parsed).value.byName|
  {
    if parsed != [] {
      var init := parsed[..|parsed| - 1];
      ScanLast(parsed);
      ScanTotal(init);
      StepTotal(Scan(init).value, parsed[|parsed| - 1].value);
    } else {
      assert Parser.Total(Empty()) == 0;
    }
  }

  /** With the open subgroup stored after the loop, the subgroups hold as
      many emoji as the name table. */
  lemma BuildFlushedTotal(parsed: seq<Result<Item, LineError>>)
    requires BuildFlushed(parsed).Ok?
    ensures Parser.Total(BuildFlushed(parsed).value.groups) == |BuildFlushed(parsed).value.byName|
  {
    ScanTotal(parsed);
  }

  /** The constructor as written loses the emoji of the file's last
      subgroup: a file of one group, one subgroup and one emoji yields a
      registry that knows the emoji by name but lists no emoji under any
      subgroup, where storing the open subgroup lists it. */
  lemma BuildLosesLastSubgroup(g: string, sub: string, e: Emoji)
    requires NoUpper(g) && NoUpper(sub) && NoUpper(e.name)
    ensures var parsed: seq<Result<Item, LineError>> := [Ok(GroupHeader(g)), Ok(SubgroupHeader(sub)), Ok(Declared(e))];
      && Build(parsed).Ok? && Build(parsed).value.byName == map[e.name := e]
      && Parser.Total(Build(parsed).value.groups) == 0
      && Parser.Lookup(Build(parsed).value.groups, g, sub) == []
      && BuildFlushed(parsed).Ok?
      && Parser.Lookup(BuildFlushed(parsed).value.groups, g, sub) == [e]
  {
    ScanExample(g, sub, e);
    SetDefaultTotal(Empty(), g);
    assert Parser.Total(Empty()) == 0;
    assert Parser.Lookup(Put(Empty(), g, Empty()), g, sub) == [];
  }

  /** The state after the three lines of the example above: the emoji is
      named, and only the open subgroup holds it. */
  lemma ScanExample(g: string, sub: string, e: Emoji)
    requires NoUpper(g) && NoUpper(sub) && NoUpper(e.name)
    ensures Scan([Ok(GroupHeader(g)), Ok(SubgroupHeader(sub)), Ok(Declared(e))])
      == Ok(State(map[e.name := e], Put(Empty(), g, Empty()), Some(g), Some(sub), [e]))
  {
    var p2: seq<Result<Item, LineError>> := [Ok(GroupHeader(g)), Ok(SubgroupHeader(sub))];
    ScanExampleHeaders(g, sub);
    LowerIdempotent(e.name);
    ScanAppend(p2, Declared(e));
    var byName: map<string, Emoji> := map[];
    assert byName[e.name := e] == map[e.name := e];
    assert [] + [e] == [e];
    assert p2 + [Ok(Declared(e))] == [Ok(GroupHeader(g)), Ok(SubgroupHeader(sub)), Ok(Declared(e))];
  }

  /** The state after a group header and a subgroup header. */
  lemma ScanExampleHeaders(g: string, sub: string)
    requires NoUpper(g) && NoUpper(sub)
    ensures Scan([Ok(GroupHeader(g)), Ok(SubgroupHeader(sub))])
      == Ok(State(map[], Put(Empty(), g, Empty()), Some(g), Some(sub), []))
  {
    var p1: seq<Result<Item, LineError>> := [Ok(GroupHeader(g))];
    ScanExampleGroup(g);
    LowerIdempotent(sub);
    ScanAppend(p1, SubgroupHeader(sub));
    assert Parser.Lookup(Put(Empty(), g, Empty()), g, sub) == [];
    assert p1 + [Ok(SubgroupHeader(sub))] == [Ok(GroupHeader(g)), Ok(SubgroupHeader(sub))];
  }

  /** The state after a group header. */
  lemma ScanExampleGroup(g: string)
    requires NoUpper(g)
    ensures Scan([Ok(GroupHeader(g))]) == Ok(State(map[], Put(Empty(), g, Empty()), Some(g), None, []))
  {
    var p0: seq<Result<Item, LineError>> := [];
    LowerIdempotent(g);
    ScanAppend(p0, GroupHeader(g));
    assert p0 + [Ok(GroupHeader(g))] == [Ok(GroupHeader(g))];
  }

  /** The scan of a parsed line appended to a successfully scanned prefix. */
  lemma ScanAppend(parsed: seq<Result<Item, LineError>>, item: Item)
    requires Scan(parsed).Ok?
    ensures Scan(parsed + [Ok(item)]) == Step(Scan(parsed).value, item)
  {
    assert (parsed + [Ok(item)])[..|parsed|] == parsed;
  }
}

=== FILE: strings.dfy ===
/** String primitives the emoji scripts take from Python's `str`: ASCII case
    folding, the whitespace test behind `strip()` and `split()`, hexadecimal
    formatting (`f'{cp:04X}'`) and parsing (`int(s, 16)`), `replace`, `split`
    and `join`. */
module Strings {
  import opened Wrappers

  // ---------------------------------------------------------------------------
  // Characters

  predicate IsAsciiUpper(c: char) {
    'A' <= c <= 'Z'
  }

  predicate IsAsciiLower(c: char) {
    'a' <= c <= 'z'
  }

  /** `c.lower()` restricted to ASCII: only `A`..`Z` change. */
  function LowerChar(c: char): char {
    if IsAsciiUpper(c) then (c as int - 'A' as int + 'a' as int) as char else c
  }

  /** The characters for which Python's `str.isspace()` holds; `strip()` and
      `split()` without arguments use exactly this set. */
  predicate IsSpace(c: char) {
    || c == ' ' || ('\t' <= c <= '\r')
    || ('\U{1C}' <= c <= '\U{1F}')
    || c == '\U{85}' || c == '\U{A0}' || c == '\U{1680}'
    || ('\U{2000}' <= c <= '\U{200A}')
    || c == '\U{2028}' || c == '\U{2029}' || c == '\U{202F}' || c == '\U{205F}'
    || c == '\U{3000}'
  }

  predicate IsHexDigit(c: char) {
    ('0' <= c <= '9') || ('a' <= c <= 'f') || ('A' <= c <= 'F')
  }

  function HexDigitValue(c: char): (d: nat)
    requires IsHexDigit(c)
    ensures d < 16
  {
    if '0' <= c <= '9' then c as int - '0' as int
    else if 'a' <= c <= 'f' then c as int - 'a' as int + 10
    else c as int - 'A' as int + 10
  }

  /** The digit character for `d`, in upper or lower case. */
  function HexChar(d: nat, upper: bool): (c: char)
    requires d < 16
    ensures IsHexDigit(c) && HexDigitValue(c) == d
    ensures upper ==> !IsAsciiLower(c)
    ensures !upper ==> !IsAsciiUpper(c)
  {
    if d < 10 then ('0' as int + d) as char
    else if upper then ('A' as int + d - 10) as char
    else ('a' as int + d - 10) as char
  }

  // ---------------------------------------------------------------------------
  // Whole strings

  predicate AllHex(s: string) {
    forall i :: 0 <= i < |s| ==> IsHexDigit(s[i])
  }

  predicate NoSpace(s: string) {
    forall i :: 0 <= i < |s| ==> !IsSpace(s[i])
  }

  predicate NoUpper(s: string) {
    forall i :: 0 <= i < |s| ==> !IsAsciiUpper(s[i])
  }

  predicate StartsWith(s: string, prefix: string) {
    |prefix| <= |s| && s[..|prefix|] == prefix
  }

  predicate EndsWith(s: string, suffix: string) {
    |suffix| <= |s| && s[|s| - |suffix|..] == suffix
  }

  /** A non-empty prefix splits off its first element. */
  lemma ConsAppend<T>(w: seq<T>, rest: seq<T>)
    requires w != []
    ensures w + rest == [w[0]] + (w[1..] + rest)
  {
  }

  /** Concatenation is associative. */
  lemma Assoc<T>(a: seq<T>, b: seq<T>, c: seq<T>)
    ensures a + (b + c) == a + b + c
  {
  }

  /** Concatenation regrouped around its middle three parts. */
  lemma Regroup<T>(a: seq<T>, b: seq<T>, c: seq<T>, d: seq<T>, e: seq<T>)
    ensures a + b + c + d + e == a + (b + c + d) + e
  {
    assert a + b + c == a + (b + c);
    assert a + (b + c) + d == a + (b + c + d);
  }

  /** A sequence is its three slices around `i` and `j`. */
  lemma SliceThree<T>(s: seq<T>, i: nat, j: nat)
    requires i <= j <= |s|
    ensures s == s[..i] + s[i..j] + s[j..]
  {
    assert s[..j] == s[..i] + s[i..j];
  }

  /** Hexadecimal digits, signs and the base prefix's letters are not
      whitespace. */
  lemma NotSpace(c: char)
    requires IsHexDigit(c) || c == '+' || c == '-' || c == 'x' || c == 'X' || c == '_'
    ensures !IsSpace(c)
  {
  }

  /** A suffix of a suffix is a suffix. */
  lemma SliceOfSlice<T>(s: seq<T>, i: nat, j: nat)
    requires i <= |s| && j <= |s| - i
    ensures s[i..][j..] == s[i + j..]
  {
  }

  /** A concatenation ends with its second part, and starts with a string
      no longer than its first part exactly when that first part does. */
  lemma ConcatAffixes(p: string, f: string, q: string)
    requires |q| <= |p|
    ensures EndsWith(p + f, f)
    ensures StartsWith(p + f, q) <==> StartsWith(p, q)
  {
    assert (p + f)[|p + f| - |f|..] == f;
    assert (p + f)[..|q|] == p[..|q|];
  }

  /** `t in s` for strings: `t` occurs somewhere in `s`. */
  predicate Contains(s: string, t: string) {
    exists i :: 0 <= i <= |s| - |t| && StartsWith(s[i..], t)
  }

  /** An occurrence of `t` puts the first character of `t` in `s`. */
  lemma ContainsFirst(s: string, t: string)
    requires t != [] && Contains(s, t)
    ensures t[0] in s
  {
    var i :| 0 <= i <= |s| - |t| && StartsWith(s[i..], t);
    assert s[i] == s[i..][..|t|][0];
  }

  /** `s.lower()` on the ASCII range. */
  function Lower(s: string): (r: string)
    ensures |r| == |s|
    ensures forall i :: 0 <= i < |s| ==> r[i] == LowerChar(s[i])
    ensures NoUpper(r)
  {
    seq(|s|, i requires 0 <= i < |s| => LowerChar(s[i]))
  }

  /** Case folding is a projection: folding twice is folding once, and a
      string with no upper-case letter is left alone. */
  lemma LowerIdempotent(s: string)
    ensures NoUpper(s) ==> Lower(s) == s
    ensures Lower(Lower(s)) == Lower(s)
  {
  }

  /** `s.lstrip()`: drop the leading whitespace. */
  function TrimLeft(s: string): (r: string)
    ensures |r| <= |s| && r == s[|s| - |r|..]
    ensures forall i :: 0 <= i < |s| - |r| ==> IsSpace(s[i])
    ensures r == [] || !IsSpace(r[0])
  {
    if s != [] && IsSpace(s[0]) then TrimLeft(s[1..]) else s
  }

  /** `s.rstrip()`: drop the trailing whitespace. */
  function TrimRight(s: string): (r: string)
    ensures |r| <= |s| && r == s[..|r|]
    ensures forall i :: |r| <= i < |s| ==> IsSpace(s[i])
    ensures r == [] || !IsSpace(r[|r| - 1])
  {
    if s != [] && IsSpace(s[|s| - 1]) then TrimRight(s[..|s| - 1]) else s
  }

  /** `s.strip()`. */
  function Strip(s: string): string {
    TrimRight(TrimLeft(s))
  }

  /** `strip()` removes exactly the whitespace on both ends: what is left is
      the slice of the input at some offset `i`, it neither starts nor ends
      with whitespace, and everything cut off on either side is whitespace. */
  lemma StripIsSlice(s: string) returns (i: nat)
    ensures i + |Strip(s)| <= |s| && s[i..i + |Strip(s)|] == Strip(s)
    ensures forall k :: 0 <= k < i ==> IsSpace(s[k])
    ensures forall k :: i + |Strip(s)| <= k < |s| ==> IsSpace(s[k])
    ensures Strip(s) == [] || (!IsSpace(Strip(s)[0]) && !IsSpace(Strip(s)[|Strip(s)| - 1]))
  {
    i := |s| - |TrimLeft(s)|;
    StripSlice(s, TrimLeft(s), Strip(s));
  }

  /** `strip()` removes a run of whitespace from each end. */
  lemma StripShape(s: string) returns (lead: string, trail: string)
    ensures s == lead + Strip(s) + trail
    ensures forall k :: 0 <= k < |lead| ==> IsSpace(lead[k])
    ensures forall k :: 0 <= k < |trail| ==> IsSpace(trail[k])
  {
    var i := StripIsSlice(s);
    var j := i + |Strip(s)|;
    lead, trail := s[..i], s[j..];
    SliceThree(s, i, j);
  }

  /** `StripIsSlice` for any `l` cut from the front of `s` as `lstrip()`
      cuts and any `r` cut from the back of `l` as `rstrip()` cuts. */
  lemma StripSlice(s: string, l: string, r: string)
    requires |l| <= |s| && l == s[|s| - |l|..]
    requires forall k :: 0 <= k < |s| - |l| ==> IsSpace(s[k])
    requires l == [] || !IsSpace(l[0])
    requires |r| <= |l| && r == l[..|r|]
    requires forall k :: |r| <= k < |l| ==> IsSpace(l[k])
    requires r == [] || !IsSpace(r[|r| - 1])
    ensures var i := |s| - |l|;
      && i + |r| <= |s| && s[i..i + |r|] == r
      && (forall k :: 0 <= k < i ==> IsSpace(s[k]))
      && (forall k :: i + |r| <= k < |s| ==> IsSpace(s[k]))
      && (r == [] || (!IsSpace(r[0]) && !IsSpace(r[|r| - 1])))
  {
    var i := |s| - |l|;
    assert s[i..i + |r|] == l[..|r|];
    forall k | i + |r| <= k < |s|
      ensures IsSpace(s[k])
    {
      assert s[k] == l[k - i];
    }
    if r != [] {
      assert r[0] == l[0];
    }
  }

  /** A string that neither starts nor ends with whitespace is its own
      `strip()`. */
  lemma StripUnchanged(s: string)
    requires s == [] || (!IsSpace(s[0]) && !IsSpace(s[|s| - 1]))
    ensures Strip(s) == s
  {
  }

  /** Whitespace around a string that neither starts nor ends with
      whitespace is exactly what `strip()` removes. */
  lemma StripPadded(lead: string, core: string, trail: string)
    requires forall k :: 0 <= k < |lead| ==> IsSpace(lead[k])
    requires forall k :: 0 <= k < |trail| ==> IsSpace(trail[k])
    requires core != [] && !IsSpace(core[0]) && !IsSpace(core[|core| - 1])
    ensures Strip(lead + core + trail) == core
  {
    assert lead + core + trail == lead + (core + trail);
    TrimLeftPadded(lead, core + trail);
    TrimRightPadded(core, trail);
  }

  lemma {:induction false} TrimLeftPadded(lead: string, s: string)
    requires forall k :: 0 <= k < |lead| ==> IsSpace(lead[k])
    requires s != [] && !IsSpace(s[0])
    ensures TrimLeft(lead + s) == s
    decreases |lead|
  {
    if lead == [] {
      assert lead + s == s;
    } else {
      var t := lead + s;
      assert t[0] == lead[0] && t[1..] == lead[1..] + s;
      TrimLeftPadded(lead[1..], s);
      assert TrimLeft(t) == TrimLeft(t[1..]);
    }
  }

  lemma {:induction false} TrimRightPadded(s: string, trail: string)
    requires forall k :: 0 <= k < |trail| ==> IsSpace(trail[k])
    requires s != [] && !IsSpace(s[|s| - 1])
    ensures TrimRight(s + trail) == s
    decreases |trail|
  {
    if trail == [] {
      assert s + trail == s;
    } else {
      var t := trail[..|trail| - 1];
      var u := s + trail;
      assert u[|u| - 1] == trail[|trail| - 1] && u[..|u| - 1] == s + t;
      TrimRightPadded(s, t);
      assert TrimRight(u) == TrimRight(u[..|u| - 1]);
    }
  }

  // ---------------------------------------------------------------------------
  // Hexadecimal

  /** The value of a string of hexadecimal digits, most significant first. */
  function HexValue(s: string): nat
    requires AllHex(s)
  {
    if s == [] then 0 else HexValue(s[..|s| - 1]) * 16 + HexDigitValue(s[|s| - 1])
  }

  /** `int(s, base=16)` restricted to plain hexadecimal digits: the empty
      string and any other character are a format error (`None`). */
  function ParseHex(s: string): (r: Option<nat>)
    ensures r.Some? <==> s != [] && AllHex(s)
  {
    if s != [] && AllHex(s) then Some(HexValue(s)) else None
  }

  /** The shortest hexadecimal spelling of `n` (`f'{n:x}'` or `f'{n:X}'`). */
  function HexDigits(n: nat, upper: bool): (r: string)
    ensures r != [] && AllHex(r)
    ensures HexValue(r) == n
    ensures upper ==> forall i :: 0 <= i < |r| ==> !IsAsciiLower(r[i])
    ensures !upper ==> NoUpper(r)
    ensures |r| > 1 ==> r[0] != '0'
    decreases n
  {
    if n < 16 then [HexChar(n, upper)]
    else
      var r := HexDigits(n / 16, upper) + [HexChar(n % 16, upper)];
      assert r[..|r| - 1] == HexDigits(n / 16, upper);
      r
  }

  function Zeros(k: nat): (z: string)
    ensures |z| == k && forall i :: 0 <= i < k ==> z[i] == '0'
  {
    seq(k, _ => '0')
  }

  /** Leading zeros do not change the value of a hexadecimal string. */
  lemma {:induction false} HexValueLeadingZeros(k: nat, s: string)
    requires AllHex(s)
    ensures AllHex(Zeros(k) + s) && HexValue(Zeros(k) + s) == HexValue(s)
    decreases |s|
  {
    var z := Zeros(k);
    if s == [] {
      HexValueZeros(k);
      assert z + s == z;
    } else {
      var s' := s[..|s| - 1];
      HexValueLeadingZeros(k, s');
      assert (z + s)[..|z + s| - 1] == z + s';
    }
  }

  lemma {:induction false} HexValueZeros(k: nat)
    ensures AllHex(Zeros(k)) && HexValue(Zeros(k)) == 0
  {
    if k > 0 {
      HexValueZeros(k - 1);
      assert Zeros(k)[..k - 1] == Zeros(k - 1);
    }
  }

  /** `f'{n:04X}'` (upper) or `f'{n:04x}'` (lower): at least four digits,
      zero-padded on the left.  Reading the result back as hexadecimal gives
      `n` again. */
  function Hex4(n: nat, upper: bool): (r: string)
    ensures |r| >= 4 && AllHex(r)
    ensures ParseHex(r) == Some(n)
    ensures upper ==> forall i :: 0 <= i < |r| ==> !IsAsciiLower(r[i])
    ensures !upper ==> NoUpper(r)
  {
    var d := HexDigits(n, upper);
    if |d| >= 4 then d
    else
      HexValueLeadingZeros(4 - |d|, d);
      Zeros(4 - |d|) + d
  }

  /** Distinct numbers have distinct four-digit spellings. */
  lemma Hex4Injective(m: nat, n: nat, upper: bool)
    requires Hex4(m, upper) == Hex4(n, upper)
    ensures m == n
  {
    assert ParseHex(Hex4(m, upper)) == Some(m);
  }

  // ---------------------------------------------------------------------------
  // replace, split, join

  /** `s.replace(pat, rep)`: every occurrence of `pat`, scanning left to right
      and without overlap, becomes `rep`.  Its properties are the lemmas
      below, kept apart so that the verifier can evaluate it on literals
      cheaply. */
  function ReplaceAll(s: string, pat: string, rep: string): string
    requires pat != []
    decreases |s|
  {
    if |s| < |pat| then s
    else if s[..|pat|] == pat then rep + ReplaceAll(s[|pat|..], pat, rep)
    else [s[0]] + ReplaceAll(s[1..], pat, rep)
  }

  /** Replacing introduces no character that is in neither string. */
  lemma {:induction false} ReplaceAllChars(s: string, pat: string, rep: string)
    requires pat != []
    ensures forall c :: c in ReplaceAll(s, pat, rep) ==> c in s || c in rep
    decreases |s|
  {
    if |s| < |pat| {
    } else if s[..|pat|] == pat {
      ReplaceAllChars(s[|pat|..], pat, rep);
      forall c | c in s[|pat|..] ensures c in s { }
    } else {
      ReplaceAllChars(s[1..], pat, rep);
      forall c | c in s[1..] ensures c in s { }
    }
  }

  /** Without an occurrence, replacing changes nothing. */
  lemma {:induction false} ReplaceAllNoMatch(s: string, pat: string, rep: string)
    requires pat != [] && !Contains(s, pat)
    ensures ReplaceAll(s, pat, rep) == s
    decreases |s|
  {
    if |s| >= |pat| {
      assert !StartsWith(s[0..], pat);
      assert s[0..] == s;
      ContainsTail(s, pat);
      ReplaceAllNoMatch(s[1..], pat, rep);
    }
  }

  /** An occurrence in the tail of a string is an occurrence in the string. */
  lemma ContainsTail(s: string, t: string)
    requires s != []
    ensures Contains(s[1..], t) ==> Contains(s, t)
  {
    if Contains(s[1..], t) {
      var i :| 0 <= i <= |s[1..]| - |t| && StartsWith(s[1..][i..], t);
      assert s[1..][i..] == s[i + 1..];
    }
  }

  /** `sep.join(parts)`. */
  function Join(parts: seq<string>, sep: string): string {
    if parts == [] then []
    else if |parts| == 1 then parts[0]
    else parts[0] + sep + Join(parts[1..], sep)
  }

  /** `s.split(sep)` for a non-empty separator: the pieces between the
      occurrences of `sep` found scanning left to right, always at least one. */
  function Split(s: string, sep: string): (r: seq<string>)
    requires sep != []
    ensures |r| >= 1
    decreases |s|
  {
    if |s| < |sep| then [s]
    else if s[..|sep|] == sep then [[]] + Split(s[|sep|..], sep)
    else
      var rest := Split(s[1..], sep);
      [[s[0]] + rest[0]] + rest[1..]
  }

  /** Joining the pieces of a split with the same separator restores the
      string. */
  lemma {:induction false} JoinSplit(s: string, sep: string)
    requires sep != []
    ensures Join(Split(s, sep), sep) == s
    decreases |s|
  {
    if |s| < |sep| {
    } else if s[..|sep|] == sep {
      JoinSplit(s[|sep|..], sep);
      JoinSplitSeparator(s, sep);
    } else {
      JoinSplit(s[1..], sep);
      JoinSplitChar(s, sep);
    }
  }

  /** Step of `JoinSplit` when `s` starts with the separator. */
  lemma JoinSplitSeparator(s: string, sep: string)
    requires sep != [] && |s| >= |sep| && s[..|sep|] == sep
    requires Join(Split(s[|sep|..], sep), sep) == s[|sep|..]
    ensures Join(Split(s, sep), sep) == s
  {
    var tail := s[|sep|..];
    var parts := [[]] + Split(tail, sep);
    assert Split(s, sep) == parts;
    assert parts[1..] == Split(tail, sep);
    JoinCons(parts, sep);
    assert parts[0] + sep == sep;
    assert s == sep + tail;
    assert Join(parts, sep) == s;
  }

  /** Step of `JoinSplit` when `s` does not start with the separator. */
  lemma JoinSplitChar(s: string, sep: string)
    requires sep != [] && |s| >= |sep| && s[..|sep|] != sep
    requires Join(Split(s[1..], sep), sep) == s[1..]
    ensures Join(Split(s, sep), sep) == s
  {
    var rest := Split(s[1..], sep);
    SplitChar(s, sep);
    JoinFirst(rest, s[0], sep);
    assert s == [s[0]] + s[1..];
  }

  /** One unfolding of `Split` when `s` does not start with the separator. */
  lemma SplitChar(s: string, sep: string)
    requires sep != [] && |s| >= |sep| && s[..|sep|] != sep
    ensures var rest := Split(s[1..], sep);
      Split(s, sep) == [[s[0]] + rest[0]] + rest[1..]
  {
  }

  /** Prepending a character to the first piece prepends it to the join. */
  lemma JoinFirst(parts: seq<string>, c: char, sep: string)
    requires |parts| >= 1
    ensures Join([[c] + parts[0]] + parts[1..], sep) == [c] + Join(parts, sep)
  {
    var parts' := [[c] + parts[0]] + parts[1..];
    assert parts'[1..] == parts[1..];
    if |parts| > 1 {
      JoinCons(parts', sep);
      JoinCons(parts, sep);
    }
  }

  lemma JoinCons(parts: seq<string>, sep: string)
    requires |parts| > 1
    ensures Join(parts, sep) == parts[0] + sep + Join(parts[1..], sep)
  {
  }

  /** `t` occurs nowhere in `s`, checked position by position. */
  predicate Lacks(s: string, t: string)
    decreases |s|
  {
    |s| < |t| || (s[..|t|] != t && Lacks(s[1..], t))
  }

  /** `Lacks` is the negation of `Contains`. */
  lemma {:induction false} LacksContains(s: string, t: string)
    ensures Lacks(s, t) <==> !Contains(s, t)
    decreases |s|
  {
    if t == [] {
      assert StartsWith(s[0..], t);
    } else if |s| >= |t| {
      LacksContains(s[1..], t);
      if s[..|t|] == t {
        assert StartsWith(s[0..], t);
      } else if Contains(s, t) {
        var i :| 0 <= i <= |s| - |t| && StartsWith(s[i..], t);
        assert i != 0;
        assert s[1..][i - 1..] == s[i..];
      }
    }
  }

  /** The pieces of a split at the leftmost occurrences of `sep`: no piece
      but the last, followed by all of `sep` but its last character, holds
      `sep` (so each piece ends where the first occurrence after it
      starts), and the last piece holds no `sep` at all. */
  predicate Leftmost(r: seq<string>, sep: string)
    requires |r| >= 1 && sep != []
  {
    && (forall i :: 0 <= i < |r| - 1 ==> Lacks(r[i] + sep[..|sep| - 1], sep))
    && Lacks(r[|r| - 1], sep)
  }

  /** `s.split(sep)` splits at the leftmost occurrences. */
  lemma {:induction false} SplitLeftmost(s: string, sep: string)
    requires sep != []
    ensures Leftmost(Split(s, sep), sep)
    decreases |s|
  {
    if |s| < |sep| {
    } else if s[..|sep|] == sep {
      var tail := s[|sep|..];
      SplitLeftmost(tail, sep);
      assert [] + sep[..|sep| - 1] == sep[..|sep| - 1];
      LeftmostCons([], Split(tail, sep), sep);
    } else {
      SplitLeftmost(s[1..], sep);
      var rest := Split(s[1..], sep);
      SplitChar(s, sep);
      JoinSplit(s[1..], sep);
      SplitLeftmostFirst(s, sep, rest);
      LeftmostFirst([s[0]] + rest[0], rest, sep);
    }
  }

  /** A piece that ends at the first occurrence, in front of leftmost
      pieces. */
  lemma LeftmostCons(w: string, rest: seq<string>, sep: string)
    requires |rest| >= 1 && sep != []
    requires Leftmost(rest, sep) && Lacks(w + sep[..|sep| - 1], sep)
    ensures Leftmost([w] + rest, sep)
  {
    var r := [w] + rest;
    var sep' := sep[..|sep| - 1];
    forall i | 0 <= i < |r| - 1
      ensures Lacks(r[i] + sep', sep)
    {
      if i > 0 {
        assert r[i] == rest[i - 1];
      }
    }
    assert r[|r| - 1] == rest[|rest| - 1];
  }

  /** Leftmost pieces with their first piece replaced by `w`, which is
      leftmost in the same place. */
  lemma LeftmostFirst(w: string, rest: seq<string>, sep: string)
    requires |rest| >= 1 && sep != []
    requires Leftmost(rest, sep)
    requires |rest| > 1 ==> Lacks(w + sep[..|sep| - 1], sep)
    requires |rest| == 1 ==> Lacks(w, sep)
    ensures Leftmost([w] + rest[1..], sep)
  {
    var r := [w] + rest[1..];
    var sep' := sep[..|sep| - 1];
    forall i | 0 <= i < |r| - 1
      ensures Lacks(r[i] + sep', sep)
    {
      if i > 0 {
        assert r[i] == rest[i];
      }
    }
    if |rest| > 1 {
      assert r[|r| - 1] == rest[|rest| - 1];
    }
  }

  /** The first piece in the step of `SplitLeftmost` where `s` does not
      start with the separator. */
  lemma SplitLeftmostFirst(s: string, sep: string, rest: seq<string>)
    requires sep != [] && |s| >= |sep| && s[..|sep|] != sep
    requires |rest| >= 1 && Join(rest, sep) == s[1..]
    requires forall i :: 0 <= i < |rest| - 1 ==> Lacks(rest[i] + sep[..|sep| - 1], sep)
    requires Lacks(rest[|rest| - 1], sep)
    ensures |rest| > 1 ==> Lacks([s[0]] + rest[0] + sep[..|sep| - 1], sep)
    ensures |rest| == 1 ==> Lacks([s[0]] + rest[0], sep)
  {
    if |rest| > 1 {
      JoinCons(rest, sep);
      LacksCons(s, sep, rest[0], Join(rest[1..], sep));
    } else {
      assert [s[0]] + rest[0] == s;
    }
  }

  /** `s` is a character, a piece `w` and the separator, then more; with
      `s` not starting with the separator, `w` followed by all of the
      separator but its last character lacks it once the character is put
      back in front. */
  lemma LacksCons(s: string, sep: string, w: string, x: string)
    requires sep != [] && |s| >= |sep| && s[..|sep|] != sep
    requires s[1..] == w + sep + x
    requires Lacks(w + sep[..|sep| - 1], sep)
    ensures Lacks([s[0]] + w + sep[..|sep| - 1], sep)
  {
    var sep' := sep[..|sep| - 1];
    var p := [s[0]] + w + sep';
    var n := |w| + |sep| - 1;
    assert (w + sep + x)[..n] == w + sep';
    assert s[1..n + 1] == w + sep';
    assert p == s[..n + 1];
    assert p[..|sep|] == s[..|sep|];
    assert p[1..] == w + sep';
  }

  /** The longest prefix of `s` without whitespace. */
  function LeadingWord(s: string): (w: string)
    ensures |w| <= |s| && w == s[..|w|] && NoSpace(w)
    ensures |w| < |s| ==> IsSpace(s[|w|])
  {
    if s == [] || IsSpace(s[0]) then []
    else [s[0]] + LeadingWord(s[1..])
  }

  /** `s.split()`: the maximal runs of non-whitespace, in order. */
  function SplitWhitespace(s: string): (r: seq<string>)
    ensures forall k :: 0 <= k < |r| ==> r[k] != [] && NoSpace(r[k])
    decreases |s|
  {
    if s == [] then []
    else if IsSpace(s[0]) then SplitWhitespace(s[1..])
    else
      var w := LeadingWord(s);
      [w] + SplitWhitespace(s[|w|..])
  }

  /** Words joined by single spaces split back into the same words. */
  lemma {:induction false} SplitWhitespaceJoin(words: seq<string>)
    requires forall k :: 0 <= k < |words| ==> words[k] != [] && NoSpace(words[k])
    ensures SplitWhitespace(Join(words, " ")) == words
    decreases |words|
  {
    if |words| == 0 {
    } else {
      var w := words[0];
      var s := Join(words, " ");
      LeadingWordOf(w, s);
      if |words| == 1 {
        assert s == w;
        assert s[|w|..] == [];
      } else {
        var tail := Join(words[1..], " ");
        assert s == w + " " + tail;
        assert s[|w|..] == " " + tail;
        assert s[|w|..][1..] == tail;
        SplitWhitespaceJoin(words[1..]);
      }
    }
  }

  /** A word followed by whitespace or the end of the string is the leading
      word. */
  lemma {:induction false} LeadingWordOf(w: string, s: string)
    requires w != [] && NoSpace(w) && StartsWith(s, w)
    requires |w| < |s| ==> IsSpace(s[|w|])
    ensures LeadingWord(s) == w
    decreases |w|
  {
    if |w| > 1 {
      assert StartsWith(s[1..], w[1..]);
      LeadingWordOf(w[1..], s[1..]);
      assert w == [w[0]] + w[1..];
    } else {
      assert |s| > 1 ==> IsSpace(s[1]);
      assert LeadingWord(s[1..]) == [];
    }
  }

  /** A piece without the separator character splits to itself. */
  lemma {:induction false} SplitNoSeparator(w: string, sep: string)
    requires |sep| == 1 && sep[0] !in w
    ensures Split(w, sep) == [w]
    decreases |w|
  {
    if w != [] {
      assert w[..1] != sep by { assert w[..1][0] == w[0]; }
      SplitNoSeparator(w[1..], sep);
      assert [w[0]] + w[1..] == w;
    }
  }

  /** A piece followed by the separator is split off as the first piece. */
  lemma {:induction false} SplitLeading(w: string, t: string, sep: string)
    requires |sep| == 1 && sep[0] !in w
    ensures Split(w + sep + t, sep) == [w] + Split(t, sep)
    decreases |w|
  {
    var s := w + sep + t;
    if w == [] {
      assert s[..1] == sep && s[1..] == t;
    } else {
      assert s[..1] != sep by { assert s[..1][0] == w[0]; }
      assert s[1..] == w[1..] + sep + t;
      SplitLeading(w[1..], t, sep);
      assert [w[0]] + w[1..] == w;
    }
  }

  /** Splitting pieces joined by a one-character separator that occurs in
      none of them gives back the pieces: the partner of `JoinSplit`. */
  lemma {:induction false} SplitJoin(parts: seq<string>, sep: string)
    requires |sep| == 1 && |parts| >= 1
    requires forall k :: 0 <= k < |parts| ==> sep[0] !in parts[k]
    ensures Split(Join(parts, sep), sep) == parts
    decreases |parts|
  {
    if |parts| == 1 {
      SplitNoSeparator(parts[0], sep);
    } else {
      SplitJoin(parts[1..], sep);
      SplitLeading(parts[0], Join(parts[1..], sep), sep);
      assert [parts[0]] + parts[1..] == parts;
    }
  }

  /** The longest prefix of `s` made of hexadecimal digits. */
  function HexRun(s: string): (h: string)
    ensures |h| <= |s| && h == s[..|h|] && AllHex(h)
    ensures |h| < |s| ==> !IsHexDigit(s[|h|])
  {
    if s == [] || !IsHexDigit(s[0]) then []
    else [s[0]] + HexRun(s[1..])
  }

  /** Hexadecimal digits followed by a non-digit or the end are the run. */
  lemma {:induction false} HexRunOf(h: string, s: string)
    requires AllHex(h) && StartsWith(s, h)
    requires |h| < |s| ==> !IsHexDigit(s[|h|])
    ensures HexRun(s) == h
    decreases |h|
  {
    if h != [] {
      assert IsHexDigit(s[0]);
      assert StartsWith(s[1..], h[1..]);
      HexRunOf(h[1..], s[1..]);
      assert h == [h[0]] + h[1..];
    }
  }
}

=== FILE: wrappers.dfy ===
/** Failure-carrying values shared by every module of the model: a missing
    value (`Option`) and a computation that either produced a value or
    raised an error (`Result`). */
module Wrappers {

  datatype Option<+T> = None | Some(value: T) {
    /** The value, or `default` when there is none (Python's `dict.get`). */
    function GetOr(default: T): T {
      match this
      case Some(v) => v
      case None => default
    }
  }

  datatype Result<+R, +E> = Ok(value: R) | Err(error: E) {
    predicate IsFailure() {
      Err?
    }

    function PropagateFailure<U>(): Result<U, E>
      requires Err?
    {
      Err(error)
    }

    function Extract(): R
      requires Ok?
    {
      value
    }
  }

  /** `m.get(k, default)`. */
  function MapGet<K, V>(m: map<K, V>, k: K, default: V): V {
    if k in m then m[k] else default
  }
}
